=== FILE: README.md ===
# Dergah Construction: a verified model of the site's catalogue, admin pages and chatbot

Dergah Construction's web site is a Next.js application. This project models its core in Dafny:

- the catalog items API route: POST, PATCH and DELETE over two backend tables, `catalog_items` and `catalog_item_images`;
- the admin catalog page: list, search, the create/edit modal, image uploads, and the request a save sends;
- the public catalog page: design-type and room-type chips, search, image tiles and the slider;
- the older mock catalogue page: a generated catalogue, local filtering, and the internet image search;
- the admin categories page: three in-memory lists, their modal, and the slug builder;
- the admin portfolio page: an in-memory list and its modal;
- the chatbot API route, which forwards a message to a webhook and extracts its reply;
- the chat widget: the reply formatter and the message list;
- the home page hero: the typewriter headline and the doubled marquee lists.

Each source file is one module. Pure logic is written as functions with lemmas. Pages and the route's backend are classes whose methods change their fields; each method is proved against a specification function.

- `Util` holds the JavaScript string and array semantics the pages rely on: `includes`, `toLowerCase`, `trim`, `filter` and number printing.
- `AdminLists` holds the id and list operations that the categories and portfolio pages share.
- `CatalogRows` holds the item shape that the routes and pages exchange.

## Model

| member | source | states |
|---|---|---|
| Util.ContainsIff | src/app/admin/portfolio/page.tsx:119-122 | `includes` holds exactly when the term occurs at some index of the text |
| Util.ContainsLonger | src/app/admin/portfolio/page.tsx:119-122 | a text never contains a longer term |
| Util.ContainsEmpty | src/app/admin/portfolio/page.tsx:119-122 | every text contains the empty term, so an empty search box keeps everything |
| Util.LowerChar | src/app/admin/categories/page.tsx:328 | lower-casing a character other than `İ` leaves no capital and changes only capitals, ASCII or Azerbaijani |
| Util.LowerCharFull | src/app/admin/categories/page.tsx:328 | `toLowerCase` gives one character per character, two for `İ`, and none of them a capital |
| Util.Lower | src/app/admin/categories/page.tsx:328 | `toLowerCase` gives one or two characters per character and leaves no capital, `İ` included |
| Util.LowerWithoutDottedI | src/app/admin/categories/page.tsx:328 | on text without `İ`, `toLowerCase` is one character per character |
| Util.LowerKeeps | src/app/admin/categories/page.tsx:328 | text without capitals is unchanged by lower-casing |
| Util.LowerIdempotent | src/app/admin/categories/page.tsx:328 | lower-casing twice is lower-casing once |
| Util.Trim | src/app/catalog/page.tsx:101 | `trim` removes exactly the leading and trailing white space: the result is a slice of the input with only white space before and after it, and none at its own ends |
| Util.TrimIdempotent | src/app/catalog/page.tsx:101 | trimming twice is trimming once |
| Util.TrimKeeps | src/app/catalog/page.tsx:101 | text that neither starts nor ends with white space is its own trim |
| Util.BlankConcat | src/components/Chatbot.tsx:60 | two pieces are blank together exactly when each is |
| Util.BlankIff | src/components/Chatbot.tsx:60 | `!text.trim()` holds exactly when the text is all white space |
| Util.NatToString | src/app/catalog/page.tsx:120-131 | a number prints as its decimal digits, at least one |
| Util.NatToStringInjective | src/app/catalog/page.tsx:120-131 | different numbers print differently |
| Util.DashNumberInjective | src/app/catalog/page.tsx:120-131 | in `a-n` with `n` a number, `a` and `n` are determined, because `n` is what follows the last hyphen |
| Util.Filter | src/app/admin/catalog/page.tsx:147-153 | `filter` keeps only elements that pass and never grows the list |
| Util.FilterMembers | src/app/admin/catalog/page.tsx:147-153 | the filtered list holds exactly the input elements that pass |
| Util.FilterIsSubsequence | src/app/admin/catalog/page.tsx:147-153 | filtering keeps the input order |
| Util.FilterAppend | src/app/admin/catalog/page.tsx:225 | filtering distributes over concatenation |
| Util.FilterAll | src/app/catalog/page.tsx:93-106 | a filter that rejects nothing returns the input |
| Util.FilterNone | src/app/catalog/page.tsx:93-106 | a filter that accepts nothing returns nothing |
| Util.FilterExt | src/app/catalog/page.tsx:93-106 | filtering depends only on the predicate's answers on the list |
| Util.FilterIdempotent | src/app/catalog/page.tsx:93-106 | filtering twice by the same test changes nothing |
| Util.FilterFilter | src/app/catalog/page.tsx:93-106 | two successive filters are one filter by the conjunction |
| Util.FilterKeepsDistinct | src/app/catalog/page.tsx:120-131 | dropping elements never makes two keys collide |
| CatalogRows.DesignName | src/app/admin/catalog/page.tsx:148 | an item without a design type has the empty design name |
| CatalogRows.RoomName | src/app/admin/catalog/page.tsx:149 | an item without a room type has the empty room name |
| CatalogRows.GalleryUrls | src/app/admin/catalog/page.tsx:81 | the gallery's URLs, one per image, in order |
| CatalogStore.UrlsToInsert | src/app/api/catalog/items/route.ts:75 | the URLs to insert are never more than those sent, and each is non-empty and not already on file |
| CatalogStore.MergeImages | src/app/api/catalog/items/route.ts:58-102 | merging only appends to the gallery table, every appended row belongs to the merged item and carries a non-empty URL other than the cover; without a non-empty `image_urls` or when the insert fails nothing is appended |
| CatalogStore.CreateImages | src/app/api/catalog/items/route.ts:105-126 | creating only appends to the gallery table, and only rows of the new item |
| CatalogStore.PostSpec | src/app/api/catalog/items/route.ts:27-154 | POST never rewrites or deletes a row, adds at most one item row, and assigns a new id only when it answers success with that id |
| CatalogStore.PatchSpec | src/app/api/catalog/items/route.ts:157-223 | PATCH never touches the item table or the next id, only appends gallery rows, and a success names the item asked for |
| CatalogStore.Cover | src/app/api/catalog/items/route.ts:36-38 | the cover is `image_url` when truthy, else the first of `image_urls`, else absent |
| CatalogStore.FindSameCover | src/app/api/catalog/items/route.ts:44-56 | the duplicate check finds nothing exactly when no row has the same design type, room type and cover; a hit is such a row |
| CatalogStore.CollectExistingUrls | src/app/api/catalog/items/route.ts:71-73 | the loop collects exactly the gallery's URLs plus the cover |
| CatalogStore.Store.InsertImages | src/app/api/catalog/items/route.ts:77-80 | one insert appends a row per URL at consecutive positions and changes nothing else |
| CatalogStore.PostRequest | src/app/api/catalog/items/route.ts:27-154 | a body that is not JSON, or is `null`, is a 500 with nothing written; no row is rewritten or deleted; success needs both type ids and a cover |
| CatalogStore.PatchRequest | src/app/api/catalog/items/route.ts:157-223 | a body that is not JSON, or is `null`, is a 500 with nothing written; the item table is untouched; a success names the item asked for |
| CatalogStore.Store.Post | src/app/api/catalog/items/route.ts:27-154 | the new tables and the reply are those of the POST handler, unusable bodies included, and ids stay valid |
| CatalogStore.Store.PostParsed | src/app/api/catalog/items/route.ts:30-147 | once the body is read, the new tables and the reply are those of the POST specification, and ids stay valid |
| CatalogStore.Store.Patch | src/app/api/catalog/items/route.ts:157-223 | the new tables and the reply are those of the PATCH handler, unusable bodies included |
| CatalogStore.Store.Delete | src/app/api/catalog/items/route.ts:225-257 | the new tables and the reply are those of the DELETE specification |
| CatalogStore.PostPreservesValid | src/app/api/catalog/items/route.ts:105-126 | POST keeps backend ids distinct and below the next id |
| CatalogStore.PatchPreservesValid | src/app/api/catalog/items/route.ts:191-206 | PATCH keeps backend ids valid |
| CatalogStore.DeletePreservesValid | src/app/api/catalog/items/route.ts:234-248 | DELETE keeps backend ids valid |
| CatalogStore.PostFailureWritesNothing | src/app/api/catalog/items/route.ts:33-41 | a POST that fails writes nothing; a missing type or a missing image is a 400 |
| CatalogStore.PostMergesIntoSameCover | src/app/api/catalog/items/route.ts:44-102 | with a same-cover item on file, POST adds no item row and answers with the id of such an item |
| CatalogStore.UrlsToInsertSpec | src/app/api/catalog/items/route.ts:75 | the URL filter keeps, in order, exactly the non-empty URLs not already on file |
| CatalogStore.MaxPositionIsMax | src/app/api/catalog/items/route.ts:77-78 | the largest position bounds every row's position and is one of them |
| CatalogStore.NextPositionIsAboveAll | src/app/api/catalog/items/route.ts:77-78 | the next position is above every row, 0 for an empty gallery, and one more than some row otherwise |
| CatalogStore.AppendedRowsFollowGallery | src/app/api/catalog/items/route.ts:77-80 | appended rows sit at consecutive positions above every row of the gallery |
| CatalogStore.PostMergeAppendsNewUrlsOnly | src/app/api/catalog/items/route.ts:58-102 | the merge path appends rows only for URLs new to the item, above its gallery |
| CatalogStore.PostCreatesFreshItem | src/app/api/catalog/items/route.ts:105-126 | the create path adds one item row with a fresh id and one gallery row per URL, verbatim, at positions 0 to n-1 |
| CatalogStore.PatchRejectsOrSkips | src/app/api/catalog/items/route.ts:162-189 | a missing item id or an empty URL list is a 400 that writes nothing; a request whose URLs are all empty or on file writes nothing |
| CatalogStore.PatchAppendsNewUrlsOnly | src/app/api/catalog/items/route.ts:185-206 | a successful PATCH appends rows only for new URLs, above the gallery |
| CatalogStore.DeleteRemovesGalleryThenItem | src/app/api/catalog/items/route.ts:225-257 | a missing id is a 400; otherwise the gallery rows go, then the item row, each unless its write fails |
| AdminCatalog.NewOnly | src/app/admin/catalog/page.tsx:107-108 | the URLs sent on edit are never more than the list and none was there when the modal opened |
| AdminCatalog.FilteredItems | src/app/admin/catalog/page.tsx:147-153 | the list view never adds items and shows only items that match the search and the selected design type |
| AdminCatalog.TotalImages | src/app/admin/catalog/page.tsx:225 | the "total images" card is at least the image count of any one item |
| AdminCatalog.SeedUrls | src/app/admin/catalog/page.tsx:81 | the edit modal opens with the gallery's URLs, else the cover when set, else nothing |
| AdminCatalog.NewOnlySpec | src/app/admin/catalog/page.tsx:107-108 | an edit sends exactly the URLs added since the modal opened, in list order |
| AdminCatalog.CreateBody | src/app/admin/catalog/page.tsx:130-135 | the create payload carries both type ids and the image list, or the typed URL when the list is empty |
| AdminCatalog.PlanSave | src/app/admin/catalog/page.tsx:104-145 | an edit sends a PATCH exactly when a URL was added; a create sends a POST exactly when the guard holds |
| AdminCatalog.EditWithoutAdditionsSendsNothing | src/app/admin/catalog/page.tsx:109-112 | keeping, reordering or removing images sends nothing |
| AdminCatalog.CreateRequestPassesValidation | src/app/admin/catalog/page.tsx:129-135 | a create the page sends passes the route's 400 checks whenever the first URL is non-empty |
| AdminCatalog.EmptyFirstUploadIsRejected | src/app/admin/catalog/page.tsx:129 | the page's guard lets through `[""]`, which the route rejects for a missing image |
| AdminCatalog.FilteredItemsSpec | src/app/admin/catalog/page.tsx:147-153 | the list keeps, in order, exactly the items whose room name contains the term and whose design type is selected |
| AdminCatalog.EmptySearchListsAll | src/app/admin/catalog/page.tsx:147-153 | an empty search with "all" selected lists every item |
| AdminCatalog.TotalImagesAppend | src/app/admin/catalog/page.tsx:225 | the image total is additive over the list |
| AdminCatalog.TotalImagesPrepend | src/app/admin/catalog/page.tsx:225 | a created item raises the total by its own images |
| AdminCatalog.TotalImagesFilter | src/app/admin/catalog/page.tsx:225 | deleting items never raises the total |
| AdminCatalog.AcceptedUrls | src/app/admin/catalog/page.tsx:435-441 | the URLs kept are exactly those of the accepted files, at most one per file |
| AdminCatalog.Uploaded | src/app/admin/catalog/page.tsx:432-443 | an upload adds nothing once any request threw, and otherwise only URLs the upload route returned, at most one per file |
| AdminCatalog.CollectUploads | src/app/admin/catalog/page.tsx:432-443 | the upload loop keeps the accepted URLs of the files it sent, in file order; it throws exactly when some request throws, and then stops at the first throwing file, so no later file is sent |
| AdminCatalog.RemoveAt | src/app/admin/catalog/page.tsx:455 | removing a preview drops exactly that index; an index outside the list removes nothing |
| AdminCatalog.ReplaceById | src/app/admin/catalog/page.tsx:118-124 | the updated item replaces the entries with its id and nothing else |
| AdminCatalog.CatalogAdminPage.constructor | src/app/admin/catalog/page.tsx:28-45 | empty list, closed modal, empty form and image lists |
| AdminCatalog.CatalogAdminPage.Load | src/app/admin/catalog/page.tsx:46-63 | a successful load replaces the list; a failed one keeps it |
| AdminCatalog.CatalogAdminPage.HandleCreate | src/app/admin/catalog/page.tsx:65-71 | opens an empty modal with empty image lists |
| AdminCatalog.CatalogAdminPage.HandleEdit | src/app/admin/catalog/page.tsx:73-85 | opens the modal on the item's ids and cover, both image lists seeded with its images |
| AdminCatalog.CatalogAdminPage.CloseModal | src/app/admin/catalog/page.tsx:470 | hides the modal and keeps everything else |
| AdminCatalog.CatalogAdminPage.HandleDelete | src/app/admin/catalog/page.tsx:87-102 | the item leaves the list only when the route reports success |
| AdminCatalog.CatalogAdminPage.AddTypedUrl | src/app/admin/catalog/page.tsx:416-420 | Enter appends the trimmed URL and clears the field, unless the field is blank |
| AdminCatalog.CatalogAdminPage.UploadFiles | src/app/admin/catalog/page.tsx:432-443 | the accepted uploads are appended to the image list, and nothing is appended when a request threw |
| AdminCatalog.CatalogAdminPage.RemovePreview | src/app/admin/catalog/page.tsx:455 | the preview at the index leaves the image list |
| AdminCatalog.CatalogAdminPage.HandleSave | src/app/admin/catalog/page.tsx:104-145 | sends the planned request; the route's item replaces or is prepended to the list, and the modal closes on success |
| PublicCatalog.Stages | src/app/catalog/page.tsx:93-106 | the three stages never add items, and with nothing selected and a blank query they keep every item |
| PublicCatalog.FilteredAsWritten | src/app/catalog/page.tsx:93-106 | the filter as written never adds items, and with nothing selected and a blank query it keeps every item |
| PublicCatalog.Filtered | src/app/catalog/page.tsx:93-106 | the corrected filter never adds items, and with nothing selected and a blank query it keeps every item |
| PublicCatalog.StageIsFilter | src/app/catalog/page.tsx:95-103 | a skipped stage keeps everything |
| PublicCatalog.StagesAreOneFilter | src/app/catalog/page.tsx:93-106 | the three stages are one filter by the conjunction of their tests |
| PublicCatalog.FilteredSpec | src/app/catalog/page.tsx:93-106 | the grid keeps, in order, exactly the items that are shown |
| PublicCatalog.ShownIsConjunction | src/app/catalog/page.tsx:93-106 | an item is shown exactly when its design type, its room type and the query all match |
| PublicCatalog.FilteredIgnoresSurroundingSpace | src/app/catalog/page.tsx:101-103 | with the trimmed search text, spaces around the query change nothing |
| PublicCatalog.FilteredAgreesOnTrimmedQueries | src/app/catalog/page.tsx:101-103 | the filter as written agrees with the corrected one on queries without surrounding space |
| PublicCatalog.TrailingSpaceHidesMatch | src/app/catalog/page.tsx:101-103 | as written, the query "villa " hides an item whose room is named "villa" |
| PublicCatalog.NoFilterShowsAll | src/app/catalog/page.tsx:93-106 | "all", "all" and an empty query show every item |
| PublicCatalog.TileUrls | src/app/catalog/page.tsx:120-131 | an item's images are its gallery, else its cover when set, else none |
| PublicCatalog.TilesOf | src/app/catalog/page.tsx:120-131 | one tile per image of the item, keyed by item id and image index |
| PublicCatalog.Expand | src/app/catalog/page.tsx:120-131 | the loops build the tiles of every item, item after item |
| PublicCatalog.ExpansionStep | src/app/catalog/page.tsx:120-131 | one more item adds exactly its tiles at the end |
| PublicCatalog.ExpansionKeys | src/app/catalog/page.tsx:120-131 | every tile key names an item of the list and an image index |
| PublicCatalog.KeyOfInjective | src/app/catalog/page.tsx:120-131 | a tile key determines its item id and image index |
| PublicCatalog.TileKeysDiffer | src/app/catalog/page.tsx:120-131 | the tiles of one item have different keys |
| PublicCatalog.LastTileKeyIsNew | src/app/catalog/page.tsx:120-131 | an item with an id no earlier item has adds only new keys |
| PublicCatalog.ExpansionKeysDistinct | src/app/catalog/page.tsx:120-131 | with distinct item ids, all tile keys are distinct |
| PublicCatalog.SlideCount | src/app/catalog/page.tsx:134 | at least one slide, and exactly enough slides of four for all tiles |
| PublicCatalog.Slide | src/app/catalog/page.tsx:318-320 | a slide holds at most four tiles |
| PublicCatalog.SlidesFromSuffix | src/app/catalog/page.tsx:318-320 | the slides from k on, laid end to end, are the tiles from 4k on |
| PublicCatalog.SlidesCoverTiles | src/app/catalog/page.tsx:318-320 | the slides laid end to end are the tiles, each exactly once |
| PublicCatalog.NextIndex | src/app/catalog/page.tsx:144-146 | the next slide is the following one, or the first after the last |
| PublicCatalog.PrevIndex | src/app/catalog/page.tsx:148-150 | the previous slide is the one before, or the last before the first |
| PublicCatalog.PrevNextInverse | src/app/catalog/page.tsx:144-150 | back after forward, and forward after back, return to the same slide |
| PublicCatalog.ChipNames | src/app/catalog/page.tsx:410 | "all" first, then every room type's name in order |
| PublicCatalog.VisibleChipsSpec | src/app/catalog/page.tsx:410-445 | the chips shown are a prefix of all chips: all when expanded, at most seven otherwise; the toggle counts the rest |
| PublicCatalog.RoomTypeCounts | src/app/catalog/page.tsx:109-117 | one count per chip: "all" counts the filtered items, a room counts its items under the design selection |
| PublicCatalog.RoomCountMatchesSelection | src/app/catalog/page.tsx:109-117 | with a blank query, clicking a room chip shows exactly as many items as it advertised |
| PublicCatalog.CatalogPage.constructor | src/app/catalog/page.tsx:22-33 | "all" selections, an empty query, slide 0, empty lists |
| PublicCatalog.CatalogPage.SlideTotal | src/app/catalog/page.tsx:134 | the slide count of the tiles on screen, at least one |
| PublicCatalog.CatalogPage.Load | src/app/catalog/page.tsx:68-91 | the three lists are set only when all three requests succeed |
| PublicCatalog.CatalogPage.NextSlide | src/app/catalog/page.tsx:144-146 | moves to the next slide, wrapping |
| PublicCatalog.CatalogPage.PrevSlide | src/app/catalog/page.tsx:148-150 | moves to the previous slide, wrapping |
| PublicCatalog.CatalogPage.AutoAdvance | src/app/catalog/page.tsx:136-142 | the timer advances only while there is more than one slide |
| PublicCatalog.CatalogPage.GoToSlide | src/app/catalog/page.tsx:388-392 | a dot jumps to its own slide |
| PublicCatalog.CatalogPage.SelectDesignType | src/app/catalog/page.tsx:217-223 | selects the chip's name, or "all" for the first chip, and rewinds the slider |
| PublicCatalog.CatalogPage.SelectRoomType | src/app/catalog/page.tsx:413-415 | selects the room and rewinds the slider |
| PublicCatalog.CatalogPage.ToggleCategories | src/app/catalog/page.tsx:434-445 | flips whether all chips are shown |
| OldCatalog.EncodeUriComponent | src/app/catalog/page-old.tsx:84 | `encodeURIComponent` output is made only of unreserved characters and `%`, and is between one and twelve times the input length |
| OldCatalog.MockItemFor | src/app/catalog/page-old.tsx:72-98 | a generated item has the given design type, one of the three sub-categories and one of the four categories, and its id starts with the design key and a hyphen |
| OldCatalog.Dedup | src/app/catalog/page-old.tsx:243-246 | `Array.from(new Set(...))` is never longer than its input and keeps the first element first |
| OldCatalog.Visible | src/app/catalog/page-old.tsx:378-406 | local mode shows at most the catalogue, and only items that pass every selected filter and contain the trimmed, lower-cased query |
| OldCatalog.EnhancedQuery | src/app/catalog/page-old.tsx:275-297 | the image-search request starts with the words typed and always adds a phrase after them |
| OldCatalog.DesignKeyInjective | src/app/catalog/page-old.tsx:22-27 | different design types have different keys |
| OldCatalog.ReplaceFirstHyphenSpec | src/app/catalog/page-old.tsx:82-83 | `replace("-", " ")` turns only the first hyphen into a space and keeps the rest |
| OldCatalog.Utf8 | src/app/catalog/page-old.tsx:84 | a character encodes to one to four bytes |
| OldCatalog.PercentBytes | src/app/catalog/page-old.tsx:84 | each byte becomes a three-character escape |
| OldCatalog.EncodeKeepsUnreserved | src/app/catalog/page-old.tsx:84 | `encodeURIComponent` leaves unreserved text unchanged |
| OldCatalog.EncodeDiger | src/app/catalog/page-old.tsx:84 | "digər" encodes as "dig%C9%99r" |
| OldCatalog.MockItems | src/app/catalog/page-old.tsx:72-98 | the generated catalogue has 80 items |
| OldCatalog.BlockIndex | src/app/catalog/page-old.tsx:72-98 | slot 20d + j of the catalogue is block d, position j |
| OldCatalog.GenerateItems | src/app/catalog/page-old.tsx:72-98 | the nested loops make 80 items, entry k being item k mod 20 + 1 of design type k div 20 |
| OldCatalog.BuildItems | src/app/catalog/page-old.tsx:72-98 | the loops with the page's item builder give the catalogue |
| OldCatalog.MockItemFields | src/app/catalog/page-old.tsx:79-90 | item i of a design type has its design type, sub-category i mod 3, the rotated category and its tags, and is not from the internet |
| OldCatalog.CatalogueEntry | src/app/catalog/page-old.tsx:72-98 | catalogue entry k is the item built for its block and slot |
| OldCatalog.CatalogueDesignType | src/app/catalog/page-old.tsx:72-98 | entry k has design type k div 20 |
| OldCatalog.CatalogueId | src/app/catalog/page-old.tsx:81 | entry k's id is built from its design type and slot |
| OldCatalog.DesignBlock | src/app/catalog/page-old.tsx:72-98 | slot k belongs to design type d exactly when k lies in block d |
| OldCatalog.SlotInjective | src/app/catalog/page-old.tsx:72-98 | block and position determine the slot |
| OldCatalog.TwentyPerDesignType | src/app/catalog/page-old.tsx:72-98 | each design type has exactly the twenty items of its block |
| OldCatalog.SameSuffixSamePrefix | src/app/catalog/page-old.tsx:81 | equal ids with the same number have the same prefix |
| OldCatalog.MockIdInjective | src/app/catalog/page-old.tsx:81 | an id determines its design type and number |
| OldCatalog.MockIdInitial | src/app/catalog/page-old.tsx:81 | a mock id never starts with "i", unlike an internet id |
| OldCatalog.MockIdsUnique | src/app/catalog/page-old.tsx:72-98 | the 80 catalogue ids are pairwise distinct |
| OldCatalog.DedupSpec | src/app/catalog/page-old.tsx:243-246 | `Array.from(new Set(...))` keeps every value once, in first-seen order |
| OldCatalog.SubsequenceExtend | src/app/catalog/page-old.tsx:243-246 | a subsequence of a list is one of any extension of it |
| OldCatalog.SubsequenceAppend | src/app/catalog/page-old.tsx:243-246 | appending the same element to both keeps the subsequence relation |
| OldCatalog.SubsequenceSingleton | src/app/catalog/page-old.tsx:243-246 | the last element alone is a subsequence |
| OldCatalog.LocalFilterSpec | src/app/catalog/page-old.tsx:378-406 | local mode keeps, in order, exactly the items matching category, design, sub-category and trimmed query |
| OldCatalog.NoFilterShowsCatalogue | src/app/catalog/page-old.tsx:378-406 | no selection and a blank query show the whole catalogue |
| OldCatalog.InternetModeShowsResults | src/app/catalog/page-old.tsx:380-383 | internet mode shows the internet results as they are |
| OldCatalog.EnhancedQueryKeepsWords | src/app/catalog/page-old.tsx:262-297 | the enhanced query starts with the visitor's words |
| OldCatalog.EnhancedQueryEndsWithPhrase | src/app/catalog/page-old.tsx:262-297 | the enhanced query ends with the category's phrase |
| OldCatalog.EnhancedQueryWithoutFilters | src/app/catalog/page-old.tsx:262-297 | without design or sub-category it is the words followed by the category phrase |
| OldCatalog.MapResult | src/app/catalog/page-old.tsx:339-351 | a result becomes an internet item with a prefixed id, a fallback description and the selections or their defaults |
| OldCatalog.MapResults | src/app/catalog/page-old.tsx:339-351 | each result maps to one item, in order |
| OldCatalog.InternetIdsAreNotMockIds | src/app/catalog/page-old.tsx:339-351 | an internet item's id differs from every catalogue id |
| OldCatalog.OldCatalogPage.constructor | src/app/catalog/page-old.tsx:232-241 | empty query, "all" selections, local mode, no results, no error |
| OldCatalog.OldCatalogPage.OnSelectDesignType | src/app/catalog/page-old.tsx:408-411 | selecting a design type resets the sub-category to "all" |
| OldCatalog.OldCatalogPage.SearchInternet | src/app/catalog/page-old.tsx:249-364 | a blank query clears the results and sends nothing; otherwise the request is sent and the results or the error are set by the outcome |
| OldCatalog.OldCatalogPage.OnQueryOrModeChange | src/app/catalog/page-old.tsx:366-376 | internet mode with a non-blank query sends the search URL of the enhanced query, sets the error from the outcome and the results to the mapped hits (none on failure), and ends not searching; with a blank query it clears the results; local mode changes nothing |
| AdminLists.NextId | src/app/admin/categories/page.tsx:228 | the new id is at least 1 and above every id in the list |
| AdminLists.UpdateById | src/app/admin/categories/page.tsx:221-225 | editing keeps the length and every entry with another id |
| AdminLists.RemoveById | src/app/admin/categories/page.tsx:215 | deleting never adds entries and leaves none with that id |
| AdminLists.Search | src/app/admin/categories/page.tsx:362-375 | the search never adds records and keeps only records where either text contains the term, ignoring case |
| AdminLists.MaxId | src/app/admin/categories/page.tsx:228 | `Math.max(...ids, 0)` is at least 0, bounds every id, and is 0 or one of the ids |
| AdminLists.IdsOf | src/app/admin/categories/page.tsx:228 | the ids of the list, one per entry, in order |
| AdminLists.NextIdFresh | src/app/admin/categories/page.tsx:228 | the new id is positive and differs from every id in the list |
| AdminLists.UpdateByIdSpec | src/app/admin/categories/page.tsx:221-225 | an edit keeps the length and the other entries, and updates exactly the entries with the id |
| AdminLists.RemoveByIdSpec | src/app/admin/categories/page.tsx:215 | a delete keeps the other entries in order and removes every entry with the id |
| AdminLists.RemoveAbsentId | src/app/admin/categories/page.tsx:215 | deleting an id nobody has changes nothing |
| AdminLists.EmptyTermMatches | src/app/admin/categories/page.tsx:362-365 | an empty term matches every record |
| AdminLists.SearchSpec | src/app/admin/categories/page.tsx:362-375 | the search keeps, in order, exactly the records where either text contains the term ignoring case |
| AdminLists.EmptySearchKeepsAll | src/app/admin/categories/page.tsx:362-375 | an empty search box lists everything |
| AdminCategories.Collapse | src/app/admin/categories/page.tsx:336 | collapsing separator runs never lengthens the text |
| AdminCategories.SlugAsWritten | src/app/admin/categories/page.tsx:328-337 | the slug the page computes is well formed: only `a-z`, `0-9` and single inner hyphens |
| AdminCategories.Slug | src/app/admin/categories/page.tsx:328-337 | the corrected slug is well formed and no longer than the name |
| AdminCategories.TranslitChar | src/app/admin/categories/page.tsx:329-335 | the seven replacements change only the letters ə, ı, ö, ü, ğ, ş and ç |
| AdminCategories.SeparatorRun | src/app/admin/categories/page.tsx:336 | the run of non-`[a-z0-9]` characters that starts the text ends at the first slug character |
| AdminCategories.Prepare | src/app/admin/categories/page.tsx:328-335 | lower-casing and transliteration keep the length |
| AdminCategories.ConsHyphenated | src/app/admin/categories/page.tsx:336 | a letter, digit or single hyphen in front of hyphenated words keeps them hyphenated |
| AdminCategories.CollapseHyphenated | src/app/admin/categories/page.tsx:336 | collapsing leaves only `a-z`, `0-9` and single hyphens |
| AdminCategories.StripGivesSlug | src/app/admin/categories/page.tsx:337 | stripping the end hyphens of hyphenated words gives a well-formed slug |
| AdminCategories.SlugWellFormed | src/app/admin/categories/page.tsx:328-337 | every slug, as written or corrected, has only `a-z`, `0-9` and single inner hyphens |
| AdminCategories.CollapseKeeps | src/app/admin/categories/page.tsx:336 | collapsing leaves hyphenated words unchanged |
| AdminCategories.PrepareKeeps | src/app/admin/categories/page.tsx:328-335 | a slug passes through lower-casing and transliteration unchanged |
| AdminCategories.SlugIdempotent | src/app/admin/categories/page.tsx:328-337 | the slug of a slug is itself |
| AdminCategories.CollapseSeparators | src/app/admin/categories/page.tsx:336 | text without letters or digits collapses to at most one hyphen |
| AdminCategories.SymbolsGiveEmptySlug | src/app/admin/categories/page.tsx:328-337 | a name made only of symbols and spaces has the empty slug |
| AdminCategories.WordSlug | src/app/admin/categories/page.tsx:328-337 | a one-word lower-case name slugs to its letter-by-letter transliteration |
| AdminCategories.AsWrittenAgreesWithoutDottedI | src/app/admin/categories/page.tsx:328-337 | the slug as written and the corrected slug agree on names without `İ` |
| AdminCategories.LowerDottedWord | src/app/admin/categories/page.tsx:328 | `toLowerCase` turns `İ` into `i` followed by a combining dot |
| AdminCategories.CollapseDottedWord | src/app/admin/categories/page.tsx:336 | the combining dot after `i` becomes a hyphen |
| AdminCategories.DottedCapitalSplitsWord | src/app/admin/categories/page.tsx:328-337 | as written, `İ` followed by a word w slugs to "i-" + w |
| AdminCategories.SlugKeeps | src/app/admin/categories/page.tsx:328-337 | a well-formed slug is its own corrected slug |
| AdminCategories.SlugHasNoDottedI | src/app/admin/categories/page.tsx:328-337 | a well-formed slug holds no `İ` |
| AdminCategories.SlugAsWrittenIdempotent | src/app/admin/categories/page.tsx:328-337 | the slug the page stores, slugged again as the page does it, is itself |
| AdminCategories.DottedCapitalReadAsI | src/app/admin/categories/page.tsx:328-337 | corrected, `İ` followed by a word w slugs to "i" + w |
| AdminCategories.GetColorClass | src/app/admin/categories/page.tsx:348-360 | a colour with a gradient gets it; any other colour falls back to blue |
| AdminCategories.ColorOptionsHaveGradients | src/app/admin/categories/page.tsx:48-57 | every colour the modal offers has its own gradient |
| AdminCategories.NewCategoryFresh | src/app/admin/categories/page.tsx:226-233 | a new category carries the form, a fresh positive id and no items |
| AdminCategories.NewDesignTypeFresh | src/app/admin/categories/page.tsx:270-277 | a new design type carries the form and a fresh positive id |
| AdminCategories.NewSubCategoryFresh | src/app/admin/categories/page.tsx:315-322 | a new sub-category carries the form and a fresh positive id |
| AdminCategories.EditCategoryKeeps | src/app/admin/categories/page.tsx:219-225 | an edit changes only the entries with the id, keeping their ids and item counts |
| AdminCategories.EditDesignTypeKeeps | src/app/admin/categories/page.tsx:263-269 | an edit changes only the design types with the id, keeping their ids |
| AdminCategories.EditSubCategoryKeeps | src/app/admin/categories/page.tsx:308-314 | an edit changes only the sub-categories with the id, keeping their ids |
| AdminCategories.CategoriesPage.constructor | src/app/admin/categories/page.tsx:164-190 | the seed lists, a closed modal and the default forms (colour blue, icon 📁) |
| AdminCategories.CategoriesPage.HandleCreateCategory | src/app/admin/categories/page.tsx:193-198 | opens the category modal on an empty form |
| AdminCategories.CategoriesPage.HandleEditCategory | src/app/admin/categories/page.tsx:200-211 | opens the category modal on the entry's fields |
| AdminCategories.CategoriesPage.HandleDeleteCategory | src/app/admin/categories/page.tsx:213-217 | drops every category with the id |
| AdminCategories.CategoriesPage.HandleSaveCategory | src/app/admin/categories/page.tsx:219-236 | an edit rewrites the entries with the id; otherwise a new entry is prepended; the modal closes |
| AdminCategories.CategoriesPage.HandleCreateDesignType | src/app/admin/categories/page.tsx:239-244 | opens the design-type modal on an empty form |
| AdminCategories.CategoriesPage.HandleEditDesignType | src/app/admin/categories/page.tsx:246-255 | opens the design-type modal on the entry's fields |
| AdminCategories.CategoriesPage.HandleDeleteDesignType | src/app/admin/categories/page.tsx:257-261 | drops every design type with the id |
| AdminCategories.CategoriesPage.HandleSaveDesignType | src/app/admin/categories/page.tsx:263-280 | an edit rewrites the entries with the id; otherwise a new entry is prepended |
| AdminCategories.CategoriesPage.HandleCreateSubCategory | src/app/admin/categories/page.tsx:283-288 | opens the sub-category modal on an empty form |
| AdminCategories.CategoriesPage.HandleEditSubCategory | src/app/admin/categories/page.tsx:290-300 | opens the sub-category modal on the entry's fields |
| AdminCategories.CategoriesPage.HandleDeleteSubCategory | src/app/admin/categories/page.tsx:302-306 | drops every sub-category with the id |
| AdminCategories.CategoriesPage.HandleSaveSubCategory | src/app/admin/categories/page.tsx:308-325 | an edit rewrites the entries with the id; otherwise a new entry is prepended |
| AdminCategories.CategoriesPage.HandleSave | src/app/admin/categories/page.tsx:863-867 | the save button saves into the list the modal was opened for |
| AdminCategories.CategoriesPage.HandleNameChange | src/app/admin/categories/page.tsx:327-346 | typing a name writes the name and its slug, computed as the page computes it (`İ` included), into the form of that list only |
| AdminCategories.CategorySearchSpec | src/app/admin/categories/page.tsx:362-365 | the category search keeps, in order, exactly the entries whose name or description contains the term |
| AdminCategories.DesignTypeSearchSpec | src/app/admin/categories/page.tsx:367-370 | the same for design types |
| AdminCategories.SubCategorySearchSpec | src/app/admin/categories/page.tsx:372-375 | the same for sub-categories |
| AdminCategories.DeleteCategorySpec | src/app/admin/categories/page.tsx:213-217 | a delete keeps the other categories in order and leaves none with the id |
| AdminPortfolio.NewItem | src/app/admin/portfolio/page.tsx:109-114 | a new entry has a positive id that no existing entry has |
| AdminPortfolio.EditWith | src/app/admin/portfolio/page.tsx:102-106 | an edit keeps the entry's id and gives it exactly the form's fields and the new date |
| AdminPortfolio.PortfolioPage.FilteredItems | src/app/admin/portfolio/page.tsx:119-122 | the list under the search box never adds entries and shows only those whose title or category contains the term, ignoring case |
| AdminPortfolio.NewItemFresh | src/app/admin/portfolio/page.tsx:109-114 | a new entry carries exactly the form, the date and a fresh positive id |
| AdminPortfolio.EditWithSpec | src/app/admin/portfolio/page.tsx:102-106 | an edit keeps the id and takes the form's fields and the new date |
| AdminPortfolio.EditUnchangedFormOnlyDates | src/app/admin/portfolio/page.tsx:81-106 | saving an untouched edit form only refreshes the date |
| AdminPortfolio.SaveEditSpec | src/app/admin/portfolio/page.tsx:102-106 | saving an edit changes only the entries with the id and keeps every id and the length |
| AdminPortfolio.FilteredItemsSpec | src/app/admin/portfolio/page.tsx:119-122 | the search keeps, in order, exactly the entries whose title or category contains the term |
| AdminPortfolio.DeleteSpec | src/app/admin/portfolio/page.tsx:93-97 | a delete keeps the other entries in order and leaves none with the id |
| AdminPortfolio.PortfolioPage.constructor | src/app/admin/portfolio/page.tsx:58-67 | the seed list, a closed modal and an empty form |
| AdminPortfolio.PortfolioPage.HandleCreate | src/app/admin/portfolio/page.tsx:69-79 | opens the modal on an empty form with status active |
| AdminPortfolio.PortfolioPage.HandleEdit | src/app/admin/portfolio/page.tsx:81-91 | opens the modal on exactly the entry's editable fields |
| AdminPortfolio.PortfolioPage.HandleDelete | src/app/admin/portfolio/page.tsx:93-97 | drops the entries with the id |
| AdminPortfolio.PortfolioPage.HandleSave | src/app/admin/portfolio/page.tsx:99-117 | an edit rewrites the entries with the id; otherwise a new entry is prepended; the modal closes |
| ChatbotRoute.Forwarded | src/app/api/chatbot/route.ts:15-19 | the forwarded body is an object with no field other than `sessionId`, `message` and `timestamp` |
| ChatbotRoute.FirstTruthy | src/app/api/chatbot/route.ts:62-68 | what the `||` chain finds is truthy and is the value of one of the fields |
| ChatbotRoute.Reply | src/app/api/chatbot/route.ts:60-70 | the reply is truthy, or else it is the JSON text of the payload |
| ChatbotRoute.TextData | src/app/api/chatbot/route.ts:51-57 | a non-JSON answer becomes an object whose `response` field is truthy |
| ChatbotRoute.Post | src/app/api/chatbot/route.ts:7-89 | the route answers 200 or 500, and a 200 always follows a call to the webhook with the forwarded body |
| ChatbotRoute.ForwardedSpec | src/app/api/chatbot/route.ts:15-19 | the webhook receives exactly the request's `sessionId`, `message` and `timestamp` that are present |
| ChatbotRoute.ForwardedIgnoresOtherFields | src/app/api/chatbot/route.ts:15-19 | other request fields do not reach the webhook |
| ChatbotRoute.FirstTruthyPicks | src/app/api/chatbot/route.ts:62-70 | the chain picks a field exactly when it is truthy and no earlier one is |
| ChatbotRoute.FirstTruthyNone | src/app/api/chatbot/route.ts:62-70 | the chain finds nothing exactly when no field is truthy, and what it finds is truthy |
| ChatbotRoute.ReplyPriority | src/app/api/chatbot/route.ts:62-70 | output, response, message, text, reply, answer: the first truthy one is the reply |
| ChatbotRoute.ReplyFallback | src/app/api/chatbot/route.ts:62-70 | without a truthy field, a non-empty string payload is the reply, else its JSON text |
| ChatbotRoute.ReplyTruthyOrSerialised | src/app/api/chatbot/route.ts:62-70 | the reply is truthy unless it is the serialised payload |
| ChatbotRoute.TextReply | src/app/api/chatbot/route.ts:46-58 | a non-JSON answer is the reply, or the fixed default when empty |
| ChatbotRoute.PostEnvelope | src/app/api/chatbot/route.ts:74-89 | every response is the 200 success envelope or the 500 error envelope with the fixed text and details |
| ChatbotRoute.PostSucceedsIff | src/app/api/chatbot/route.ts:7-89 | the route succeeds exactly when the body parses to non-null, the webhook answers 2xx and a JSON answer parses |
| ChatbotRoute.WebhookStatusFails | src/app/api/chatbot/route.ts:35-43 | a non-2xx status gives the error envelope naming the status and the webhook's text |
| ChatbotRoute.PostSends | src/app/api/chatbot/route.ts:7-30 | the webhook is called, with the forwarded body, exactly when the body parses to non-null |
| Chatbot.BreakBeforeEmoji | src/components/Chatbot.tsx:18 | inserting line breaks before emoji keeps every character and at most doubles the length |
| Chatbot.BreakBeforeNumber | src/components/Chatbot.tsx:20 | inserting line breaks before list numbers never shortens the text |
| Chatbot.Bullets | src/components/Chatbot.tsx:22 | rewriting markers never shortens the text and lengthens it by at most half |
| Chatbot.Squeeze | src/components/Chatbot.tsx:24 | squeezing line-break runs never lengthens the text |
| Chatbot.FormatBotMessage | src/components/Chatbot.tsx:15-27 | the formatted message has no white space at either end |
| Chatbot.DigitRun | src/components/Chatbot.tsx:20 | the digit run that starts the text is all digits and ends at the first non-digit |
| Chatbot.NewlineRun | src/components/Chatbot.tsx:24 | the line-break run that starts the text ends at the first other character |
| Chatbot.FormattedIsTrimmed | src/components/Chatbot.tsx:26 | the formatted reply has no white space at either end |
| Chatbot.SqueezeNoTriple | src/components/Chatbot.tsx:24 | squeezing leaves no run of three line breaks |
| Chatbot.SliceNoTriple | src/components/Chatbot.tsx:26 | a slice of text without three line breaks in a row has none either |
| Chatbot.FormattedNoTripleBreak | src/components/Chatbot.tsx:15-27 | the formatted reply never holds three line breaks in a row |
| Chatbot.BulletsSettle | src/components/Chatbot.tsx:22 | after the bullet step every `*` or `-` followed by white space is followed by a line break and `•` |
| Chatbot.PrefixSettled | src/components/Chatbot.tsx:22 | an inserted "\n• " in front of settled text keeps it settled |
| Chatbot.SuffixSettled | src/components/Chatbot.tsx:22 | a suffix of settled text is settled |
| Chatbot.ConsSettled | src/components/Chatbot.tsx:22 | one character in front of settled text keeps it settled unless it is an unsettled marker |
| Chatbot.BreaksSettled | src/components/Chatbot.tsx:24 | line breaks in front of settled text keep it settled |
| Chatbot.SqueezeSettled | src/components/Chatbot.tsx:24 | squeezing keeps markers settled |
| Chatbot.SliceSettled | src/components/Chatbot.tsx:26 | trimming keeps markers settled |
| Chatbot.FormattedMarkersSettled | src/components/Chatbot.tsx:15-27 | in the formatted reply every `*` or `-` followed by white space is followed by "\n•" |
| Chatbot.EmojiBlank | src/components/Chatbot.tsx:18 | the emoji step keeps blank text blank and non-blank text non-blank |
| Chatbot.NumberBlank | src/components/Chatbot.tsx:20 | so does the number step |
| Chatbot.BulletsBlank | src/components/Chatbot.tsx:22 | so does the bullet step |
| Chatbot.SqueezeBlank | src/components/Chatbot.tsx:24 | so does the squeeze step |
| Chatbot.FormattedEmptyIffBlank | src/components/Chatbot.tsx:15-27 | a reply formats to nothing exactly when it is blank |
| Chatbot.DoubleDashKeepsBreakAfterDash | src/components/Chatbot.tsx:15-27 | "-- x" formats to "-\n• x": a `-` can still be followed by white space |
| Chatbot.DoubleDashSteps | src/components/Chatbot.tsx:18-20 | the first two steps leave "-- x" unchanged |
| Chatbot.DoubleDashBullets | src/components/Chatbot.tsx:22 | the bullet step turns "-- x" into "-\n• x" |
| Chatbot.DoubleDashSqueezeTrim | src/components/Chatbot.tsx:24-26 | squeezing and trimming leave "-\n• x" unchanged |
| Chatbot.DoubleDashSqueeze | src/components/Chatbot.tsx:24 | squeezing leaves "-\n• x" unchanged |
| Chatbot.DoubleDashTrim | src/components/Chatbot.tsx:26 | trimming leaves "-\n• x" unchanged |
| Chatbot.BotTextSpec | src/components/Chatbot.tsx:88-108 | the bot's text is never empty: the apology on failure, else the reply or the fixed acknowledgement |
| Chatbot.DisplayedSpec | src/components/Chatbot.tsx:218 | user text is shown as typed; bot text is shown trimmed and without three line breaks in a row |
| Chatbot.ChatWidget.constructor | src/components/Chatbot.tsx:31-41 | the list holds the welcome message; the input is empty; nothing is loading |
| Chatbot.ChatWidget.SetInput | src/components/Chatbot.tsx:275 | the input box holds what was typed |
| Chatbot.ChatWidget.BeginSend | src/components/Chatbot.tsx:59-83 | a blank input or a request in flight does nothing; otherwise the user's message is appended, the input cleared and the request sent |
| Chatbot.ChatWidget.FinishSend | src/components/Chatbot.tsx:84-110 | exactly one bot message is appended and loading ends, keeping the list alternating |
| Hero.Next | src/app/page.tsx:81-108 | a timer step keeps the typed text a prefix of the current word, and stays on the word or moves to the next one cyclically |
| Hero.MaxWord | src/app/page.tsx:79 | the widest word is one of the words and no word is longer |
| Hero.Doubled | src/app/page.tsx:15 | the doubled list is twice as long, and entry i is entry i mod n of the original |
| Hero.NextConsistent | src/app/page.tsx:81-108 | a step keeps the typed text a prefix of the current word |
| Hero.NextSpec | src/app/page.tsx:81-108 | a full word starts deleting; an empty one moves to the next word; deleting drops one character; typing adds the next |
| Hero.Run | src/app/page.tsx:81-108 | any number of steps keeps the state consistent |
| Hero.RunAdds | src/app/page.tsx:81-108 | a steps then b steps are a + b steps |
| Hero.TypingCompletes | src/app/page.tsx:100-106 | typing finishes a word in one step per missing character |
| Hero.DeletingEmpties | src/app/page.tsx:100-106 | deleting empties the text in one step per character |
| Hero.FullCycle | src/app/page.tsx:81-108 | from empty, 2 \|w\| + 2 steps type, hold and delete w and move to the next word, cyclically |
| Hero.Typewriter.constructor | src/app/page.tsx:76-78 | nothing typed, not deleting, first word |
| Hero.Typewriter.Step | src/app/page.tsx:81-108 | one timer firing is one step of the typewriter |
| Hero.MaxWordSpec | src/app/page.tsx:79 | the reduce gives the earliest of the longest words |
| Hero.HeadlineMaxWord | src/app/page.tsx:75-79 | for the headline's words it is "etibarlı" |
| Hero.DoubledSpec | src/app/page.tsx:15 | the doubled list has two equal halves, and entry i is entry i mod n |
| Hero.MarqueesLoop | src/app/page.tsx:8-65 | the portfolio strip and the hero cards each show their five entries twice: ten entries, entry i being entry i mod 5 |

## Left out

- Network, timers and rendering are parameters or absent:
  - Supabase calls are in-memory tables; their failures are fault flags.
  - `fetch` answers are parameters.
  - The five-second slider timer, the 800 ms search debounce and the typewriter delays become single steps.
  - Dark mode, `localStorage`, sharing, copying, scrolling and animation are not modelled.
- Clocks and randomness:
  - `new Date().toLocaleDateString(...)` is a `date` parameter of each save.
  - `Date.now()` is a `now` parameter.
  - The chat session id is a constructor parameter.
  - Chat message timestamps are not modelled.
- `confirm()` is taken as confirmed. A cancelled confirm changes nothing, and the page code does exactly that.
- Seed data: the admin pages' seed lists are constructor parameters; their literal contents are not modelled.
- `JSON.stringify` is a function parameter of the chatbot route.
- Each file of a multi-file upload has a given outcome: accepted with a URL, refused, or thrown. The kind of error behind a throw (a failed request, a body that is not JSON) is not modelled. Neither is the unhandled rejection it leaves, beyond the handler stopping there.
- The chat widget holds a route `response` that is a string. Other JSON values, shown through React, are not modelled.
- `toLowerCase` is modelled for ASCII and the Azerbaijani capitals, with `İ` lowering to `i` and U+0307 as in JavaScript, everywhere it is used. Other Unicode case mappings are not modelled.
- CatalogStore.ItemRow: backend ids are natural numbers from a counter starting at 0, where the source carries them as strings. The handlers' truthiness tests on an id (src/app/api/catalog/items/route.ts:58, :162) are read as presence. That is sound because the backend never assigns an empty id, so id 0 here is not a falsy id.
- `encodeURIComponent` is modelled through UTF-8 per character. Lone surrogates, on which it throws, are not modelled.
- JavaScript's `Record` prototype keys (`colorMap["constructor"]`) are not modelled: `GetColorClass` looks only at the eight listed colours.
- `Math.max(...xs)` is modelled without the engine's argument-count limit.
- The text of the V8 `TypeError` for a `null` request body is a fixed constant.
- The items route's GET handler is a single ordered select over the tables. It is not modelled separately.
- Internals of the search-images route are not modelled. Only its result shape, the request URL and the page's handling of success, failure and errors are.
- Text is modelled as a sequence of Unicode code points, not of UTF-16 code units. Each emoji the formatter matches is one code point here, except 🏗️, which is U+1F3D7 followed by U+FE0F as in the pattern.
- Chatbot.FormattedMarkersSettled: the formatter does not guarantee that no `*` or `-` is followed by white space. `Chatbot.DoubleDashKeepsBreakAfterDash` shows this fails for "-- x". What is proved is the weaker "followed by a line break and a bullet".
- PublicCatalog.CatalogPage: no control on the page sets the `query`, so it stays empty. The search stage is modelled and proved as a function of the query.
- OldCatalog.GenerateItems: the item builder is a parameter. `BuildItems` fixes it to the page's own builder.
- Typing a query on the old page and rendering its cards (copy, share) are not modelled beyond the state the search effect reads.

## Findings

| source | as written | input that shows it | evidently intended | confidence | as-written member | corrected member |
|---|---|---|---|---|---|---|
| src/app/catalog/page.tsx:101-103 | the non-blank test trims the query, but the search uses the untrimmed, lower-cased query | query "villa " and an item whose room is named "villa": the item is hidden | search for the trimmed query, as the older page does at src/app/catalog/page-old.tsx:385 | medium; latent, since no control on the page sets the query; not executed | PublicCatalog.FilteredAsWritten / PublicCatalog.TrailingSpaceHidesMatch | PublicCatalog.Filtered / PublicCatalog.FilteredIgnoresSurroundingSpace |
| src/app/admin/categories/page.tsx:328 | `toLowerCase` turns `İ` into `i` plus a combining dot, which the `[^a-z0-9]+` step turns into a hyphen | the name "İnteryer" slugs to "i-nteryer" | "interyer": the Azerbaijani capital read as `i` | medium; not executed | AdminCategories.SlugAsWritten / AdminCategories.DottedCapitalSplitsWord | AdminCategories.Slug / AdminCategories.DottedCapitalReadAsI |

=== FILE: admin_catalog.dfy ===
/** The admin catalog page (src/app/admin/catalog/page.tsx): the list of catalog items,
    the create/edit modal with its image list, and the requests the modal sends to the
    items route. Server replies are parameters: `Some(item)` when the route answered with
    `success` and an item, `None` otherwise. */
module AdminCatalog {
  import opened Util
  import opened CatalogRows
  import CatalogStore

  /** The modal's form fields. */
  datatype ItemForm = ItemForm(designTypeId: string, roomTypeId: string, imageUrl: string)

  const EmptyForm := ItemForm("", "", "")

  /** What a press of the save button sends to the items route. */
  datatype SaveRequest =
    | NoRequest
    | PatchRequest(itemId: string, imageUrls: seq<string>)
    | PostRequest(body: CatalogStore.PostBody)

  /** The image list the edit modal opens with: the gallery when the item carries one
      (even an empty one), otherwise the cover alone when it is set. */
  function SeedUrls(item: CatalogItem): (urls: seq<string>)
    ensures item.images.Some? ==> urls == GalleryUrls(item.images.value)
    ensures item.images.None? && item.imageUrl != "" ==> urls == [item.imageUrl]
    ensures item.images.None? && item.imageUrl == "" ==> urls == []
  {
    if item.images.Some? then GalleryUrls(item.images.value)
    else if item.imageUrl != "" then [item.imageUrl]
    else []
  }

  /** The URLs of the current list that were not there when the modal opened. */
  function NewOnly(imageUrls: seq<string>, initial: seq<string>): (r: seq<string>)
    ensures |r| <= |imageUrls|
    ensures forall k :: 0 <= k < |r| ==> r[k] !in initial
  {
    Filter(imageUrls, u => u !in initial)
  }

  /** Editing sends exactly the added URLs, in the order they appear in the list. */
  lemma NewOnlySpec(imageUrls: seq<string>, initial: seq<string>)
    ensures IsSubsequence(NewOnly(imageUrls, initial), imageUrls)
    ensures forall u :: u in NewOnly(imageUrls, initial) <==> u in imageUrls && u !in initial
  {
    FilterIsSubsequence(imageUrls, u => u !in initial);
    FilterMembers(imageUrls, u => u !in initial);
  }

  /** The create guard: both types chosen and at least one image. */
  predicate CanCreate(form: ItemForm, imageUrls: seq<string>)
  {
    form.designTypeId != "" && form.roomTypeId != "" && (|imageUrls| > 0 || form.imageUrl != "")
  }

  /** The create payload: the image list when there is one, otherwise the typed URL. */
  function CreateBody(form: ItemForm, imageUrls: seq<string>): (b: CatalogStore.PostBody)
    ensures b.designTypeId == Some(form.designTypeId) && b.roomTypeId == Some(form.roomTypeId)
    ensures |imageUrls| > 0 ==> b.imageUrls == Some(imageUrls) && b.imageUrl.None?
    ensures |imageUrls| == 0 ==> b.imageUrl == Some(form.imageUrl) && b.imageUrls.None?
  {
    if |imageUrls| > 0 then CatalogStore.PostBody(Some(form.designTypeId), Some(form.roomTypeId), None, Some(imageUrls))
    else CatalogStore.PostBody(Some(form.designTypeId), Some(form.roomTypeId), Some(form.imageUrl), None)
  }

  /** The request a press of save sends, given the modal's state. */
  function PlanSave(editing: Option<CatalogItem>, form: ItemForm, imageUrls: seq<string>, initial: seq<string>): (r: SaveRequest)
    ensures editing.Some? ==> (r.NoRequest? <==> NewOnly(imageUrls, initial) == [])
    ensures editing.Some? && r.PatchRequest? ==> r == PatchRequest(editing.value.id, NewOnly(imageUrls, initial))
    ensures editing.None? ==> (r.PostRequest? <==> CanCreate(form, imageUrls))
    ensures editing.None? && r.PostRequest? ==> r.body == CreateBody(form, imageUrls)
  {
    if editing.Some? then
      var added := NewOnly(imageUrls, initial);
      if added == [] then NoRequest else PatchRequest(editing.value.id, added)
    else if CanCreate(form, imageUrls) then PostRequest(CreateBody(form, imageUrls))
    else NoRequest
  }

  /** Editing an item without adding a URL (keeping, reordering or removing images) sends
      nothing: the page never asks the route to drop an image. */
  lemma EditWithoutAdditionsSendsNothing(item: CatalogItem, form: ItemForm, imageUrls: seq<string>, initial: seq<string>)
    requires forall k :: 0 <= k < |imageUrls| ==> imageUrls[k] in initial
    ensures PlanSave(Some(item), form, imageUrls, initial) == NoRequest
  {
    FilterNone(imageUrls, u => u !in initial);
  }

  /** A create request the page sends passes the route's validation whenever the first URL
      of the list is not empty (an uploaded file whose URL came back empty would fail it). */
  lemma CreateRequestPassesValidation(form: ItemForm, imageUrls: seq<string>, t: CatalogStore.Tables, f: CatalogStore.Faults)
    requires CanCreate(form, imageUrls)
    requires imageUrls != [] ==> imageUrls[0] != ""
    ensures !CatalogStore.PostSpec(t, CreateBody(form, imageUrls), f).reply.BadRequest?
  {
  }

  /** The request the route rejects although the page let it through: a list whose first URL is empty. */
  lemma EmptyFirstUploadIsRejected(t: CatalogStore.Tables, f: CatalogStore.Faults)
    ensures CanCreate(ItemForm("d", "r", ""), [""])
    ensures CatalogStore.PostSpec(t, CreateBody(ItemForm("d", "r", ""), [""]), f).reply
            == CatalogStore.BadRequest(CatalogStore.MissingImage)
  {
  }

  /** The items the page lists: the room name contains the search term (ignoring case) and
      the design type is the selected one, or "all" is selected. */
  predicate Listed(item: CatalogItem, searchTerm: string, selectedDesignType: string)
  {
    Contains(Lower(RoomName(item)), Lower(searchTerm))
    && (selectedDesignType == "all" || DesignName(item) == selectedDesignType)
  }

  function FilteredItems(items: seq<CatalogItem>, searchTerm: string, selectedDesignType: string): (r: seq<CatalogItem>)
    ensures |r| <= |items|
    ensures forall k :: 0 <= k < |r| ==> Listed(r[k], searchTerm, selectedDesignType)
  {
    Filter(items, item => Listed(item, searchTerm, selectedDesignType))
  }

  /** The list view keeps the page order and shows exactly the matching items. */
  lemma FilteredItemsSpec(items: seq<CatalogItem>, searchTerm: string, selectedDesignType: string)
    ensures IsSubsequence(FilteredItems(items, searchTerm, selectedDesignType), items)
    ensures forall item :: item in FilteredItems(items, searchTerm, selectedDesignType)
                           <==> item in items && Listed(item, searchTerm, selectedDesignType)
  {
    FilterIsSubsequence(items, item => Listed(item, searchTerm, selectedDesignType));
    FilterMembers(items, item => Listed(item, searchTerm, selectedDesignType));
  }

  /** An empty search with "all" selected lists every item. */
  lemma EmptySearchListsAll(items: seq<CatalogItem>)
    ensures FilteredItems(items, "", "all") == items
  {
    forall k | 0 <= k < |items| ensures Listed(items[k], "", "all") {
      ContainsEmpty(Lower(RoomName(items[k])));
    }
    FilterAll(items, item => Listed(item, "", "all"));
  }

  /** The images one item adds to the "total images" card: its gallery size when it
      carries a gallery (even an empty one), otherwise one for a set cover. */
  function ImageCount(item: CatalogItem): nat
  {
    if item.images.Some? then |item.images.value| else if item.imageUrl != "" then 1 else 0
  }

  /** The card's value, a left-to-right `reduce` over the list. */
  function TotalImages(items: seq<CatalogItem>): (r: nat)
    ensures forall k :: 0 <= k < |items| ==> ImageCount(items[k]) <= r
  {
    if items == [] then 0 else TotalImages(items[..|items| - 1]) + ImageCount(items[|items| - 1])
  }

  /** The total is additive over the list. */
  lemma {:induction false} TotalImagesAppend(a: seq<CatalogItem>, b: seq<CatalogItem>)
    ensures TotalImages(a + b) == TotalImages(a) + TotalImages(b)
    decreases |b|
  {
    if b == [] {
      assert a + b == a;
    } else {
      var b' := b[..|b| - 1];
      assert (a + b)[..|a + b| - 1] == a + b';
      TotalImagesAppend(a, b');
    }
  }

  /** Prepending a created item raises the total by that item's images. */
  lemma TotalImagesPrepend(item: CatalogItem, items: seq<CatalogItem>)
    ensures TotalImages([item] + items) == ImageCount(item) + TotalImages(items)
  {
    TotalImagesAppend([item], items);
    assert [item][..0] == [];
  }

  /** Deleting items never raises the total. */
  lemma {:induction false} TotalImagesFilter(items: seq<CatalogItem>, p: CatalogItem -> bool)
    ensures TotalImages(Filter(items, p)) <= TotalImages(items)
  {
    if items != [] {
      var rest := items[1..];
      TotalImagesFilter(rest, p);
      assert items == [items[0]] + rest;
      TotalImagesPrepend(items[0], rest);
      if p(items[0]) {
        assert Filter(items, p) == [items[0]] + Filter(rest, p);
        TotalImagesPrepend(items[0], Filter(rest, p));
      } else {
        assert Filter(items, p) == Filter(rest, p);
      }
    }
  }

  /** What one request to the upload route gives: the stored file's URL, a response that is
      not a success, or a throw (the request failed or its body is not JSON). */
  datatype UploadOutcome = Accepted(url: string) | Refused | Threw

  /** The URLs of the accepted files, in file order. */
  function AcceptedUrls(results: seq<UploadOutcome>): (urls: seq<string>)
    ensures |urls| <= |results|
    ensures forall u :: u in urls ==> Accepted(u) in results
    ensures forall k :: 0 <= k < |results| && results[k].Accepted? ==> results[k].url in urls
  {
    if results == [] then []
    else
      var init := results[..|results| - 1];
      var last := results[|results| - 1];
      assert forall k :: 0 <= k < |init| ==> init[k] == results[k];
      AcceptedUrls(init) + (if last.Accepted? then [last.url] else [])
  }

  /** Whether some request of the upload threw. */
  predicate SomeThrew(results: seq<UploadOutcome>)
  {
    exists k :: 0 <= k < |results| && results[k].Threw?
  }

  /** What a multi-file upload adds to the image list: nothing at all once a request threw,
      since the throw leaves the handler before the append; otherwise every accepted URL. */
  function Uploaded(results: seq<UploadOutcome>): (urls: seq<string>)
    ensures |urls| <= |results|
    ensures SomeThrew(results) ==> urls == []
    ensures forall u :: u in urls ==> Accepted(u) in results
  {
    if SomeThrew(results) then [] else AcceptedUrls(results)
  }

  /** The upload loop: one request per file, in order, keeping the URL of each success; the
      first throw ends it, so the files after the throwing one are never sent. Returns the URLs
      kept, the number of requests sent and whether the last one threw. */
  method CollectUploads(results: seq<UploadOutcome>) returns (uploaded: seq<string>, sent: nat, threw: bool)
    ensures sent <= |results|
    ensures threw <==> SomeThrew(results)
    ensures threw ==> 1 <= sent && results[sent - 1].Threw? && !SomeThrew(results[..sent - 1])
    ensures !threw ==> sent == |results|
    ensures uploaded == AcceptedUrls(results[..sent])
  {
    uploaded := [];
    sent := 0;
    threw := false;
    while sent < |results| && !threw
      invariant 0 <= sent <= |results|
      invariant uploaded == AcceptedUrls(results[..sent])
      invariant !threw ==> !SomeThrew(results[..sent])
      invariant threw ==> 1 <= sent && results[sent - 1].Threw? && !SomeThrew(results[..sent - 1])
    {
      var prefix := results[..sent + 1];
      assert prefix[..sent] == results[..sent];
      if results[sent].Threw? {
        threw := true;
      } else if results[sent].Accepted? {
        uploaded := uploaded + [results[sent].url];
      }
      assert !threw ==> !SomeThrew(prefix) by {
        if !threw {
          forall k | 0 <= k < |prefix| ensures !prefix[k].Threw? {
            if k < sent {
              assert prefix[k] == results[..sent][k];
            }
          }
        }
      }
      sent := sent + 1;
    }
    if threw {
      assert results[sent - 1].Threw?;
    } else {
      assert results[..sent] == results;
    }
  }

  /** The preview list without the image at `index` (an index outside the list removes nothing). */
  function RemoveAt(urls: seq<string>, index: int): (r: seq<string>)
    ensures 0 <= index < |urls| ==>
              |r| == |urls| - 1
              && (forall k :: 0 <= k < index ==> r[k] == urls[k])
              && (forall k :: index <= k < |r| ==> r[k] == urls[k + 1])
    ensures !(0 <= index < |urls|) ==> r == urls
  {
    if 0 <= index < |urls| then urls[..index] + urls[index + 1..] else urls
  }

  /** The page's state. */
  class CatalogAdminPage {
    var catalogItems: seq<CatalogItem>
    var showModal: bool
    var editingItem: Option<CatalogItem>
    var searchTerm: string
    var selectedDesignType: string
    var form: ItemForm
    var imageUrls: seq<string>
    var initialImageUrls: seq<string>

    /** Outside an edit there is no "initial" image list to compare against. */
    ghost predicate Valid()
      reads this
    {
      editingItem.None? ==> initialImageUrls == []
    }

    constructor ()
      ensures Valid()
      ensures catalogItems == [] && !showModal && editingItem.None? && searchTerm == ""
      ensures selectedDesignType == "all" && form == EmptyForm && imageUrls == [] && initialImageUrls == []
    {
      catalogItems := [];
      showModal := false;
      editingItem := None;
      searchTerm := "";
      selectedDesignType := "all";
      form := EmptyForm;
      imageUrls := [];
      initialImageUrls := [];
    }

    /** The initial load: the list is replaced when the items route answers with success. */
    method Load(loaded: Option<seq<CatalogItem>>)
      modifies this
      ensures catalogItems == (if loaded.Some? then loaded.value else old(catalogItems))
      ensures showModal == old(showModal) && editingItem == old(editingItem) && form == old(form)
      ensures imageUrls == old(imageUrls) && initialImageUrls == old(initialImageUrls)
      ensures searchTerm == old(searchTerm) && selectedDesignType == old(selectedDesignType)
    {
      if loaded.Some? {
        catalogItems := loaded.value;
      }
    }

    /** Opens an empty modal for a new item. */
    method HandleCreate()
      modifies this
      ensures Valid()
      ensures editingItem.None? && form == EmptyForm && imageUrls == [] && initialImageUrls == [] && showModal
      ensures catalogItems == old(catalogItems)
      ensures searchTerm == old(searchTerm) && selectedDesignType == old(selectedDesignType)
    {
      editingItem := None;
      form := EmptyForm;
      imageUrls := [];
      initialImageUrls := [];
      showModal := true;
    }

    /** Opens the modal on an existing item, seeding both image lists with its images. */
    method HandleEdit(item: CatalogItem)
      modifies this
      ensures Valid()
      ensures editingItem == Some(item) && showModal
      ensures form == ItemForm(if item.designType.Some? then item.designType.value.id else "",
                               if item.roomType.Some? then item.roomType.value.id else "",
                               item.imageUrl)
      ensures imageUrls == SeedUrls(item) && initialImageUrls == SeedUrls(item)
      ensures catalogItems == old(catalogItems)
      ensures searchTerm == old(searchTerm) && selectedDesignType == old(selectedDesignType)
    {
      editingItem := Some(item);
      form := ItemForm(if item.designType.Some? then item.designType.value.id else "",
                       if item.roomType.Some? then item.roomType.value.id else "",
                       item.imageUrl);
      var imgs := SeedUrls(item);
      imageUrls := imgs;
      initialImageUrls := imgs;
      showModal := true;
    }

    /** Cancel / close: hides the modal and keeps everything else. */
    method CloseModal()
      requires Valid()
      modifies this
      ensures Valid()
      ensures !showModal
      ensures catalogItems == old(catalogItems) && editingItem == old(editingItem) && form == old(form)
      ensures imageUrls == old(imageUrls) && initialImageUrls == old(initialImageUrls)
      ensures searchTerm == old(searchTerm) && selectedDesignType == old(selectedDesignType)
    {
      showModal := false;
    }

    /** A confirmed delete: the row leaves the list only when the route reports success. */
    method HandleDelete(id: string, succeeded: bool)
      requires Valid()
      modifies this
      ensures Valid()
      ensures catalogItems == (if succeeded then Filter(old(catalogItems), (item: CatalogItem) => item.id != id)
                               else old(catalogItems))
      ensures showModal == old(showModal) && editingItem == old(editingItem) && form == old(form)
      ensures imageUrls == old(imageUrls) && initialImageUrls == old(initialImageUrls)
      ensures searchTerm == old(searchTerm) && selectedDesignType == old(selectedDesignType)
    {
      if succeeded {
        catalogItems := Filter(catalogItems, (item: CatalogItem) => item.id != id);
      }
    }

    /** Enter in the URL field appends the trimmed URL when it is not blank and clears the field. */
    method AddTypedUrl()
      requires Valid()
      modifies this`imageUrls, this`form
      ensures Valid()
      ensures !IsBlank(old(form.imageUrl)) ==>
                imageUrls == old(imageUrls) + [Trim(old(form.imageUrl))] && form == old(form).(imageUrl := "")
      ensures IsBlank(old(form.imageUrl)) ==> imageUrls == old(imageUrls) && form == old(form)
    {
      var typed := form.imageUrl;
      if !IsBlank(typed) {
        imageUrls := imageUrls + [Trim(typed)];
        form := form.(imageUrl := "");
      }
    }

    /** A multi-file upload appends the URLs of the files the upload route accepted, or nothing
        when one of its requests threw. */
    method UploadFiles(results: seq<UploadOutcome>)
      requires Valid()
      modifies this
      ensures Valid()
      ensures imageUrls == old(imageUrls) + Uploaded(results)
      ensures catalogItems == old(catalogItems) && showModal == old(showModal) && editingItem == old(editingItem)
      ensures form == old(form) && initialImageUrls == old(initialImageUrls)
      ensures searchTerm == old(searchTerm) && selectedDesignType == old(selectedDesignType)
    {
      if |results| > 0 {
        var uploaded, sent, threw := CollectUploads(results);
        assert !threw ==> results[..sent] == results;
        if !threw && |uploaded| > 0 {
          imageUrls := imageUrls + uploaded;
        }
      }
    }

    /** The remove button on the preview at `index`. */
    method RemovePreview(index: int)
      requires Valid()
      modifies this
      ensures Valid()
      ensures imageUrls == RemoveAt(old(imageUrls), index)
      ensures catalogItems == old(catalogItems) && showModal == old(showModal) && editingItem == old(editingItem)
      ensures form == old(form) && initialImageUrls == old(initialImageUrls)
      ensures searchTerm == old(searchTerm) && selectedDesignType == old(selectedDesignType)
    {
      imageUrls := RemoveAt(imageUrls, index);
    }

    /** The save button. Returns the request it sends; `response` is the route's item when
        the route answered with success. */
    method HandleSave(response: Option<CatalogItem>) returns (sent: SaveRequest)
      requires Valid()
      modifies this
      ensures Valid()
      ensures sent == PlanSave(old(editingItem), old(form), old(imageUrls), old(initialImageUrls))
      ensures old(editingItem).Some? && sent.NoRequest? ==>
                !showModal && catalogItems == old(catalogItems) && editingItem == old(editingItem)
                && imageUrls == old(imageUrls) && initialImageUrls == old(initialImageUrls)
      ensures old(editingItem).Some? && sent.PatchRequest? && response.Some? ==>
                catalogItems == ReplaceById(old(catalogItems), old(editingItem).value.id, response.value)
                && !showModal && editingItem.None? && imageUrls == [] && initialImageUrls == []
      ensures old(editingItem).None? && sent.PostRequest? && response.Some? ==>
                catalogItems == [response.value] + old(catalogItems) && !showModal
                && editingItem == old(editingItem) && imageUrls == old(imageUrls) && initialImageUrls == old(initialImageUrls)
      ensures (sent.NoRequest? && old(editingItem).None?) || (!sent.NoRequest? && response.None?) ==>
                catalogItems == old(catalogItems) && showModal == old(showModal) && editingItem == old(editingItem)
                && imageUrls == old(imageUrls) && initialImageUrls == old(initialImageUrls)
      ensures form == old(form) && searchTerm == old(searchTerm) && selectedDesignType == old(selectedDesignType)
    {
      sent := PlanSave(editingItem, form, imageUrls, initialImageUrls);
      if editingItem.Some? {
        if sent.NoRequest? {
          showModal := false;
        } else if response.Some? {
          catalogItems := ReplaceById(catalogItems, editingItem.value.id, response.value);
          showModal := false;
          editingItem := None;
          initialImageUrls := [];
          imageUrls := [];
        }
      } else if sent.PostRequest? && response.Some? {
        catalogItems := [response.value] + catalogItems;
        showModal := false;
      }
    }
  }

  /** `items.map(it => it.id === id ? replacement : it)`. */
  function ReplaceById(items: seq<CatalogItem>, id: string, replacement: CatalogItem): (r: seq<CatalogItem>)
    ensures |r| == |items|
    ensures forall k :: 0 <= k < |items| ==> r[k] == (if items[k].id == id then replacement else items[k])
  {
    seq(|items|, k requires 0 <= k < |items| => if items[k].id == id then replacement else items[k])
  }
}

=== FILE: admin_categories.dfy ===
/** The category administration page (src/app/admin/categories/page.tsx): three lists kept in
    component state (main categories, design types, sub-categories), a create/edit modal per
    list, the slug built from a typed name, the search box and the card gradients. */
module AdminCategories {
  import opened Util
  import opened AdminLists

  // ---------------------------------------------------------------- slugs

  /** The seven `replace` calls that spell the Azerbaijani letters in Latin ones. */
  function TranslitChar(c: char): (d: char)
    ensures d != c ==> c in "əıöüğşç"
  {
    if c == 'ə' then 'e'
    else if c == 'ı' then 'i'
    else if c == 'ö' then 'o'
    else if c == 'ü' then 'u'
    else if c == 'ğ' then 'g'
    else if c == 'ş' then 's'
    else if c == 'ç' then 'c'
    else c
  }

  function Transliterate(s: string): string
  {
    seq(|s|, i requires 0 <= i < |s| => TranslitChar(s[i]))
  }

  /** The class `[a-z0-9]`. */
  predicate SlugChar(c: char)
  {
    'a' <= c <= 'z' || '0' <= c <= '9'
  }

  /** The length of the run of characters outside `[a-z0-9]` that starts the text. */
  function SeparatorRun(s: string): (n: nat)
    ensures n <= |s|
    ensures forall i :: 0 <= i < n ==> !SlugChar(s[i])
    ensures n < |s| ==> SlugChar(s[n])
  {
    if s != [] && !SlugChar(s[0]) then 1 + SeparatorRun(s[1..]) else 0
  }

  /** Skips a run of characters outside `[a-z0-9]`. */
  function DropSeparators(s: string): string
  {
    s[SeparatorRun(s)..]
  }

  /** `replace(/[^a-z0-9]+/g, '-')`: every maximal run of other characters becomes one hyphen. */
  function Collapse(s: string): (r: string)
    ensures |r| <= |s|
    decreases |s|
  {
    if s == [] then []
    else if SlugChar(s[0]) then [s[0]] + Collapse(s[1..])
    else "-" + Collapse(DropSeparators(s[1..]))
  }

  /** `replace(/^-|-$/g, '')`: one hyphen is dropped at each end. */
  function StripHyphens(t: string): string
  {
    var a := if t != [] && t[0] == '-' then t[1..] else t;
    if a != [] && a[|a| - 1] == '-' then a[..|a| - 1] else a
  }

  /** The slug `handleNameChange` computes, as written: `toLowerCase`, transliteration, hyphens. */
  function SlugAsWritten(name: string): (r: string)
    ensures IsSlug(r)
  {
    var collapsed := Collapse(Transliterate(Lower(name)));
    CollapseHyphenated(Transliterate(Lower(name)));
    StripGivesSlug(collapsed);
    StripHyphens(collapsed)
  }

  /** Lower-casing for the slug with the dotted capital `İ` read as the letter `i`. */
  function SlugLowerChar(c: char): char
  {
    if c == 'İ' then 'i' else LowerChar(c)
  }

  /** The name lower-cased (with `İ` as `i`) and transliterated, one character per character. */
  function Prepare(name: string): (p: string)
    ensures |p| == |name|
  {
    seq(|name|, i requires 0 <= i < |name| => TranslitChar(SlugLowerChar(name[i])))
  }

  /** The slug of a name: the pipeline above with `İ` lower-cased to plain `i`. */
  function Slug(name: string): (r: string)
    ensures IsSlug(r)
    ensures |r| <= |name|
  {
    var collapsed := Collapse(Prepare(name));
    CollapseHyphenated(Prepare(name));
    StripGivesSlug(collapsed);
    StripHyphens(collapsed)
  }

  /** Letters, digits and hyphens, never two hyphens in a row. */
  predicate HyphenatedWords(t: string)
  {
    (forall i :: 0 <= i < |t| ==> SlugChar(t[i]) || t[i] == '-')
    && (forall i :: 0 <= i < |t| - 1 ==> t[i] != '-' || t[i + 1] != '-')
  }

  /** A well-formed slug: hyphenated words with no hyphen at either end. */
  predicate IsSlug(t: string)
  {
    HyphenatedWords(t) && (t != [] ==> t[0] != '-' && t[|t| - 1] != '-')
  }

  /** One letter, digit or hyphen in front of hyphenated words keeps them hyphenated, unless
      it is a hyphen before a hyphen. */
  lemma ConsHyphenated(c: char, r: string)
    requires SlugChar(c) || c == '-'
    requires HyphenatedWords(r)
    requires c == '-' && r != [] ==> r[0] != '-'
    ensures HyphenatedWords([c] + r)
  {
    var t := [c] + r;
    forall i | 0 <= i < |t| - 1 ensures t[i] != '-' || t[i + 1] != '-' {
      if i > 0 {
        assert t[i] == r[i - 1] && t[i + 1] == r[i];
      }
    }
  }

  /** Collapsing leaves only letters, digits and single hyphens, and keeps a leading letter or digit. */
  lemma {:induction false} CollapseHyphenated(s: string)
    ensures HyphenatedWords(Collapse(s))
    ensures s != [] && SlugChar(s[0]) ==> Collapse(s) != [] && Collapse(s)[0] == s[0]
    decreases |s|
  {
    if s == [] {
    } else if SlugChar(s[0]) {
      CollapseHyphenated(s[1..]);
      ConsHyphenated(s[0], Collapse(s[1..]));
    } else {
      var d := DropSeparators(s[1..]);
      CollapseHyphenated(d);
      ConsHyphenated('-', Collapse(d));
    }
  }

  /** Stripping the end hyphens of hyphenated words gives a well-formed slug. */
  lemma StripGivesSlug(t: string)
    requires HyphenatedWords(t)
    ensures IsSlug(StripHyphens(t))
  {
    var a := if t != [] && t[0] == '-' then t[1..] else t;
    assert HyphenatedWords(a) by {
      if t != [] && t[0] == '-' {
        forall i | 0 <= i < |a| - 1 ensures a[i] != '-' || a[i + 1] != '-' {
          assert a[i] == t[i + 1] && a[i + 1] == t[i + 2];
        }
      }
    }
    assert a != [] ==> a[0] != '-' by {
      if t != [] && t[0] == '-' && a != [] {
        assert a[0] == t[1];
      }
    }
  }

  /** Every slug the page can produce, as written or corrected, is well formed: only `a-z`,
      `0-9` and `-`, no hyphen at either end and never two hyphens in a row. */
  lemma SlugWellFormed(name: string)
    ensures IsSlug(Slug(name))
    ensures IsSlug(SlugAsWritten(name))
  {
    CollapseHyphenated(Prepare(name));
    StripGivesSlug(Collapse(Prepare(name)));
    CollapseHyphenated(Transliterate(Lower(name)));
    StripGivesSlug(Collapse(Transliterate(Lower(name))));
  }

  /** Hyphenated words are left as they are by the collapsing step. */
  lemma {:induction false} CollapseKeeps(t: string)
    requires HyphenatedWords(t)
    ensures Collapse(t) == t
    decreases |t|
  {
    if t == [] {
    } else if SlugChar(t[0]) {
      assert HyphenatedWords(t[1..]);
      CollapseKeeps(t[1..]);
    } else {
      assert HyphenatedWords(t[1..]);
      assert DropSeparators(t[1..]) == t[1..] by {
        if t[1..] != [] {
          assert t[1] != '-';
        }
      }
      CollapseKeeps(t[1..]);
      assert t == "-" + t[1..];
    }
  }

  /** A well-formed slug passes through lower-casing and transliteration unchanged. */
  lemma PrepareKeeps(t: string)
    requires IsSlug(t)
    ensures Prepare(t) == t
  {
  }

  /** Slugifying a slug returns it unchanged. */
  lemma SlugIdempotent(name: string)
    ensures Slug(Slug(name)) == Slug(name)
  {
    var t := Slug(name);
    SlugWellFormed(name);
    PrepareKeeps(t);
    CollapseKeeps(t);
  }

  /** A text without letters or digits collapses to at most one hyphen. */
  lemma {:induction false} CollapseSeparators(s: string)
    requires forall i :: 0 <= i < |s| ==> !SlugChar(s[i])
    ensures Collapse(s) == [] || Collapse(s) == "-"
  {
    if s != [] {
      assert DropSeparators(s[1..]) == [];
    }
  }

  /** Letters and digits in any case, the Azerbaijani letters included. */
  predicate Alphanumeric(c: char)
  {
    'a' <= c <= 'z' || 'A' <= c <= 'Z' || '0' <= c <= '9'
    || c in "əıöüğşçƏÖÜĞŞÇİ"
  }

  /** A name made only of symbols and spaces has the empty slug. */
  lemma SymbolsGiveEmptySlug(name: string)
    requires forall i :: 0 <= i < |name| ==> !Alphanumeric(name[i])
    ensures Slug(name) == ""
  {
    var p := Prepare(name);
    forall i | 0 <= i < |p| ensures !SlugChar(p[i]) {
      assert p[i] == name[i];
    }
    CollapseSeparators(p);
  }

  /** Lower-case Azerbaijani letters and digits, the characters of a one-word name. */
  predicate WordChar(c: char)
  {
    'a' <= c <= 'z' || '0' <= c <= '9' || c in "əıöüğşç"
  }

  /** For a one-word name in lower case, the slug is its letter-by-letter transliteration:
      ə ı ö ü ğ ş ç become e i o u g s c and every other letter or digit stays. */
  lemma WordSlug(name: string)
    requires forall i :: 0 <= i < |name| ==> WordChar(name[i])
    ensures |Slug(name)| == |name|
    ensures forall i :: 0 <= i < |name| ==> Slug(name)[i] == TranslitChar(name[i])
    ensures forall i :: 0 <= i < |name| ==> SlugChar(Slug(name)[i])
  {
    var p := Prepare(name);
    forall i | 0 <= i < |p| ensures p[i] == TranslitChar(name[i]) && SlugChar(p[i]) {
      assert SlugLowerChar(name[i]) == name[i];
    }
    CollapseKeeps(p);
  }

  /** The slug as written and the corrected slug differ only on names containing `İ`. */
  lemma AsWrittenAgreesWithoutDottedI(name: string)
    requires forall i :: 0 <= i < |name| ==> name[i] != 'İ'
    ensures SlugAsWritten(name) == Slug(name)
  {
    LowerWithoutDottedI(name);
    assert Transliterate(Lower(name)) == Prepare(name);
  }

  /** A well-formed slug is its own slug. */
  lemma SlugKeeps(t: string)
    requires IsSlug(t)
    ensures Slug(t) == t
  {
    PrepareKeeps(t);
    CollapseKeeps(t);
    assert Collapse(Prepare(t)) == t;
    StripKeeps(t);
  }

  /** A well-formed slug has no end hyphen to strip. */
  lemma StripKeeps(t: string)
    requires IsSlug(t)
    ensures StripHyphens(t) == t
  {
  }

  /** A well-formed slug holds no `İ`. */
  lemma SlugHasNoDottedI(t: string)
    requires IsSlug(t)
    ensures forall i :: 0 <= i < |t| ==> t[i] != 'İ'
  {
    forall i | 0 <= i < |t| ensures t[i] != 'İ' {
      assert SlugChar(t[i]) || t[i] == '-';
    }
  }

  /** Re-slugging the page's slug changes nothing: a slug is made of `[a-z0-9-]` only, so it
      holds no `İ` and the as-written chain treats it as the corrected one does. */
  lemma SlugAsWrittenIdempotent(name: string)
    ensures SlugAsWritten(SlugAsWritten(name)) == SlugAsWritten(name)
  {
    var t := SlugAsWritten(name);
    SlugWellFormed(name);
    SlugHasNoDottedI(t);
    AsWrittenAgreesWithoutDottedI(t);
    SlugKeeps(t);
  }

  /** A lower-case word: ASCII letters only. */
  predicate LowerWord(w: string)
  {
    forall i :: 0 <= i < |w| ==> 'a' <= w[i] <= 'z'
  }

  /** `toLowerCase` turns `İ` + w into `i`, the combining dot, then w. */
  lemma LowerDottedWord(w: string)
    requires LowerWord(w)
    ensures Lower("İ" + w) == ['i', '\U{0307}'] + w
  {
    LowerWithoutDottedI(w);
    LowerKeeps(w);
    assert ("İ" + w)[1..] == w;
  }

  /** The combining dot after `i` becomes a hyphen. */
  lemma CollapseDottedWord(w: string)
    requires w != [] && LowerWord(w)
    ensures Collapse(['i', '\U{0307}'] + w) == "i-" + w
  {
    var lowered := ['i', '\U{0307}'] + w;
    var dotted := lowered[1..];
    assert dotted[1..] == w;
    assert SlugChar(w[0]);
    assert SeparatorRun(w) == 0;
    assert DropSeparators(w) == w;
    CollapseKeeps(w);
    assert !SlugChar(dotted[0]);
    assert Collapse(dotted) == "-" + Collapse(w);
    assert SlugChar(lowered[0]);
    assert Collapse(lowered) == [lowered[0]] + Collapse(dotted);
  }

  /** The dotted capital breaks the word it starts: the as-written slug of `İ` followed by a
      lower-case word w is "i-" + w (so "İnteryer" gives "i-nteryer"), because `toLowerCase`
      leaves a combining dot that the hyphen step turns into a separator. */
  lemma DottedCapitalSplitsWord(w: string)
    requires w != [] && LowerWord(w)
    ensures SlugAsWritten("İ" + w) == "i-" + w
  {
    var lowered := ['i', '\U{0307}'] + w;
    LowerDottedWord(w);
    assert Transliterate(lowered) == lowered;
    CollapseDottedWord(w);
  }

  /** The corrected slug keeps the word whole: `İ` followed by a lower-case word w gives "i" + w. */
  lemma DottedCapitalReadAsI(w: string)
    requires LowerWord(w)
    ensures Slug("İ" + w) == "i" + w
  {
    assert Prepare("İ" + w) == "i" + w;
    CollapseKeeps("i" + w);
  }

  // ---------------------------------------------------------------- colours

  /** The gradient of each colour a category may have. */
  const ColorMap: map<string, string> := map[
    "blue" := "from-blue-500 to-blue-600",
    "purple" := "from-purple-500 to-purple-600",
    "green" := "from-green-500 to-green-600",
    "orange" := "from-orange-500 to-orange-600",
    "red" := "from-red-500 to-red-600",
    "pink" := "from-pink-500 to-pink-600",
    "yellow" := "from-yellow-500 to-yellow-600",
    "indigo" := "from-indigo-500 to-indigo-600"
  ]

  /** The colours the modal offers. */
  const ColorOptions: seq<string> := ["blue", "purple", "green", "orange", "red", "pink", "yellow", "indigo"]

  /** The card gradient of a colour; a colour without one falls back to blue. */
  function GetColorClass(color: string): (cls: string)
    ensures cls in ColorMap.Values
    ensures color !in ColorMap ==> cls == "from-blue-500 to-blue-600"
  {
    if color in ColorMap then ColorMap[color] else ColorMap["blue"]
  }

  /** Every colour the modal offers has a gradient of its own, so none falls back. */
  lemma ColorOptionsHaveGradients()
    ensures forall c :: c in ColorOptions ==> c in ColorMap
    ensures |ColorOptions| == |ColorMap|
  {
  }

  // ---------------------------------------------------------------- entities

  datatype Category = Category(id: int, name: string, slug: string, description: string,
                               itemCount: int, color: string, icon: string, date: string)

  datatype DesignType = DesignType(id: int, name: string, slug: string, description: string,
                                   itemCount: int, date: string)

  datatype SubCategory = SubCategory(id: int, name: string, slug: string, description: string,
                                     itemCount: int, parentCategory: string, date: string)

  datatype CategoryForm = CategoryForm(name: string, slug: string, description: string, color: string, icon: string)
  datatype DesignTypeForm = DesignTypeForm(name: string, slug: string, description: string)
  datatype SubCategoryForm = SubCategoryForm(name: string, slug: string, description: string, parentCategory: string)

  const EmptyCategoryForm := CategoryForm("", "", "", "blue", "📁")
  const EmptyDesignTypeForm := DesignTypeForm("", "", "")
  const EmptySubCategoryForm := SubCategoryForm("", "", "", "")

  /** Which of the three lists the modal edits (and which form a name change writes to). */
  datatype ListKind = Categories | DesignTypes | SubCategories

  function CategoryId(c: Category): int { c.id }
  function DesignTypeId(d: DesignType): int { d.id }
  function SubCategoryId(s: SubCategory): int { s.id }

  function CategoryName(c: Category): string { c.name }
  function CategoryDescription(c: Category): string { c.description }
  function DesignTypeName(d: DesignType): string { d.name }
  function DesignTypeDescription(d: DesignType): string { d.description }
  function SubCategoryName(s: SubCategory): string { s.name }
  function SubCategoryDescription(s: SubCategory): string { s.description }

  /** `{...item, ...categoryForm, date}`: the form's fields and the new date over the entry. */
  function EditCategory(form: CategoryForm, date: string): Category -> Category
  {
    (c: Category) => c.(name := form.name, slug := form.slug, description := form.description,
                        color := form.color, icon := form.icon, date := date)
  }

  function EditDesignType(form: DesignTypeForm, date: string): DesignType -> DesignType
  {
    (d: DesignType) => d.(name := form.name, slug := form.slug, description := form.description, date := date)
  }

  function EditSubCategory(form: SubCategoryForm, date: string): SubCategory -> SubCategory
  {
    (s: SubCategory) => s.(name := form.name, slug := form.slug, description := form.description,
                           parentCategory := form.parentCategory, date := date)
  }

  /** The entry a save without an edit target prepends. */
  function NewCategory(categories: seq<Category>, form: CategoryForm, date: string): Category
  {
    Category(NextId(categories, CategoryId), form.name, form.slug, form.description, 0, form.color, form.icon, date)
  }

  function NewDesignType(designTypes: seq<DesignType>, form: DesignTypeForm, date: string): DesignType
  {
    DesignType(NextId(designTypes, DesignTypeId), form.name, form.slug, form.description, 0, date)
  }

  function NewSubCategory(subCategories: seq<SubCategory>, form: SubCategoryForm, date: string): SubCategory
  {
    SubCategory(NextId(subCategories, SubCategoryId), form.name, form.slug, form.description, 0, form.parentCategory, date)
  }

  /** A new category takes the form's fields, an id no category has and no items. */
  lemma NewCategoryFresh(categories: seq<Category>, form: CategoryForm, date: string)
    ensures NewCategory(categories, form, date).id >= 1
    ensures forall k :: 0 <= k < |categories| ==> categories[k].id != NewCategory(categories, form, date).id
    ensures NewCategory(categories, form, date).itemCount == 0
    ensures EditCategory(form, date)(NewCategory(categories, form, date)) == NewCategory(categories, form, date)
  {
    NextIdFresh(categories, CategoryId);
  }

  lemma NewDesignTypeFresh(designTypes: seq<DesignType>, form: DesignTypeForm, date: string)
    ensures NewDesignType(designTypes, form, date).id >= 1
    ensures forall k :: 0 <= k < |designTypes| ==> designTypes[k].id != NewDesignType(designTypes, form, date).id
    ensures NewDesignType(designTypes, form, date).itemCount == 0
    ensures EditDesignType(form, date)(NewDesignType(designTypes, form, date)) == NewDesignType(designTypes, form, date)
  {
    NextIdFresh(designTypes, DesignTypeId);
  }

  lemma NewSubCategoryFresh(subCategories: seq<SubCategory>, form: SubCategoryForm, date: string)
    ensures NewSubCategory(subCategories, form, date).id >= 1
    ensures forall k :: 0 <= k < |subCategories| ==> subCategories[k].id != NewSubCategory(subCategories, form, date).id
    ensures NewSubCategory(subCategories, form, date).itemCount == 0
    ensures EditSubCategory(form, date)(NewSubCategory(subCategories, form, date)) == NewSubCategory(subCategories, form, date)
  {
    NextIdFresh(subCategories, SubCategoryId);
  }

  /** Editing a category changes only the entries with its id, keeps their ids and item counts,
      and keeps the length. */
  lemma EditCategoryKeeps(categories: seq<Category>, id: int, form: CategoryForm, date: string)
    ensures |UpdateById(categories, id, CategoryId, EditCategory(form, date))| == |categories|
    ensures forall k :: 0 <= k < |categories| && categories[k].id != id ==>
              UpdateById(categories, id, CategoryId, EditCategory(form, date))[k] == categories[k]
    ensures forall k :: 0 <= k < |categories| ==>
              UpdateById(categories, id, CategoryId, EditCategory(form, date))[k].id == categories[k].id
              && UpdateById(categories, id, CategoryId, EditCategory(form, date))[k].itemCount == categories[k].itemCount
  {
    UpdateByIdSpec(categories, id, CategoryId, EditCategory(form, date));
  }

  lemma EditDesignTypeKeeps(designTypes: seq<DesignType>, id: int, form: DesignTypeForm, date: string)
    ensures |UpdateById(designTypes, id, DesignTypeId, EditDesignType(form, date))| == |designTypes|
    ensures forall k :: 0 <= k < |designTypes| && designTypes[k].id != id ==>
              UpdateById(designTypes, id, DesignTypeId, EditDesignType(form, date))[k] == designTypes[k]
    ensures forall k :: 0 <= k < |designTypes| ==>
              UpdateById(designTypes, id, DesignTypeId, EditDesignType(form, date))[k].id == designTypes[k].id
              && UpdateById(designTypes, id, DesignTypeId, EditDesignType(form, date))[k].itemCount == designTypes[k].itemCount
  {
    UpdateByIdSpec(designTypes, id, DesignTypeId, EditDesignType(form, date));
  }

  lemma EditSubCategoryKeeps(subCategories: seq<SubCategory>, id: int, form: SubCategoryForm, date: string)
    ensures |UpdateById(subCategories, id, SubCategoryId, EditSubCategory(form, date))| == |subCategories|
    ensures forall k :: 0 <= k < |subCategories| && subCategories[k].id != id ==>
              UpdateById(subCategories, id, SubCategoryId, EditSubCategory(form, date))[k] == subCategories[k]
    ensures forall k :: 0 <= k < |subCategories| ==>
              UpdateById(subCategories, id, SubCategoryId, EditSubCategory(form, date))[k].id == subCategories[k].id
              && UpdateById(subCategories, id, SubCategoryId, EditSubCategory(form, date))[k].itemCount == subCategories[k].itemCount
  {
    UpdateByIdSpec(subCategories, id, SubCategoryId, EditSubCategory(form, date));
  }

  // ---------------------------------------------------------------- the page

  /** The page's state. The seed lists are constructor parameters; the save date is a
      parameter of each save. */
  class CategoriesPage {
    var categories: seq<Category>
    var designTypes: seq<DesignType>
    var subCategories: seq<SubCategory>
    var showModal: bool
    var modalType: ListKind
    var editingCategory: Option<Category>
    var editingDesignType: Option<DesignType>
    var editingSubCategory: Option<SubCategory>
    var searchTerm: string
    var categoryForm: CategoryForm
    var designTypeForm: DesignTypeForm
    var subCategoryForm: SubCategoryForm

    constructor (categories0: seq<Category>, designTypes0: seq<DesignType>, subCategories0: seq<SubCategory>)
      ensures categories == categories0 && designTypes == designTypes0 && subCategories == subCategories0
      ensures !showModal && modalType == Categories && searchTerm == ""
      ensures editingCategory.None? && editingDesignType.None? && editingSubCategory.None?
      ensures categoryForm == EmptyCategoryForm && designTypeForm == EmptyDesignTypeForm
      ensures subCategoryForm == EmptySubCategoryForm
    {
      categories := categories0;
      designTypes := designTypes0;
      subCategories := subCategories0;
      showModal := false;
      modalType := Categories;
      editingCategory := None;
      editingDesignType := None;
      editingSubCategory := None;
      searchTerm := "";
      categoryForm := EmptyCategoryForm;
      designTypeForm := EmptyDesignTypeForm;
      subCategoryForm := EmptySubCategoryForm;
    }

    /** Opens the category modal on an empty form. */
    method HandleCreateCategory()
      modifies this`modalType, this`editingCategory, this`categoryForm, this`showModal
      ensures modalType == Categories && editingCategory.None? && categoryForm == EmptyCategoryForm && showModal
    {
      modalType := Categories;
      editingCategory := None;
      categoryForm := EmptyCategoryForm;
      showModal := true;
    }

    /** Opens the category modal on a copy of the entry's editable fields. */
    method HandleEditCategory(item: Category)
      modifies this`modalType, this`editingCategory, this`categoryForm, this`showModal
      ensures modalType == Categories && editingCategory == Some(item) && showModal
      ensures categoryForm == CategoryForm(item.name, item.slug, item.description, item.color, item.icon)
    {
      modalType := Categories;
      editingCategory := Some(item);
      categoryForm := CategoryForm(item.name, item.slug, item.description, item.color, item.icon);
      showModal := true;
    }

    /** A confirmed delete drops every category with that id. */
    method HandleDeleteCategory(id: int)
      modifies this`categories
      ensures categories == RemoveById(old(categories), id, CategoryId)
    {
      categories := RemoveById(categories, id, CategoryId);
    }

    /** Save: an edit rewrites the entry with the edited id; otherwise a new entry is prepended.
        The modal closes; the edit target stays as it was. */
    method HandleSaveCategory(date: string)
      modifies this`categories, this`showModal
      ensures old(editingCategory).Some? ==>
                categories == UpdateById(old(categories), editingCategory.value.id, CategoryId, EditCategory(categoryForm, date))
      ensures old(editingCategory).None? ==>
                categories == [NewCategory(old(categories), categoryForm, date)] + old(categories)
      ensures !showModal
    {
      if editingCategory.Some? {
        categories := UpdateById(categories, editingCategory.value.id, CategoryId, EditCategory(categoryForm, date));
      } else {
        categories := [NewCategory(categories, categoryForm, date)] + categories;
      }
      showModal := false;
    }

    /** Opens the design-type modal on an empty form. */
    method HandleCreateDesignType()
      modifies this`modalType, this`editingDesignType, this`designTypeForm, this`showModal
      ensures modalType == DesignTypes && editingDesignType.None? && designTypeForm == EmptyDesignTypeForm && showModal
    {
      modalType := DesignTypes;
      editingDesignType := None;
      designTypeForm := EmptyDesignTypeForm;
      showModal := true;
    }

    /** Opens the design-type modal on a copy of the entry's editable fields. */
    method HandleEditDesignType(item: DesignType)
      modifies this`modalType, this`editingDesignType, this`designTypeForm, this`showModal
      ensures modalType == DesignTypes && editingDesignType == Some(item) && showModal
      ensures designTypeForm == DesignTypeForm(item.name, item.slug, item.description)
    {
      modalType := DesignTypes;
      editingDesignType := Some(item);
      designTypeForm := DesignTypeForm(item.name, item.slug, item.description);
      showModal := true;
    }

    /** A confirmed delete drops every design type with that id. */
    method HandleDeleteDesignType(id: int)
      modifies this`designTypes
      ensures designTypes == RemoveById(old(designTypes), id, DesignTypeId)
    {
      designTypes := RemoveById(designTypes, id, DesignTypeId);
    }

    method HandleSaveDesignType(date: string)
      modifies this`designTypes, this`showModal
      ensures old(editingDesignType).Some? ==>
                designTypes == UpdateById(old(designTypes), editingDesignType.value.id, DesignTypeId, EditDesignType(designTypeForm, date))
      ensures old(editingDesignType).None? ==>
                designTypes == [NewDesignType(old(designTypes), designTypeForm, date)] + old(designTypes)
      ensures !showModal
    {
      if editingDesignType.Some? {
        designTypes := UpdateById(designTypes, editingDesignType.value.id, DesignTypeId, EditDesignType(designTypeForm, date));
      } else {
        designTypes := [NewDesignType(designTypes, designTypeForm, date)] + designTypes;
      }
      showModal := false;
    }

    /** Opens the sub-category modal on an empty form. */
    method HandleCreateSubCategory()
      modifies this`modalType, this`editingSubCategory, this`subCategoryForm, this`showModal
      ensures modalType == SubCategories && editingSubCategory.None? && subCategoryForm == EmptySubCategoryForm && showModal
    {
      modalType := SubCategories;
      editingSubCategory := None;
      subCategoryForm := EmptySubCategoryForm;
      showModal := true;
    }

    /** Opens the sub-category modal on a copy of the entry's editable fields. */
    method HandleEditSubCategory(item: SubCategory)
      modifies this`modalType, this`editingSubCategory, this`subCategoryForm, this`showModal
      ensures modalType == SubCategories && editingSubCategory == Some(item) && showModal
      ensures subCategoryForm == SubCategoryForm(item.name, item.slug, item.description, item.parentCategory)
    {
      modalType := SubCategories;
      editingSubCategory := Some(item);
      subCategoryForm := SubCategoryForm(item.name, item.slug, item.description, item.parentCategory);
      showModal := true;
    }

    /** A confirmed delete drops every sub-category with that id. */
    method HandleDeleteSubCategory(id: int)
      modifies this`subCategories
      ensures subCategories == RemoveById(old(subCategories), id, SubCategoryId)
    {
      subCategories := RemoveById(subCategories, id, SubCategoryId);
    }

    method HandleSaveSubCategory(date: string)
      modifies this`subCategories, this`showModal
      ensures old(editingSubCategory).Some? ==>
                subCategories == UpdateById(old(subCategories), editingSubCategory.value.id, SubCategoryId, EditSubCategory(subCategoryForm, date))
      ensures old(editingSubCategory).None? ==>
                subCategories == [NewSubCategory(old(subCategories), subCategoryForm, date)] + old(subCategories)
      ensures !showModal
    {
      if editingSubCategory.Some? {
        subCategories := UpdateById(subCategories, editingSubCategory.value.id, SubCategoryId, EditSubCategory(subCategoryForm, date));
      } else {
        subCategories := [NewSubCategory(subCategories, subCategoryForm, date)] + subCategories;
      }
      showModal := false;
    }

    /** The save button saves into the list the modal was opened for. */
    method HandleSave(date: string)
      modifies this`categories, this`designTypes, this`subCategories, this`showModal
      ensures modalType == Categories ==>
                designTypes == old(designTypes) && subCategories == old(subCategories)
                && (editingCategory.Some? ==>
                      categories == UpdateById(old(categories), editingCategory.value.id, CategoryId, EditCategory(categoryForm, date)))
                && (editingCategory.None? ==>
                      categories == [NewCategory(old(categories), categoryForm, date)] + old(categories))
      ensures modalType == DesignTypes ==>
                categories == old(categories) && subCategories == old(subCategories)
                && (editingDesignType.Some? ==>
                      designTypes == UpdateById(old(designTypes), editingDesignType.value.id, DesignTypeId, EditDesignType(designTypeForm, date)))
                && (editingDesignType.None? ==>
                      designTypes == [NewDesignType(old(designTypes), designTypeForm, date)] + old(designTypes))
      ensures modalType == SubCategories ==>
                categories == old(categories) && designTypes == old(designTypes)
                && (editingSubCategory.Some? ==>
                      subCategories == UpdateById(old(subCategories), editingSubCategory.value.id, SubCategoryId, EditSubCategory(subCategoryForm, date)))
                && (editingSubCategory.None? ==>
                      subCategories == [NewSubCategory(old(subCategories), subCategoryForm, date)] + old(subCategories))
      ensures !showModal
    {
      if modalType == Categories {
        HandleSaveCategory(date);
      } else if modalType == DesignTypes {
        HandleSaveDesignType(date);
      } else {
        HandleSaveSubCategory(date);
      }
    }

    /** Typing a name writes the name and the slug the page derives from it (`İ` included, see
        `SlugAsWritten`) into the form of that list only. */
    method HandleNameChange(name: string, kind: ListKind)
      modifies this`categoryForm, this`designTypeForm, this`subCategoryForm
      ensures kind == Categories ==>
                categoryForm == old(categoryForm).(name := name, slug := SlugAsWritten(name))
                && designTypeForm == old(designTypeForm) && subCategoryForm == old(subCategoryForm)
      ensures kind == DesignTypes ==>
                designTypeForm == old(designTypeForm).(name := name, slug := SlugAsWritten(name))
                && categoryForm == old(categoryForm) && subCategoryForm == old(subCategoryForm)
      ensures kind == SubCategories ==>
                subCategoryForm == old(subCategoryForm).(name := name, slug := SlugAsWritten(name))
                && categoryForm == old(categoryForm) && designTypeForm == old(designTypeForm)
    {
      var slug := SlugAsWritten(name);
      if kind == Categories {
        categoryForm := categoryForm.(name := name, slug := slug);
      } else if kind == DesignTypes {
        designTypeForm := designTypeForm.(name := name, slug := slug);
      } else {
        subCategoryForm := subCategoryForm.(name := name, slug := slug);
      }
    }

    /** The three lists under the search box. */
    function FilteredCategories(): seq<Category>
      reads this`categories, this`searchTerm
    {
      Search(categories, CategoryName, CategoryDescription, searchTerm)
    }

    function FilteredDesignTypes(): seq<DesignType>
      reads this`designTypes, this`searchTerm
    {
      Search(designTypes, DesignTypeName, DesignTypeDescription, searchTerm)
    }

    function FilteredSubCategories(): seq<SubCategory>
      reads this`subCategories, this`searchTerm
    {
      Search(subCategories, SubCategoryName, SubCategoryDescription, searchTerm)
    }
  }

  /** The category search keeps, in order, exactly the entries whose name or description
      contains the term ignoring case, and keeps everything for an empty term. */
  lemma CategorySearchSpec(categories: seq<Category>, term: string)
    ensures IsSubsequence(Search(categories, CategoryName, CategoryDescription, term), categories)
    ensures forall c :: c in Search(categories, CategoryName, CategoryDescription, term) <==>
              c in categories && (ContainsIgnoreCase(c.name, term) || ContainsIgnoreCase(c.description, term))
    ensures term == "" ==> Search(categories, CategoryName, CategoryDescription, term) == categories
  {
    SearchSpec(categories, CategoryName, CategoryDescription, term);
    EmptySearchKeepsAll(categories, CategoryName, CategoryDescription);
  }

  lemma DesignTypeSearchSpec(designTypes: seq<DesignType>, term: string)
    ensures IsSubsequence(Search(designTypes, DesignTypeName, DesignTypeDescription, term), designTypes)
    ensures forall d :: d in Search(designTypes, DesignTypeName, DesignTypeDescription, term) <==>
              d in designTypes && (ContainsIgnoreCase(d.name, term) || ContainsIgnoreCase(d.description, term))
    ensures term == "" ==> Search(designTypes, DesignTypeName, DesignTypeDescription, term) == designTypes
  {
    SearchSpec(designTypes, DesignTypeName, DesignTypeDescription, term);
    EmptySearchKeepsAll(designTypes, DesignTypeName, DesignTypeDescription);
  }

  lemma SubCategorySearchSpec(subCategories: seq<SubCategory>, term: string)
    ensures IsSubsequence(Search(subCategories, SubCategoryName, SubCategoryDescription, term), subCategories)
    ensures forall s :: s in Search(subCategories, SubCategoryName, SubCategoryDescription, term) <==>
              s in subCategories && (ContainsIgnoreCase(s.name, term) || ContainsIgnoreCase(s.description, term))
    ensures term == "" ==> Search(subCategories, SubCategoryName, SubCategoryDescription, term) == subCategories
  {
    SearchSpec(subCategories, SubCategoryName, SubCategoryDescription, term);
    EmptySearchKeepsAll(subCategories, SubCategoryName, SubCategoryDescription);
  }

  /** Deleting a category keeps the others in order and leaves none with that id. */
  lemma DeleteCategorySpec(categories: seq<Category>, id: int)
    ensures IsSubsequence(RemoveById(categories, id, CategoryId), categories)
    ensures forall c :: c in RemoveById(categories, id, CategoryId) <==> c in categories && c.id != id
  {
    RemoveByIdSpec(categories, id, CategoryId);
  }
}

=== FILE: admin_lists.dfy ===
/** List editing shared by the admin pages that keep their records in component state:
    fresh numeric ids, edit in place by id, delete by id and the two-field search box. */
module AdminLists {
  import opened Util

  /** `Math.max(...ids, 0)`. */
  function MaxId(ids: seq<int>): (m: int)
    ensures m >= 0
    ensures forall k :: 0 <= k < |ids| ==> ids[k] <= m
    ensures m == 0 || m in ids
  {
    if ids == [] then 0
    else
      var rest := MaxId(ids[1..]);
      if ids[0] > rest then ids[0] else rest
  }

  function IdsOf<T>(items: seq<T>, idOf: T -> int): (ids: seq<int>)
    ensures |ids| == |items|
    ensures forall k :: 0 <= k < |items| ==> ids[k] == idOf(items[k])
  {
    seq(|items|, k requires 0 <= k < |items| => idOf(items[k]))
  }

  /** `Math.max(...items.map(i => i.id), 0) + 1`. */
  function NextId<T>(items: seq<T>, idOf: T -> int): (r: int)
    ensures r >= 1
    ensures forall k :: 0 <= k < |items| ==> idOf(items[k]) < r
  {
    MaxId(IdsOf(items, idOf)) + 1
  }

  /** The new id is positive and larger than, hence different from, every id in the list. */
  lemma NextIdFresh<T>(items: seq<T>, idOf: T -> int)
    ensures NextId(items, idOf) >= 1
    ensures forall k :: 0 <= k < |items| ==> idOf(items[k]) < NextId(items, idOf)
  {
    var ids := IdsOf(items, idOf);
    forall k | 0 <= k < |items|
      ensures idOf(items[k]) < NextId(items, idOf)
    {
      assert ids[k] == idOf(items[k]);
    }
  }

  /** `items.map(item => item.id === id ? update(item) : item)`. */
  function UpdateById<T>(items: seq<T>, id: int, idOf: T -> int, update: T -> T): (r: seq<T>)
    ensures |r| == |items|
    ensures forall k :: 0 <= k < |items| && idOf(items[k]) != id ==> r[k] == items[k]
  {
    seq(|items|, k requires 0 <= k < |items| => if idOf(items[k]) == id then update(items[k]) else items[k])
  }

  /** Editing keeps the length and every entry with another id, and applies the update to the
      entries with that id; an update that keeps the id keeps the list of ids. */
  lemma UpdateByIdSpec<T>(items: seq<T>, id: int, idOf: T -> int, update: T -> T)
    ensures |UpdateById(items, id, idOf, update)| == |items|
    ensures forall k :: 0 <= k < |items| && idOf(items[k]) != id ==> UpdateById(items, id, idOf, update)[k] == items[k]
    ensures forall k :: 0 <= k < |items| && idOf(items[k]) == id ==> UpdateById(items, id, idOf, update)[k] == update(items[k])
    ensures (forall x :: idOf(update(x)) == idOf(x)) ==>
              IdsOf(UpdateById(items, id, idOf, update), idOf) == IdsOf(items, idOf)
  {
  }

  /** `items.filter(item => item.id !== id)`. */
  function RemoveById<T>(items: seq<T>, id: int, idOf: T -> int): (r: seq<T>)
    ensures |r| <= |items|
    ensures forall k :: 0 <= k < |r| ==> idOf(r[k]) != id
  {
    Filter(items, (x: T) => idOf(x) != id)
  }

  /** Deleting keeps the other entries in their order and removes every entry with that id. */
  lemma RemoveByIdSpec<T>(items: seq<T>, id: int, idOf: T -> int)
    ensures IsSubsequence(RemoveById(items, id, idOf), items)
    ensures forall x :: x in RemoveById(items, id, idOf) <==> x in items && idOf(x) != id
  {
    FilterIsSubsequence(items, (x: T) => idOf(x) != id);
    FilterMembers(items, (x: T) => idOf(x) != id);
  }

  /** Deleting an id nobody has changes nothing. */
  lemma RemoveAbsentId<T>(items: seq<T>, id: int, idOf: T -> int)
    requires forall k :: 0 <= k < |items| ==> idOf(items[k]) != id
    ensures RemoveById(items, id, idOf) == items
  {
    FilterAll(items, (x: T) => idOf(x) != id);
  }

  /** The search box: either text contains the term, ignoring case. */
  predicate EitherContains(first: string, second: string, term: string)
  {
    ContainsIgnoreCase(first, term) || ContainsIgnoreCase(second, term)
  }

  /** An empty search term matches every record. */
  lemma EmptyTermMatches(first: string, second: string)
    ensures EitherContains(first, second, "")
  {
    ContainsEmpty(Lower(first));
  }

  /** The admin search: records where either of two texts contains the term, ignoring case. */
  function Search<T>(items: seq<T>, first: T -> string, second: T -> string, term: string): (r: seq<T>)
    ensures |r| <= |items|
    ensures forall k :: 0 <= k < |r| ==> EitherContains(first(r[k]), second(r[k]), term)
  {
    Filter(items, (x: T) => EitherContains(first(x), second(x), term))
  }

  /** The search keeps, in order, exactly the records that match. */
  lemma SearchSpec<T>(items: seq<T>, first: T -> string, second: T -> string, term: string)
    ensures IsSubsequence(Search(items, first, second, term), items)
    ensures forall x :: x in Search(items, first, second, term) <==>
                        x in items && EitherContains(first(x), second(x), term)
  {
    FilterIsSubsequence(items, (x: T) => EitherContains(first(x), second(x), term));
    FilterMembers(items, (x: T) => EitherContains(first(x), second(x), term));
  }

  /** An empty search box lists everything. */
  lemma EmptySearchKeepsAll<T>(items: seq<T>, first: T -> string, second: T -> string)
    ensures Search(items, first, second, "") == items
  {
    forall k | 0 <= k < |items|
      ensures EitherContains(first(items[k]), second(items[k]), "")
    {
      EmptyTermMatches(first(items[k]), second(items[k]));
    }
    FilterAll(items, (x: T) => EitherContains(first(x), second(x), ""));
  }
}

=== FILE: admin_portfolio.dfy ===
/** The portfolio administration page (src/app/admin/portfolio/page.tsx): the list of
    portfolio entries kept in component state, its create/edit modal and the search box. */
module AdminPortfolio {
  import opened Util
  import opened AdminLists

  datatype Status = Active | Draft

  datatype PortfolioItem = PortfolioItem(id: int, title: string, category: string, description: string,
                                         image: string, date: string, status: Status)

  /** The modal's fields. */
  datatype PortfolioForm = PortfolioForm(title: string, category: string, description: string,
                                         image: string, status: Status)

  const EmptyForm := PortfolioForm("", "", "", "", Active)

  function ItemId(item: PortfolioItem): int { item.id }
  function ItemTitle(item: PortfolioItem): string { item.title }
  function ItemCategory(item: PortfolioItem): string { item.category }

  /** The form the edit button opens: the entry's own fields. */
  function FormOf(item: PortfolioItem): PortfolioForm
  {
    PortfolioForm(item.title, item.category, item.description, item.image, item.status)
  }

  /** `{...item, ...formData, date}`: the form's fields and the new date over the entry. */
  function EditWith(form: PortfolioForm, date: string): (edit: PortfolioItem -> PortfolioItem)
    ensures forall item :: edit(item).id == item.id && FormOf(edit(item)) == form && edit(item).date == date
  {
    (item: PortfolioItem) => item.(title := form.title, category := form.category, description := form.description,
                                   image := form.image, status := form.status, date := date)
  }

  /** The entry a save without an edit target prepends. */
  function NewItem(items: seq<PortfolioItem>, form: PortfolioForm, date: string): (r: PortfolioItem)
    ensures r.id >= 1 && forall k :: 0 <= k < |items| ==> items[k].id != r.id
  {
    PortfolioItem(NextId(items, ItemId), form.title, form.category, form.description, form.image, date, form.status)
  }

  /** A new entry has a positive id no existing entry has, and carries exactly the form. */
  lemma NewItemFresh(items: seq<PortfolioItem>, form: PortfolioForm, date: string)
    ensures NewItem(items, form, date).id >= 1
    ensures forall k :: 0 <= k < |items| ==> items[k].id != NewItem(items, form, date).id
    ensures FormOf(NewItem(items, form, date)) == form && NewItem(items, form, date).date == date
  {
    NextIdFresh(items, ItemId);
  }

  /** An edit keeps the entry's id and replaces title, category, description, image and status
      with the form's. */
  lemma EditWithSpec(item: PortfolioItem, form: PortfolioForm, date: string)
    ensures EditWith(form, date)(item).id == item.id
    ensures FormOf(EditWith(form, date)(item)) == form
    ensures EditWith(form, date)(item).date == date
  {
  }

  /** Opening an entry and saving the untouched form only refreshes its date. */
  lemma EditUnchangedFormOnlyDates(item: PortfolioItem, date: string)
    ensures EditWith(FormOf(item), date)(item) == item.(date := date)
  {
  }

  /** Saving an edit changes only the entries with the edited id, gives them the form's fields,
      keeps every id and keeps the length. */
  lemma SaveEditSpec(items: seq<PortfolioItem>, id: int, form: PortfolioForm, date: string)
    ensures |UpdateById(items, id, ItemId, EditWith(form, date))| == |items|
    ensures forall k :: 0 <= k < |items| && items[k].id != id ==>
              UpdateById(items, id, ItemId, EditWith(form, date))[k] == items[k]
    ensures forall k :: 0 <= k < |items| && items[k].id == id ==>
              FormOf(UpdateById(items, id, ItemId, EditWith(form, date))[k]) == form
    ensures IdsOf(UpdateById(items, id, ItemId, EditWith(form, date)), ItemId) == IdsOf(items, ItemId)
  {
    UpdateByIdSpec(items, id, ItemId, EditWith(form, date));
  }

  /** The search keeps, in order, exactly the entries whose title or category contains the
      term ignoring case; an empty term keeps everything. */
  lemma FilteredItemsSpec(items: seq<PortfolioItem>, term: string)
    ensures IsSubsequence(Search(items, ItemTitle, ItemCategory, term), items)
    ensures forall x :: x in Search(items, ItemTitle, ItemCategory, term) <==>
              x in items && (ContainsIgnoreCase(x.title, term) || ContainsIgnoreCase(x.category, term))
    ensures term == "" ==> Search(items, ItemTitle, ItemCategory, term) == items
  {
    SearchSpec(items, ItemTitle, ItemCategory, term);
    EmptySearchKeepsAll(items, ItemTitle, ItemCategory);
  }

  /** The page's state. The seed list is a constructor parameter; the save date is a parameter
      of each save. */
  class PortfolioPage {
    var portfolioItems: seq<PortfolioItem>
    var showModal: bool
    var editingItem: Option<PortfolioItem>
    var searchTerm: string
    var formData: PortfolioForm

    constructor (items0: seq<PortfolioItem>)
      ensures portfolioItems == items0 && !showModal && editingItem.None? && searchTerm == ""
      ensures formData == EmptyForm
    {
      portfolioItems := items0;
      showModal := false;
      editingItem := None;
      searchTerm := "";
      formData := EmptyForm;
    }

    /** Opens the modal on an empty form whose status is active. */
    method HandleCreate()
      modifies this`editingItem, this`formData, this`showModal
      ensures editingItem.None? && formData == EmptyForm && formData.status == Active && showModal
    {
      editingItem := None;
      formData := EmptyForm;
      showModal := true;
    }

    /** Opens the modal on a copy of exactly the entry's editable fields. */
    method HandleEdit(item: PortfolioItem)
      modifies this`editingItem, this`formData, this`showModal
      ensures editingItem == Some(item) && formData == FormOf(item) && showModal
    {
      editingItem := Some(item);
      formData := FormOf(item);
      showModal := true;
    }

    /** A confirmed delete drops the entries with that id and keeps the rest in order. */
    method HandleDelete(id: int)
      modifies this`portfolioItems
      ensures portfolioItems == RemoveById(old(portfolioItems), id, ItemId)
    {
      portfolioItems := RemoveById(portfolioItems, id, ItemId);
    }

    /** Save: an edit rewrites the entries with the edited id, otherwise a new entry is
        prepended; the modal closes and the edit target stays as it was. */
    method HandleSave(date: string)
      modifies this`portfolioItems, this`showModal
      ensures editingItem.Some? ==>
                portfolioItems == UpdateById(old(portfolioItems), editingItem.value.id, ItemId, EditWith(formData, date))
      ensures editingItem.None? ==>
                portfolioItems == [NewItem(old(portfolioItems), formData, date)] + old(portfolioItems)
                && |portfolioItems| == |old(portfolioItems)| + 1
      ensures !showModal
    {
      if editingItem.Some? {
        portfolioItems := UpdateById(portfolioItems, editingItem.value.id, ItemId, EditWith(formData, date));
      } else {
        portfolioItems := [NewItem(portfolioItems, formData, date)] + portfolioItems;
      }
      showModal := false;
    }

    /** The list under the search box. */
    function FilteredItems(): (r: seq<PortfolioItem>)
      reads this`portfolioItems, this`searchTerm
      ensures |r| <= |portfolioItems|
      ensures forall k :: 0 <= k < |r| ==> EitherContains(r[k].title, r[k].category, searchTerm)
    {
      Search(portfolioItems, ItemTitle, ItemCategory, searchTerm)
    }
  }

  /** Deleting keeps the other entries in order and leaves none with that id. */
  lemma DeleteSpec(items: seq<PortfolioItem>, id: int)
    ensures IsSubsequence(RemoveById(items, id, ItemId), items)
    ensures forall x :: x in RemoveById(items, id, ItemId) <==> x in items && x.id != id
  {
    RemoveByIdSpec(items, id, ItemId);
  }
}

=== FILE: catalog_rows.dfy ===
/** The catalog item as the pages receive it from the items route: a cover image, the
    design and room types it was joined with, and (when the route embedded them) its
    gallery images. */
module CatalogRows {
  import opened Util

  /** A design type or room type reference: its id and display name. */
  datatype NamedRef = NamedRef(id: string, name: string)

  datatype GalleryImage = GalleryImage(imageUrl: string, position: int)

  datatype CatalogItem = CatalogItem(
    id: string,
    imageUrl: string,
    designType: Option<NamedRef>,
    roomType: Option<NamedRef>,
    images: Option<seq<GalleryImage>>)

  /** `item.design_type?.name || ""`. */
  function DesignName(item: CatalogItem): (n: string)
    ensures item.designType.None? ==> n == ""
  {
    if item.designType.Some? then item.designType.value.name else ""
  }

  /** `item.room_type?.name || ""`. */
  function RoomName(item: CatalogItem): (n: string)
    ensures item.roomType.None? ==> n == ""
  {
    if item.roomType.Some? then item.roomType.value.name else ""
  }

  /** The gallery URLs in their received order. */
  function GalleryUrls(images: seq<GalleryImage>): (urls: seq<string>)
    ensures |urls| == |images|
    ensures forall k :: 0 <= k < |images| ==> urls[k] == images[k].imageUrl
  {
    seq(|images|, k requires 0 <= k < |images| => images[k].imageUrl)
  }
}

=== FILE: catalog_store.dfy ===
/** The catalog items route: POST (validate, default the cover, merge into an item with
    the same design type, room type and cover, or create one), PATCH (append only new
    gallery URLs) and DELETE (gallery rows first, then the item), over the two backend
    tables `catalog_items` and `catalog_item_images` held in memory.

    Backend failures that the handlers only warn about, or that make them answer 500,
    are boolean `Faults` the caller supplies. */
module CatalogStore {
  import opened Util

  /** A row of `catalog_items`. The backend assigns `id`. */
  datatype ItemRow = ItemRow(id: nat, designTypeId: string, roomTypeId: string, imageUrl: string)

  /** A row of `catalog_item_images`; `position` may be null. */
  datatype ImageRow = ImageRow(itemId: nat, imageUrl: string, position: Option<int>)

  datatype Tables = Tables(items: seq<ItemRow>, images: seq<ImageRow>, nextId: nat)

  /** The JSON body of a POST; a field that is absent (or, for `image_urls`, not an array) is `None`. */
  datatype PostBody = PostBody(
    designTypeId: Option<string>,
    roomTypeId: Option<string>,
    imageUrl: Option<string>,
    imageUrls: Option<seq<string>>)

  /** The JSON body of a PATCH. */
  datatype PatchBody = PatchBody(itemId: Option<nat>, imageUrls: Option<seq<string>>)

  /** What `await request.json()` and the destructuring after it give a handler: a body, or
      nothing usable, when the text is not JSON (the call throws) or is `null` (destructuring
      it throws). Any other JSON value destructures, with the fields it lacks absent. */
  datatype Request<B> = Parsed(body: B) | Unusable

  /** Which backend calls fail during one request. */
  datatype Faults = Faults(
    itemSelect: bool,    // POST duplicate check; PATCH cover lookup
    gallerySelect: bool, // reading the item's gallery rows
    itemWrite: bool,     // POST item insert; DELETE item delete
    galleryWrite: bool,  // gallery insert; DELETE gallery delete
    embed: bool)         // re-reading the item with its relations

  const NoFaults := Faults(false, false, false, false, false)

  /** `merged` is the flag POST sets when it appended to an existing item and could re-read it. */
  datatype Reply = Success(id: nat, merged: bool) | BadRequest(error: string) | ServerError

  datatype Outcome = Outcome(tables: Tables, reply: Reply)

  const MissingTypes := "Missing design_type_id or room_type_id"
  const MissingImage := "Missing image_url (or image_urls)"
  const MissingItemId := "Missing item_id"
  const EmptyImageUrls := "image_urls must be a non-empty array"
  const MissingId := "Missing id"

  /** Backend-assigned ids are all below `nextId` and pairwise distinct. */
  ghost predicate ValidTables(t: Tables)
  {
    && (forall i :: 0 <= i < |t.items| ==> t.items[i].id < t.nextId)
    && DistinctBy(t.items, (r: ItemRow) => r.id)
  }

  // ---------------------------------------------------------------- pure pieces

  /** The cover: `image_url`, or `image_urls[0]` when `image_url` is absent or empty. */
  function Cover(body: PostBody): (c: Option<string>)
    ensures Truthy(body.imageUrl) ==> c == body.imageUrl
    ensures !Truthy(body.imageUrl) && body.imageUrls.Some? && |body.imageUrls.value| > 0
            ==> c == Some(body.imageUrls.value[0])
    ensures !Truthy(body.imageUrl) && (body.imageUrls.None? || body.imageUrls.value == [])
            ==> !Truthy(c)
  {
    if !Truthy(body.imageUrl) && body.imageUrls.Some? && |body.imageUrls.value| > 0
    then Some(body.imageUrls.value[0])
    else body.imageUrl
  }

  predicate SameCover(r: ItemRow, dt: string, rt: string, cover: string)
  {
    r.designTypeId == dt && r.roomTypeId == rt && r.imageUrl == cover
  }

  /** The duplicate check's `limit(1)`: the first row with the same design type, room type and cover. */
  function FindSameCover(items: seq<ItemRow>, dt: string, rt: string, cover: string): (r: Option<nat>)
    ensures r.None? <==> forall i :: 0 <= i < |items| ==> !SameCover(items[i], dt, rt, cover)
    ensures r.Some? ==> exists i :: 0 <= i < |items| && SameCover(items[i], dt, rt, cover) && items[i].id == r.value
  {
    if items == [] then None
    else if SameCover(items[0], dt, rt, cover) then Some(items[0].id)
    else
      var rest := FindSameCover(items[1..], dt, rt, cover);
      assert forall i :: 1 <= i < |items| ==> items[i] == items[1..][i - 1];
      rest
  }

  /** The item's gallery rows (`.eq("item_id", id)`). */
  function GalleryOf(images: seq<ImageRow>, id: nat): seq<ImageRow>
  {
    Filter(images, (r: ImageRow) => r.itemId == id)
  }

  function UrlSet(gallery: seq<ImageRow>): set<string>
  {
    set r | r in gallery :: r.imageUrl
  }

  function CoverSet(cover: Option<string>): set<string>
  {
    if Truthy(cover) then {cover.value} else {}
  }

  /** The for-loop that fills `existingUrls` from the gallery, then adds the cover when it is set. */
  method CollectExistingUrls(gallery: seq<ImageRow>, cover: Option<string>) returns (urls: set<string>)
    ensures urls == UrlSet(gallery) + CoverSet(cover)
  {
    urls := {};
    var i := 0;
    while i < |gallery|
      invariant 0 <= i <= |gallery|
      invariant urls == UrlSet(gallery[..i])
    {
      assert gallery[..i + 1] == gallery[..i] + [gallery[i]];
      urls := urls + {gallery[i].imageUrl};
      i := i + 1;
    }
    assert gallery[..i] == gallery;
    if Truthy(cover) {
      urls := urls + {cover.value};
    }
  }

  /** `image_urls.filter(u => !!u && !existingUrls.has(u))`. */
  function UrlsToInsert(urls: seq<string>, existing: set<string>): (r: seq<string>)
    ensures |r| <= |urls|
    ensures forall i :: 0 <= i < |r| ==> r[i] != "" && r[i] !in existing
  {
    Filter(urls, (u: string) => u != "" && u !in existing)
  }

  /** `(position as number) || 0`. */
  function PositionValue(r: ImageRow): int
  {
    if r.position.Some? then r.position.value else 0
  }

  function MaxPosition(gallery: seq<ImageRow>): int
    requires gallery != []
  {
    if |gallery| == 1 then PositionValue(gallery[0])
    else
      var m := MaxPosition(gallery[1..]);
      if PositionValue(gallery[0]) >= m then PositionValue(gallery[0]) else m
  }

  /** `Math.max(...positions) + 1`, or 0 for an empty gallery. */
  function NextPosition(gallery: seq<ImageRow>): int
  {
    if gallery == [] then 0 else MaxPosition(gallery) + 1
  }

  /** One row per URL, at consecutive positions from `start`, in input order. */
  function NewRows(id: nat, urls: seq<string>, start: int): (rows: seq<ImageRow>)
  {
    seq(|urls|, k requires 0 <= k < |urls| => ImageRow(id, urls[k], Some(start + k)))
  }

  // ---------------------------------------------------------------- the handlers as specifications

  /** The gallery step of POST's merge path (and nothing at all when `image_urls` is not a non-empty array). */
  function MergeImages(t: Tables, id: nat, cover: string, urls: Option<seq<string>>, f: Faults): (r: seq<ImageRow>)
    ensures t.images <= r
    ensures forall k :: |t.images| <= k < |r| ==> r[k].itemId == id && r[k].imageUrl != "" && r[k].imageUrl != cover
    ensures urls.None? || urls.value == [] || f.galleryWrite ==> r == t.images
  {
    if urls.None? || urls.value == [] then t.images
    else
      var gallery := if f.gallerySelect then [] else GalleryOf(t.images, id);
      var toInsert := UrlsToInsert(urls.value, UrlSet(gallery) + {cover});
      if toInsert != [] && !f.galleryWrite then t.images + NewRows(id, toInsert, NextPosition(gallery))
      else t.images
  }

  function CreateImages(t: Tables, id: nat, urls: Option<seq<string>>, f: Faults): (r: seq<ImageRow>)
    ensures t.images <= r
    ensures forall k :: |t.images| <= k < |r| ==> r[k].itemId == id
  {
    if urls.Some? && urls.value != [] && !f.galleryWrite then t.images + NewRows(id, urls.value, 0)
    else t.images
  }

  function PostSpec(t: Tables, body: PostBody, f: Faults): (r: Outcome)
    ensures t.items <= r.tables.items && t.images <= r.tables.images
    ensures |r.tables.items| <= |t.items| + 1
    ensures r.tables.nextId == t.nextId || (r.tables.nextId == t.nextId + 1 && r.reply == Success(t.nextId, false))
  {
    if !Truthy(body.designTypeId) || !Truthy(body.roomTypeId) then Outcome(t, BadRequest(MissingTypes))
    else
      var cover := Cover(body);
      if !Truthy(cover) then Outcome(t, BadRequest(MissingImage))
      else
        var dt, rt, c := body.designTypeId.value, body.roomTypeId.value, cover.value;
        var existing := if f.itemSelect then None else FindSameCover(t.items, dt, rt, c);
        if existing.Some? then
          Outcome(t.(images := MergeImages(t, existing.value, c, body.imageUrls, f)), Success(existing.value, !f.embed))
        else if f.itemWrite then Outcome(t, ServerError)
        else
          var id := t.nextId;
          var t' := Tables(t.items + [ItemRow(id, dt, rt, c)], t.images, id + 1);
          Outcome(t'.(images := CreateImages(t', id, body.imageUrls, f)), Success(id, false))
  }

  /** The POST handler: an unusable body throws inside `try`, so the answer is a 500 and
      nothing is written; a parsed body is handled by `PostSpec`. */
  function PostRequest(t: Tables, req: Request<PostBody>, f: Faults): (r: Outcome)
    ensures req.Unusable? ==> r == Outcome(t, ServerError)
    ensures t.items <= r.tables.items && t.images <= r.tables.images
    ensures r.reply.Success? ==> req.Parsed? && Truthy(req.body.designTypeId) && Truthy(req.body.roomTypeId)
                                 && Truthy(Cover(req.body))
  {
    match req
    case Unusable => Outcome(t, ServerError)
    case Parsed(body) => PostSpec(t, body, f)
  }

  /** The PATCH handler: an unusable body is a 500 with nothing written; a parsed body is
      handled by `PatchSpec`. */
  function PatchRequest(t: Tables, req: Request<PatchBody>, f: Faults): (r: Outcome)
    ensures req.Unusable? ==> r == Outcome(t, ServerError)
    ensures r.tables.items == t.items && r.tables.nextId == t.nextId && t.images <= r.tables.images
    ensures r.reply.Success? ==> req.Parsed? && req.body.itemId == Some(r.reply.id)
  {
    match req
    case Unusable => Outcome(t, ServerError)
    case Parsed(body) => PatchSpec(t, body.itemId, body.imageUrls, f)
  }

  function FindItem(items: seq<ItemRow>, id: nat): Option<ItemRow>
  {
    if items == [] then None else if items[0].id == id then Some(items[0]) else FindItem(items[1..], id)
  }

  function PatchSpec(t: Tables, itemId: Option<nat>, urls: Option<seq<string>>, f: Faults): (r: Outcome)
    ensures r.tables.items == t.items && r.tables.nextId == t.nextId
    ensures t.images <= r.tables.images
    ensures itemId.Some? && r.reply.Success? ==> r.reply.id == itemId.value
  {
    if itemId.None? then Outcome(t, BadRequest(MissingItemId))
    else if urls.None? || urls.value == [] then Outcome(t, BadRequest(EmptyImageUrls))
    else if f.gallerySelect then Outcome(t, ServerError)
    else
      var id := itemId.value;
      var row := FindItem(t.items, id);
      if f.itemSelect || row.None? then Outcome(t, ServerError)
      else
        var gallery := GalleryOf(t.images, id);
        var toInsert := UrlsToInsert(urls.value, UrlSet(gallery) + CoverSet(Some(row.value.imageUrl)));
        if toInsert != [] && f.galleryWrite then Outcome(t, ServerError)
        else
          var t' := if toInsert == [] then t else t.(images := t.images + NewRows(id, toInsert, NextPosition(gallery)));
          Outcome(t', if f.embed then ServerError else Success(id, false))
  }

  function DeleteSpec(t: Tables, id: Option<nat>, f: Faults): Outcome
  {
    if id.None? then Outcome(t, BadRequest(MissingId))
    else
      var images := if f.galleryWrite then t.images else Filter(t.images, (r: ImageRow) => r.itemId != id.value);
      if f.itemWrite then Outcome(t.(images := images), ServerError)
      else Outcome(Tables(Filter(t.items, (r: ItemRow) => r.id != id.value), images, t.nextId), Success(id.value, false))
  }

  // ---------------------------------------------------------------- the store

  class Store {
    var items: seq<ItemRow>
    var images: seq<ImageRow>
    var nextId: nat

    function State(): Tables
      reads this
    {
      Tables(items, images, nextId)
    }

    ghost predicate Valid()
      reads this
    {
      ValidTables(State())
    }

    constructor ()
      ensures Valid() && State() == Tables([], [], 0)
    {
      items, images, nextId := [], [], 0;
    }

    /** Appends the rows for `urls` to `catalog_item_images`, as one insert. */
    method InsertImages(id: nat, urls: seq<string>, start: int)
      modifies this
      ensures items == old(items) && nextId == old(nextId)
      ensures images == old(images) + NewRows(id, urls, start)
    {
      images := images + NewRows(id, urls, start);
    }

    method Post(req: Request<PostBody>, f: Faults) returns (reply: Reply)
      requires Valid()
      modifies this
      ensures Valid()
      ensures Outcome(State(), reply) == PostRequest(old(State()), req, f)
    {
      if req.Unusable? {
        return ServerError;
      }
      reply := PostParsed(req.body, f);
    }

    /** The POST handler once the body has been read. */
    method PostParsed(body: PostBody, f: Faults) returns (reply: Reply)
      requires Valid()
      modifies this
      ensures Valid()
      ensures Outcome(State(), reply) == PostSpec(old(State()), body, f)
    {
      ghost var t := State();
      if !Truthy(body.designTypeId) || !Truthy(body.roomTypeId) {
        return BadRequest(MissingTypes);
      }
      var cover := body.imageUrl;
      if !Truthy(cover) && body.imageUrls.Some? && |body.imageUrls.value| > 0 {
        cover := Some(body.imageUrls.value[0]);
      }
      assert cover == Cover(body);
      if !Truthy(cover) {
        return BadRequest(MissingImage);
      }
      var dt, rt, c := body.designTypeId.value, body.roomTypeId.value, cover.value;
      var existing := if f.itemSelect then None else FindSameCover(items, dt, rt, c);
      if existing.Some? {
        var id := existing.value;
        if body.imageUrls.Some? && body.imageUrls.value != [] {
          var gallery := if f.gallerySelect then [] else GalleryOf(images, id);
          var existingUrls := CollectExistingUrls(gallery, cover);
          var toInsert := UrlsToInsert(body.imageUrls.value, existingUrls);
          if toInsert != [] && !f.galleryWrite {
            InsertImages(id, toInsert, NextPosition(gallery));
          }
        }
        PostPreservesValid(t, body, f);
        return Success(id, !f.embed);
      }
      if f.itemWrite {
        return ServerError;
      }
      var id := nextId;
      items, nextId := items + [ItemRow(id, dt, rt, c)], nextId + 1;
      if body.imageUrls.Some? && body.imageUrls.value != [] && !f.galleryWrite {
        InsertImages(id, body.imageUrls.value, 0);
      }
      PostPreservesValid(t, body, f);
      reply := Success(id, false);
    }

    method Patch(req: Request<PatchBody>, f: Faults) returns (reply: Reply)
      requires Valid()
      modifies this
      ensures Valid()
      ensures Outcome(State(), reply) == PatchRequest(old(State()), req, f)
    {
      if req.Unusable? {
        return ServerError;
      }
      var itemId, urls := req.body.itemId, req.body.imageUrls;
      if itemId.None? {
        return BadRequest(MissingItemId);
      }
      if urls.None? || urls.value == [] {
        return BadRequest(EmptyImageUrls);
      }
      if f.gallerySelect {
        return ServerError;
      }
      var id := itemId.value;
      var gallery := GalleryOf(images, id);
      var row := FindItem(items, id);
      if f.itemSelect || row.None? {
        return ServerError;
      }
      var existingUrls := CollectExistingUrls(gallery, Some(row.value.imageUrl));
      var toInsert := UrlsToInsert(urls.value, existingUrls);
      if toInsert != [] {
        if f.galleryWrite {
          return ServerError;
        }
        InsertImages(id, toInsert, NextPosition(gallery));
      }
      reply := if f.embed then ServerError else Success(id, false);
    }

    method Delete(id: Option<nat>, f: Faults) returns (reply: Reply)
      requires Valid()
      modifies this
      ensures Valid()
      ensures Outcome(State(), reply) == DeleteSpec(old(State()), id, f)
    {
      ghost var t := State();
      if id.None? {
        return BadRequest(MissingId);
      }
      if !f.galleryWrite {
        images := Filter(images, (r: ImageRow) => r.itemId != id.value);
      }
      if f.itemWrite {
        return ServerError;
      }
      items := Filter(items, (r: ItemRow) => r.id != id.value);
      DeletePreservesValid(t, id, f);
      reply := Success(id.value, false);
    }
  }

  // ---------------------------------------------------------------- properties

  /** Every handler keeps backend ids distinct and below the next id to assign. */
  lemma PostPreservesValid(t: Tables, body: PostBody, f: Faults)
    requires ValidTables(t)
    ensures ValidTables(PostSpec(t, body, f).tables)
  {
  }

  lemma PatchPreservesValid(t: Tables, itemId: Option<nat>, urls: Option<seq<string>>, f: Faults)
    requires ValidTables(t)
    ensures ValidTables(PatchSpec(t, itemId, urls, f).tables)
  {
  }

  lemma DeletePreservesValid(t: Tables, id: Option<nat>, f: Faults)
    requires ValidTables(t)
    ensures ValidTables(DeleteSpec(t, id, f).tables)
  {
    if id.Some? && !f.itemWrite {
      FilterKeepsDistinct(t.items, (r: ItemRow) => r.id != id.value, (r: ItemRow) => r.id);
      FilterMembers(t.items, (r: ItemRow) => r.id != id.value);
    }
  }

  /** A POST that does not succeed writes nothing. */
  lemma PostFailureWritesNothing(t: Tables, body: PostBody, f: Faults)
    ensures !PostSpec(t, body, f).reply.Success? ==> PostSpec(t, body, f).tables == t
    ensures !Truthy(body.designTypeId) || !Truthy(body.roomTypeId)
            ==> PostSpec(t, body, f).reply == BadRequest(MissingTypes)
    ensures Truthy(body.designTypeId) && Truthy(body.roomTypeId) && !Truthy(Cover(body))
            ==> PostSpec(t, body, f).reply == BadRequest(MissingImage)
  {
  }

  /** With an item of the same design type, room type and cover on file, POST adds no item
      row and answers with the id of such an item. */
  lemma PostMergesIntoSameCover(t: Tables, body: PostBody, f: Faults, k: nat)
    requires Truthy(body.designTypeId) && Truthy(body.roomTypeId) && Truthy(Cover(body))
    requires !f.itemSelect
    requires k < |t.items| && SameCover(t.items[k], body.designTypeId.value, body.roomTypeId.value, Cover(body).value)
    ensures PostSpec(t, body, f).tables.items == t.items
    ensures PostSpec(t, body, f).tables.nextId == t.nextId
    ensures var reply := PostSpec(t, body, f).reply;
            && reply.Success?
            && exists i :: (0 <= i < |t.items| && t.items[i].id == reply.id &&
                 SameCover(t.items[i], body.designTypeId.value, body.roomTypeId.value, Cover(body).value))
  {
  }

  /** The URL filter keeps exactly the non-empty URLs not yet on file, in input order
      (repeats inside one request are kept). */
  lemma UrlsToInsertSpec(urls: seq<string>, existing: set<string>)
    ensures var r := UrlsToInsert(urls, existing);
            && IsSubsequence(r, urls)
            && (forall i :: 0 <= i < |r| ==> r[i] != "" && r[i] !in existing)
            && (forall i :: 0 <= i < |urls| && urls[i] != "" && urls[i] !in existing ==> urls[i] in r)
  {
    FilterIsSubsequence(urls, (u: string) => u != "" && u !in existing);
    FilterMembers(urls, (u: string) => u != "" && u !in existing);
  }

  lemma {:induction false} MaxPositionIsMax(gallery: seq<ImageRow>)
    requires gallery != []
    ensures forall i :: 0 <= i < |gallery| ==> PositionValue(gallery[i]) <= MaxPosition(gallery)
    ensures exists i :: 0 <= i < |gallery| && PositionValue(gallery[i]) == MaxPosition(gallery)
  {
    if |gallery| == 1 {
      assert PositionValue(gallery[0]) == MaxPosition(gallery);
    } else {
      MaxPositionIsMax(gallery[1..]);
      var i :| 0 <= i < |gallery[1..]| && PositionValue(gallery[1..][i]) == MaxPosition(gallery[1..]);
      assert gallery[i + 1] == gallery[1..][i];
      assert forall j :: 1 <= j < |gallery| ==> gallery[j] == gallery[1..][j - 1];
      if PositionValue(gallery[0]) < MaxPosition(gallery[1..]) {
        assert PositionValue(gallery[i + 1]) == MaxPosition(gallery);
      } else {
        assert PositionValue(gallery[0]) == MaxPosition(gallery);
      }
    }
  }

  /** The next position is one more than the largest position on file (a null position
      counts as 0), or 0 for an empty gallery: above every existing position. */
  lemma NextPositionIsAboveAll(gallery: seq<ImageRow>)
    ensures forall i :: 0 <= i < |gallery| ==> PositionValue(gallery[i]) < NextPosition(gallery)
    ensures gallery == [] ==> NextPosition(gallery) == 0
    ensures gallery != [] ==> exists i :: 0 <= i < |gallery| && PositionValue(gallery[i]) + 1 == NextPosition(gallery)
  {
    if gallery != [] {
      MaxPositionIsMax(gallery);
    }
  }

  /** Rows appended to an item's gallery at `NextPosition` of that gallery sit at consecutive
      positions, each above every position the gallery already had. */
  lemma AppendedRowsFollowGallery(gallery: seq<ImageRow>, id: nat, urls: seq<string>)
    ensures var rows := NewRows(id, urls, NextPosition(gallery));
            && |rows| == |urls|
            && (forall k :: 0 <= k < |rows| ==> rows[k] == ImageRow(id, urls[k], Some(NextPosition(gallery) + k)))
            && (forall k, i :: 0 <= k < |rows| && 0 <= i < |gallery| ==> PositionValue(gallery[i]) < PositionValue(rows[k]))
  {
    NextPositionIsAboveAll(gallery);
  }

  /** POST's merge path: the rows it appends are the URLs from `image_urls` that are not
      empty, not the cover and not already in the item's gallery, in input order, at
      positions above every existing one. */
  lemma PostMergeAppendsNewUrlsOnly(t: Tables, body: PostBody, f: Faults, id: nat)
    requires Truthy(body.designTypeId) && Truthy(body.roomTypeId) && Truthy(Cover(body))
    requires f == NoFaults
    requires FindSameCover(t.items, body.designTypeId.value, body.roomTypeId.value, Cover(body).value) == Some(id)
    requires body.imageUrls.Some?
    ensures var images := PostSpec(t, body, f).tables.images;
            var gallery := GalleryOf(t.images, id);
            var added := UrlsToInsert(body.imageUrls.value, UrlSet(gallery) + {Cover(body).value});
            var rows := NewRows(id, added, NextPosition(gallery));
            && images == t.images + rows
            && (forall i :: 0 <= i < |added| ==> (added[i] != "" && added[i] != Cover(body).value
                  && forall r :: r in gallery ==> r.imageUrl != added[i]))
            && |rows| == |added|
            && (forall k, i :: 0 <= k < |rows| && 0 <= i < |gallery|
                  ==> PositionValue(gallery[i]) < PositionValue(rows[k]))
  {
    var gallery := GalleryOf(t.images, id);
    var added := UrlsToInsert(body.imageUrls.value, UrlSet(gallery) + {Cover(body).value});
    UrlsToInsertSpec(body.imageUrls.value, UrlSet(gallery) + {Cover(body).value});
    AppendedRowsFollowGallery(gallery, id, added);
    forall i | 0 <= i < |added|
      ensures forall r :: r in gallery ==> r.imageUrl != added[i]
    {
      forall r | r in gallery ensures r.imageUrl != added[i] {
        assert r.imageUrl in UrlSet(gallery);
      }
    }
  }

  /** POST's create path: a fresh item id, one new item row, and one gallery row per entry
      of `image_urls`, verbatim, at positions 0 to n-1. */
  lemma PostCreatesFreshItem(t: Tables, body: PostBody, f: Faults)
    requires ValidTables(t)
    requires Truthy(body.designTypeId) && Truthy(body.roomTypeId) && Truthy(Cover(body))
    requires f == NoFaults
    requires FindSameCover(t.items, body.designTypeId.value, body.roomTypeId.value, Cover(body).value).None?
    ensures var o := PostSpec(t, body, f);
            && o.reply == Success(t.nextId, false)
            && (forall i :: 0 <= i < |t.items| ==> t.items[i].id != t.nextId)
            && o.tables.items == t.items + [ItemRow(t.nextId, body.designTypeId.value, body.roomTypeId.value, Cover(body).value)]
    ensures body.imageUrls.Some? ==>
            var rows := PostSpec(t, body, f).tables.images[|t.images|..];
            && |rows| == |body.imageUrls.value|
            && forall k :: 0 <= k < |rows| ==> rows[k] == ImageRow(t.nextId, body.imageUrls.value[k], Some(k))
    ensures body.imageUrls.None? ==> PostSpec(t, body, f).tables.images == t.images
  {
  }

  /** PATCH answers 400 without writing when `item_id` is missing or `image_urls` is not a
      non-empty array, and writes nothing when every URL is already on file. */
  lemma PatchRejectsOrSkips(t: Tables, itemId: Option<nat>, urls: Option<seq<string>>, f: Faults)
    ensures itemId.None? ==> PatchSpec(t, itemId, urls, f) == Outcome(t, BadRequest(MissingItemId))
    ensures itemId.Some? && (urls.None? || urls.value == [])
            ==> PatchSpec(t, itemId, urls, f) == Outcome(t, BadRequest(EmptyImageUrls))
    ensures itemId.Some? && urls.Some? && !f.gallerySelect && !f.itemSelect
            && FindItem(t.items, itemId.value).Some?
            && (forall i :: 0 <= i < |urls.value| ==> (urls.value[i] == ""
                  || urls.value[i] in UrlSet(GalleryOf(t.images, itemId.value))
                  || urls.value[i] == FindItem(t.items, itemId.value).value.imageUrl))
            ==> PatchSpec(t, itemId, urls, f).tables == t
  {
    if itemId.Some? && urls.Some? && urls.value != [] && !f.gallerySelect && !f.itemSelect
       && FindItem(t.items, itemId.value).Some?
    {
      var row := FindItem(t.items, itemId.value).value;
      var existing := UrlSet(GalleryOf(t.images, itemId.value)) + CoverSet(Some(row.imageUrl));
      var toInsert := UrlsToInsert(urls.value, existing);
      if forall i :: 0 <= i < |urls.value| ==> (urls.value[i] == ""
           || urls.value[i] in UrlSet(GalleryOf(t.images, itemId.value)) || urls.value[i] == row.imageUrl)
      {
        FilterNone(urls.value, (u: string) => u != "" && u !in existing);
      }
    }
  }

  /** A successful PATCH appends rows only for new URLs, at positions above the gallery's. */
  lemma PatchAppendsNewUrlsOnly(t: Tables, id: nat, urls: seq<string>)
    requires urls != [] && FindItem(t.items, id).Some?
    ensures var gallery := GalleryOf(t.images, id);
            var cover := FindItem(t.items, id).value.imageUrl;
            var added := UrlsToInsert(urls, UrlSet(gallery) + CoverSet(Some(cover)));
            var o := PatchSpec(t, Some(id), Some(urls), NoFaults);
            && o.reply == Success(id, false)
            && o.tables.items == t.items
            && o.tables.images == t.images + NewRows(id, added, NextPosition(gallery))
            && IsSubsequence(added, urls)
            && (forall i :: 0 <= i < |added| ==> added[i] != "" && added[i] != cover && added[i] !in UrlSet(gallery))
  {
    var gallery := GalleryOf(t.images, id);
    var cover := FindItem(t.items, id).value.imageUrl;
    UrlsToInsertSpec(urls, UrlSet(gallery) + CoverSet(Some(cover)));
    if UrlsToInsert(urls, UrlSet(gallery) + CoverSet(Some(cover))) == [] {
      assert NewRows(id, [], NextPosition(gallery)) == [];
    }
  }

  /** DELETE answers 400 without an id. Otherwise the item's gallery rows go first: a failed
      gallery delete only keeps those rows, and a failed item delete (500) still leaves the
      gallery rows deleted. Every other row stays, in order. */
  lemma DeleteRemovesGalleryThenItem(t: Tables, id: Option<nat>, f: Faults)
    ensures id.None? ==> DeleteSpec(t, id, f) == Outcome(t, BadRequest(MissingId))
    ensures id.Some? && !f.galleryWrite ==>
            var images := DeleteSpec(t, id, f).tables.images;
            && (forall i :: 0 <= i < |images| ==> images[i].itemId != id.value)
            && IsSubsequence(images, t.images)
            && (forall i :: 0 <= i < |t.images| && t.images[i].itemId != id.value ==> t.images[i] in images)
    ensures id.Some? && f.galleryWrite ==> DeleteSpec(t, id, f).tables.images == t.images
    ensures id.Some? && !f.itemWrite ==>
            var o := DeleteSpec(t, id, f);
            && o.reply == Success(id.value, false)
            && (forall i :: 0 <= i < |o.tables.items| ==> o.tables.items[i].id != id.value)
            && IsSubsequence(o.tables.items, t.items)
    ensures id.Some? && f.itemWrite ==>
            DeleteSpec(t, id, f).reply == ServerError && DeleteSpec(t, id, f).tables.items == t.items
  {
    if id.Some? {
      FilterIsSubsequence(t.images, (r: ImageRow) => r.itemId != id.value);
      FilterMembers(t.images, (r: ImageRow) => r.itemId != id.value);
      FilterIsSubsequence(t.items, (r: ItemRow) => r.id != id.value);
    }
  }
}

=== FILE: chatbot.dfy ===
/** The chat widget (src/components/Chatbot.tsx): the formatter that lays out bot replies and the
    message list the send button appends to. */
module Chatbot {
  import opened Util

  // ---------------------------------------------------------------- formatBotMessage

  /** `\d`. */
  predicate IsDigit(c: char)
  {
    '0' <= c <= '9'
  }

  /** The bullet markers `•`, `*` and `-`. */
  predicate IsMarker(c: char)
  {
    c == '•' || c == '*' || c == '-'
  }

  /** One of the ten emoji the formatter puts on a line of its own starts `s`. The building
      emoji is U+1F3D7 followed by the variation selector U+FE0F; the others are one character. */
  predicate EmojiAt(s: string)
  {
    s != [] &&
    (s[0] == '\U{2705}' || s[0] == '\U{1F9F1}' || s[0] == '\U{1F4D0}' || s[0] == '\U{1F33F}'
     || s[0] == '\U{1F527}' || s[0] == '\U{1F4AC}' || s[0] == '\U{1F3A8}' || s[0] == '\U{1F331}'
     || s[0] == '\U{26A1}' || (s[0] == '\U{1F3D7}' && |s| > 1 && s[1] == '\U{FE0F}'))
  }

  /** Step 1, `replace(/(✅|…|⚡)/g, '\n$1')`: a line break before every listed emoji. */
  function BreakBeforeEmoji(s: string): (r: string)
    ensures |s| <= |r| <= 2 * |s|
  {
    if s == [] then []
    else (if EmojiAt(s) then "\n" else "") + [s[0]] + BreakBeforeEmoji(s[1..])
  }

  /** The length of the run of digits that starts `s`. */
  function DigitRun(s: string): (n: nat)
    ensures n <= |s|
    ensures forall i :: 0 <= i < n ==> IsDigit(s[i])
    ensures n < |s| ==> !IsDigit(s[n])
  {
    if s != [] && IsDigit(s[0]) then 1 + DigitRun(s[1..]) else 0
  }

  /** `\d+\.\s` matches at the start of `s`; the match is then `s[..NumberedLength(s)]`. */
  predicate NumberedAt(s: string)
  {
    var n := DigitRun(s);
    n > 0 && n + 1 < |s| && s[n] == '.' && IsSpace(s[n + 1])
  }

  /** Step 2, `replace(/(\d+\.\s)/g, '\n$1')`: a line break before every "12. " list number. */
  function BreakBeforeNumber(s: string): (r: string)
    ensures |s| <= |r|
    decreases |s|
  {
    if s == [] then []
    else if NumberedAt(s) then
      var m := DigitRun(s) + 2;
      "\n" + s[..m] + BreakBeforeNumber(s[m..])
    else [s[0]] + BreakBeforeNumber(s[1..])
  }

  /** Step 3, `replace(/\n?(•|\*|\-)\s/g, '\n• ')`: a marker followed by white space, with the
      line break before it if there is one, becomes a line break and `• `. */
  function Bullets(s: string): (r: string)
    ensures |s| <= |r| && 2 * |r| <= 3 * |s|
    decreases |s|
  {
    if |s| >= 3 && s[0] == '\n' && IsMarker(s[1]) && IsSpace(s[2]) then "\n• " + Bullets(s[3..])
    else if |s| >= 2 && IsMarker(s[0]) && IsSpace(s[1]) then "\n• " + Bullets(s[2..])
    else if s == [] then []
    else [s[0]] + Bullets(s[1..])
  }

  /** The length of the run of line breaks that starts `s`. */
  function NewlineRun(s: string): (n: nat)
    ensures n <= |s|
    ensures forall i :: 0 <= i < n ==> s[i] == '\n'
    ensures n < |s| ==> s[n] != '\n'
  {
    if s != [] && s[0] == '\n' then 1 + NewlineRun(s[1..]) else 0
  }

  /** Step 4, `replace(/\n{3,}/g, '\n\n')`: every run of three or more line breaks becomes two;
      shorter runs stay. */
  function Squeeze(s: string): (r: string)
    ensures |r| <= |s|
    decreases |s|
  {
    if s == [] then []
    else if s[0] != '\n' then [s[0]] + Squeeze(s[1..])
    else
      var n := NewlineRun(s);
      (if n >= 3 then "\n\n" else s[..n]) + Squeeze(s[n..])
  }

  /** `formatBotMessage`: the four replacements, then `trim`. */
  function FormatBotMessage(text: string): (r: string)
    ensures r != [] ==> !IsSpace(r[0]) && !IsSpace(r[|r| - 1])
  {
    Trim(Squeeze(Bullets(BreakBeforeNumber(BreakBeforeEmoji(text)))))
  }

  /** The formatted reply has no white space at either end. */
  lemma FormattedIsTrimmed(text: string)
    ensures var r := FormatBotMessage(text);
            r != [] ==> !IsSpace(r[0]) && !IsSpace(r[|r| - 1])
  {
  }

  /** No three line breaks in a row. */
  predicate NoTripleBreak(t: string)
  {
    forall i :: 0 <= i < |t| - 2 ==> !(t[i] == '\n' && t[i + 1] == '\n' && t[i + 2] == '\n')
  }

  /** Squeezing leaves no run of three line breaks, and keeps a first character that is not one. */
  lemma {:induction false} SqueezeNoTriple(s: string)
    ensures NoTripleBreak(Squeeze(s))
    ensures s != [] && s[0] != '\n' ==> Squeeze(s) != [] && Squeeze(s)[0] == s[0]
    decreases |s|
  {
    if s == [] {
    } else if s[0] != '\n' {
      SqueezeNoTriple(s[1..]);
      var r := Squeeze(s[1..]);
      assert Squeeze(s) == [s[0]] + r;
      forall i | 0 <= i < |[s[0]] + r| - 2
        ensures !(([s[0]] + r)[i] == '\n' && ([s[0]] + r)[i + 1] == '\n' && ([s[0]] + r)[i + 2] == '\n')
      {
        if i > 0 {
          assert ([s[0]] + r)[i] == r[i - 1];
        }
      }
    } else {
      var n := NewlineRun(s);
      var block := if n >= 3 then "\n\n" else s[..n];
      SqueezeNoTriple(s[n..]);
      var r := Squeeze(s[n..]);
      assert Squeeze(s) == block + r;
      assert |block| <= 2;
      assert r != [] ==> r[0] != '\n';
      forall i | 0 <= i < |block + r| - 2
        ensures !((block + r)[i] == '\n' && (block + r)[i + 1] == '\n' && (block + r)[i + 2] == '\n')
      {
        if i >= |block| {
          assert (block + r)[i] == r[i - |block|];
        } else if i + 1 >= |block| {
          assert (block + r)[i + 1] == r[i + 1 - |block|];
        } else {
          assert (block + r)[i + 2] == r[i + 2 - |block|];
        }
      }
    }
  }

  /** A slice of text without three line breaks in a row has none either. */
  lemma SliceNoTriple(s: string, r: string, k: int)
    requires NoTripleBreak(s) && OccursAt(s, r, k)
    ensures NoTripleBreak(r)
  {
    forall i | 0 <= i < |r| - 2 ensures !(r[i] == '\n' && r[i + 1] == '\n' && r[i + 2] == '\n') {
      assert r[i] == s[k + i] && r[i + 1] == s[k + i + 1] && r[i + 2] == s[k + i + 2];
    }
  }

  /** The formatted reply never holds three line breaks in a row. */
  lemma FormattedNoTripleBreak(text: string)
    ensures NoTripleBreak(FormatBotMessage(text))
  {
    var s := Squeeze(Bullets(BreakBeforeNumber(BreakBeforeEmoji(text))));
    SqueezeNoTriple(Bullets(BreakBeforeNumber(BreakBeforeEmoji(text))));
    var k :| OccursAt(s, Trim(s), k);
    SliceNoTriple(s, Trim(s), k);
  }

  /** Every `*` or `-` followed by white space is followed by a line break and a `•`, that is,
      by a bullet the third step inserted. */
  predicate MarkersSettled(t: string)
  {
    forall i :: 0 <= i < |t| - 1 && (t[i] == '*' || t[i] == '-') && IsSpace(t[i + 1]) ==>
      t[i + 1] == '\n' && i + 2 < |t| && t[i + 2] == '•'
  }

  /** After the third step, a marker is followed by something other than white space or by an
      inserted bullet; the output starts with the input's first character or an inserted bullet. */
  lemma {:induction false} BulletsSettle(s: string)
    ensures MarkersSettled(Bullets(s))
    ensures s != [] ==> Bullets(s) != []
    ensures s != [] ==> Bullets(s)[0] == s[0] || (|Bullets(s)| >= 2 && Bullets(s)[..2] == "\n•")
    decreases |s|
  {
    if |s| >= 3 && s[0] == '\n' && IsMarker(s[1]) && IsSpace(s[2]) {
      BulletsSettle(s[3..]);
      PrefixSettled("\n• ", Bullets(s[3..]));
    } else if |s| >= 2 && IsMarker(s[0]) && IsSpace(s[1]) {
      BulletsSettle(s[2..]);
      PrefixSettled("\n• ", Bullets(s[2..]));
    } else if s == [] {
    } else {
      BulletsSettle(s[1..]);
      var r := Bullets(s[1..]);
      assert Bullets(s) == [s[0]] + r;
      forall i | 0 <= i < |[s[0]] + r| - 1 && (([s[0]] + r)[i] == '*' || ([s[0]] + r)[i] == '-')
                 && IsSpace(([s[0]] + r)[i + 1])
        ensures ([s[0]] + r)[i + 1] == '\n' && i + 2 < |[s[0]] + r| && ([s[0]] + r)[i + 2] == '•'
      {
        if i > 0 {
          assert ([s[0]] + r)[i] == r[i - 1];
          assert ([s[0]] + r)[i + 1] == r[i];
        } else {
          assert r[0] != s[1];
          assert r[..2] == "\n•";
          assert r[1] == '•';
        }
      }
    }
  }

  /** Settled text after a prefix that ends in a space and holds no marker but `•` stays settled. */
  lemma PrefixSettled(p: string, r: string)
    requires p == "\n• "
    requires MarkersSettled(r)
    ensures MarkersSettled(p + r)
  {
    forall i | 0 <= i < |p + r| - 1 && ((p + r)[i] == '*' || (p + r)[i] == '-') && IsSpace((p + r)[i + 1])
      ensures (p + r)[i + 1] == '\n' && i + 2 < |p + r| && (p + r)[i + 2] == '•'
    {
      assert i >= 3;
      assert (p + r)[i] == r[i - 3] && (p + r)[i + 1] == r[i - 2];
    }
  }

  /** A suffix of settled text is settled. */
  lemma SuffixSettled(s: string, n: int)
    requires MarkersSettled(s) && 0 <= n <= |s|
    ensures MarkersSettled(s[n..])
  {
    forall i | 0 <= i < |s[n..]| - 1 && (s[n..][i] == '*' || s[n..][i] == '-') && IsSpace(s[n..][i + 1])
      ensures s[n..][i + 1] == '\n' && i + 2 < |s[n..]| && s[n..][i + 2] == '•'
    {
      assert s[n..][i] == s[n + i] && s[n..][i + 1] == s[n + i + 1];
    }
  }

  /** One character before settled text keeps it settled when that character, if it is a marker
      followed by white space, is followed by a line break and `•`. */
  lemma ConsSettled(c: char, r: string)
    requires MarkersSettled(r)
    requires (c == '*' || c == '-') && r != [] && IsSpace(r[0]) ==> r[0] == '\n' && |r| >= 2 && r[1] == '•'
    ensures MarkersSettled([c] + r)
  {
    forall i | 0 <= i < |[c] + r| - 1 && (([c] + r)[i] == '*' || ([c] + r)[i] == '-') && IsSpace(([c] + r)[i + 1])
      ensures ([c] + r)[i + 1] == '\n' && i + 2 < |[c] + r| && ([c] + r)[i + 2] == '•'
    {
      if i > 0 {
        assert ([c] + r)[i] == r[i - 1];
        assert ([c] + r)[i + 1] == r[i];
      }
    }
  }

  /** Line breaks before settled text keep it settled. */
  lemma BreaksSettled(block: string, r: string)
    requires forall i :: 0 <= i < |block| ==> block[i] == '\n'
    requires MarkersSettled(r)
    ensures MarkersSettled(block + r)
  {
    forall i | 0 <= i < |block + r| - 1 && ((block + r)[i] == '*' || (block + r)[i] == '-')
               && IsSpace((block + r)[i + 1])
      ensures (block + r)[i + 1] == '\n' && i + 2 < |block + r| && (block + r)[i + 2] == '•'
    {
      assert i >= |block|;
      assert (block + r)[i] == r[i - |block|] && (block + r)[i + 1] == r[i + 1 - |block|];
    }
  }

  /** Squeezing keeps settled markers settled: a marker's inserted bullet follows a single line break. */
  lemma {:induction false} SqueezeSettled(s: string)
    requires MarkersSettled(s)
    ensures MarkersSettled(Squeeze(s))
    ensures s != [] && s[0] != '\n' ==> Squeeze(s) != [] && Squeeze(s)[0] == s[0]
    ensures |s| >= 2 && s[0] == '\n' && s[1] != '\n' ==> |Squeeze(s)| >= 2 && Squeeze(s)[..2] == s[..2]
    decreases |s|
  {
    if s == [] {
    } else if s[0] != '\n' {
      SuffixSettled(s, 1);
      SqueezeSettled(s[1..]);
      var r := Squeeze(s[1..]);
      assert Squeeze(s) == [s[0]] + r;
      if (s[0] == '*' || s[0] == '-') && |s| >= 2 && s[1] == '\n' {
        assert s[2] == '•';
        assert r[..2] == s[1..][..2];
      }
      ConsSettled(s[0], r);
    } else {
      var n := NewlineRun(s);
      var block := if n >= 3 then "\n\n" else s[..n];
      SuffixSettled(s, n);
      SqueezeSettled(s[n..]);
      var r := Squeeze(s[n..]);
      assert Squeeze(s) == block + r;
      BreaksSettled(block, r);
      if |s| >= 2 && s[1] != '\n' {
        assert n == 1 && block == s[..1];
        assert r[0] == s[1];
      }
    }
  }

  /** A slice that does not end in white space keeps settled markers settled. */
  lemma SliceSettled(s: string, r: string, k: int)
    requires MarkersSettled(s) && OccursAt(s, r, k)
    requires r != [] ==> !IsSpace(r[|r| - 1])
    ensures MarkersSettled(r)
  {
    forall i | 0 <= i < |r| - 1 && (r[i] == '*' || r[i] == '-') && IsSpace(r[i + 1])
      ensures r[i + 1] == '\n' && i + 2 < |r| && r[i + 2] == '•'
    {
      assert r[i] == s[k + i] && r[i + 1] == s[k + i + 1];
      assert i + 1 != |r| - 1;
      assert r[i + 2] == s[k + i + 2];
    }
  }

  /** In the formatted reply every `*` or `-` followed by white space is followed by a line
      break and an inserted `•` bullet. */
  lemma FormattedMarkersSettled(text: string)
    ensures MarkersSettled(FormatBotMessage(text))
  {
    var b := Bullets(BreakBeforeNumber(BreakBeforeEmoji(text)));
    BulletsSettle(BreakBeforeNumber(BreakBeforeEmoji(text)));
    SqueezeSettled(b);
    var s := Squeeze(b);
    var k :| OccursAt(s, Trim(s), k);
    SliceSettled(s, Trim(s), k);
  }

  /** The first step neither creates nor removes text other than white space. */
  lemma {:induction false} EmojiBlank(s: string)
    ensures IsBlank(BreakBeforeEmoji(s)) <==> IsBlank(s)
  {
    if s != [] {
      EmojiBlank(s[1..]);
      var pre := if EmojiAt(s) then "\n" else "";
      BlankConcat(pre + [s[0]], BreakBeforeEmoji(s[1..]));
      BlankConcat(pre, [s[0]]);
      BlankConcat([s[0]], s[1..]);
      assert s == [s[0]] + s[1..];
    }
  }

  /** Nor does the second. */
  lemma {:induction false} NumberBlank(s: string)
    ensures IsBlank(BreakBeforeNumber(s)) <==> IsBlank(s)
    decreases |s|
  {
    if s == [] {
    } else if NumberedAt(s) {
      var m := DigitRun(s) + 2;
      NumberBlank(s[m..]);
      BlankConcat("\n" + s[..m], BreakBeforeNumber(s[m..]));
      BlankConcat("\n", s[..m]);
      BlankConcat(s[..m], s[m..]);
      assert s == s[..m] + s[m..];
    } else {
      NumberBlank(s[1..]);
      BlankConcat([s[0]], BreakBeforeNumber(s[1..]));
      BlankConcat([s[0]], s[1..]);
      assert s == [s[0]] + s[1..];
    }
  }

  /** Nor the third: a bullet it writes stands for a marker that was there. */
  lemma {:induction false} BulletsBlank(s: string)
    ensures IsBlank(Bullets(s)) <==> IsBlank(s)
    decreases |s|
  {
    if |s| >= 3 && s[0] == '\n' && IsMarker(s[1]) && IsSpace(s[2]) {
      assert !IsSpace(s[1]);
      assert !IsSpace(Bullets(s)[1]);
    } else if |s| >= 2 && IsMarker(s[0]) && IsSpace(s[1]) {
      assert !IsSpace(s[0]);
      assert !IsSpace(Bullets(s)[1]);
    } else if s == [] {
    } else {
      BulletsBlank(s[1..]);
      BlankConcat([s[0]], Bullets(s[1..]));
      BlankConcat([s[0]], s[1..]);
      assert s == [s[0]] + s[1..];
    }
  }

  /** Nor the fourth, which only shortens runs of line breaks. */
  lemma {:induction false} SqueezeBlank(s: string)
    ensures IsBlank(Squeeze(s)) <==> IsBlank(s)
    decreases |s|
  {
    if s == [] {
    } else if s[0] != '\n' {
      SqueezeBlank(s[1..]);
      BlankConcat([s[0]], Squeeze(s[1..]));
      BlankConcat([s[0]], s[1..]);
      assert s == [s[0]] + s[1..];
    } else {
      var n := NewlineRun(s);
      var block := if n >= 3 then "\n\n" else s[..n];
      SqueezeBlank(s[n..]);
      BlankConcat(block, Squeeze(s[n..]));
      BlankConcat(s[..n], s[n..]);
      assert s == s[..n] + s[n..];
    }
  }

  /** A reply formats to nothing exactly when it is blank (empty or only white space). */
  lemma FormattedEmptyIffBlank(text: string)
    ensures FormatBotMessage(text) == "" <==> IsBlank(text)
  {
    var a := BreakBeforeEmoji(text);
    var b := BreakBeforeNumber(a);
    var c := Bullets(b);
    EmojiBlank(text);
    NumberBlank(a);
    BulletsBlank(b);
    SqueezeBlank(c);
    BlankIff(Squeeze(c));
  }

  /** The stronger reading, that no `*` or `-` is ever followed by white space, fails: in "-- x"
      the second dash and its space become a bullet, which puts a line break after the first. */
  lemma DoubleDashKeepsBreakAfterDash()
    ensures FormatBotMessage("-- x") == "-\n• x"
  {
    DoubleDashSteps();
    DoubleDashBullets();
    DoubleDashSqueezeTrim();
  }

  lemma DoubleDashSteps()
    ensures BreakBeforeNumber(BreakBeforeEmoji("-- x")) == "-- x"
  {
    assert BreakBeforeEmoji("x") == "x";
    assert BreakBeforeEmoji(" x") == " x";
    assert BreakBeforeEmoji("- x") == "- x";
    assert BreakBeforeEmoji("-- x") == "-- x";
    assert BreakBeforeNumber("x") == "x";
    assert BreakBeforeNumber(" x") == " x";
    assert BreakBeforeNumber("- x") == "- x";
  }

  lemma DoubleDashBullets()
    ensures Bullets("-- x") == "-\n• x"
  {
    assert Bullets("x") == "x";
    assert Bullets("- x") == "\n• x";
  }

  lemma DoubleDashSqueezeTrim()
    ensures Squeeze("-\n• x") == "-\n• x"
    ensures Trim("-\n• x") == "-\n• x"
  {
    DoubleDashSqueeze();
    DoubleDashTrim();
  }

  lemma DoubleDashSqueeze()
    ensures Squeeze("-\n• x") == "-\n• x"
  {
    assert Squeeze("x") == "x";
    assert Squeeze(" x") == " x";
    assert Squeeze("• x") == "• x";
    assert Squeeze("\n• x") == "\n• x";
  }

  lemma DoubleDashTrim()
    ensures Trim("-\n• x") == "-\n• x"
  {
    var t := "-\n• x";
    assert !IsSpace(t[0]) && !IsSpace(t[|t| - 1]);
    TrimKeeps(t);
  }

  // ---------------------------------------------------------------- the message list

  datatype Sender = User | Bot

  /** A chat message; its timestamp is not modelled. */
  datatype Message = Message(id: string, text: string, sender: Sender)

  const WelcomeText := "Salam! 👋\n\nDargah Construction-a xoş gəlmisiniz.\n\nSizə necə kömək edə bilərəm? 💬"
  const Welcome := Message("welcome", WelcomeText, Bot)

  /** The bot's text when the route succeeded with an empty reply. */
  const DefaultAnswer := "Cavab alındı. Tezliklə sizinlə əlaqə saxlayacağıq."

  /** The bot's text when the call failed. */
  const ErrorAnswer := "Üzr istəyirik, xəta baş verdi. Zəhmət olmasa yenidən cəhd edin və ya bizimlə birbaşa əlaqə saxlayın: +994 70 299 99 98"

  /** What the widget posts to the chatbot route. */
  datatype ChatRequest = ChatRequest(sessionId: string, message: string, timestamp: string)

  /** How the call to the chatbot route ended: it threw (network failure or a body that is not
      JSON), or it answered with an HTTP status flag and the `success` and `response` fields. */
  datatype RouteAnswer =
    | Unreadable
    | Answer(ok: bool, success: bool, response: string)

  /** The bot message's text for an answer. */
  function BotText(answer: RouteAnswer): string
  {
    if answer.Unreadable? || !answer.ok || !answer.success then ErrorAnswer
    else if answer.response != "" then answer.response
    else DefaultAnswer
  }

  /** A failed call gives the fixed apology; a successful one the route's reply, or the fixed
      acknowledgement when the reply is empty. The bot's text is never empty. */
  lemma BotTextSpec(answer: RouteAnswer)
    ensures BotText(answer) != ""
    ensures BotText(answer) == ErrorAnswer <==>
              answer.Unreadable? || !answer.ok || !answer.success || answer.response == ErrorAnswer
    ensures answer.Answer? && answer.ok && answer.success ==>
              BotText(answer) == (if answer.response != "" then answer.response else DefaultAnswer)
  {
  }

  /** How a message is shown: bot messages through the formatter, user messages as typed. */
  function Displayed(m: Message): string
  {
    if m.sender == Bot then FormatBotMessage(m.text) else m.text
  }

  /** A user's message is shown exactly as typed, even with surrounding white space, while a
      bot message is shown trimmed, without three line breaks in a row. */
  lemma DisplayedSpec(m: Message)
    ensures m.sender == User ==> Displayed(m) == m.text
    ensures m.sender == Bot ==>
              var d := Displayed(m);
              NoTripleBreak(d) && (d != [] ==> !IsSpace(d[0]) && !IsSpace(d[|d| - 1]))
  {
    if m.sender == Bot {
      FormattedNoTripleBreak(m.text);
    }
  }

  /** The widget's state. `sessionId` is fixed when the widget mounts (from the clock and a
      random number, so here it is a constructor parameter). */
  class ChatWidget {
    const sessionId: string
    var messages: seq<Message>
    var inputValue: string
    var isLoading: bool

    /** The list starts with the welcome message and then alternates user and bot messages;
        a request is in flight exactly when the last message is the user's. */
    ghost predicate Valid()
      reads this`messages, this`isLoading
    {
      |messages| >= 1 && messages[0] == Welcome
      && (forall i :: 0 <= i < |messages| ==> (messages[i].sender == User <==> i % 2 == 1))
      && (isLoading <==> |messages| % 2 == 0)
    }

    constructor (sessionId: string)
      ensures Valid()
      ensures this.sessionId == sessionId && messages == [Welcome] && inputValue == "" && !isLoading
    {
      this.sessionId := sessionId;
      messages := [Welcome];
      inputValue := "";
      isLoading := false;
    }

    /** The input box. */
    method SetInput(value: string)
      modifies this`inputValue
      ensures inputValue == value
    {
      inputValue := value;
    }

    /** The first half of `handleSendMessage`: with a non-blank input and no request in
        flight, the user's message is appended, the input cleared and the request sent;
        otherwise nothing happens. `now` is `Date.now()`. */
    method BeginSend(now: nat, timestamp: string) returns (request: Option<ChatRequest>)
      requires Valid()
      modifies this`messages, this`inputValue, this`isLoading
      ensures Valid()
      ensures IsBlank(old(inputValue)) || old(isLoading) ==>
                request.None? && messages == old(messages) && inputValue == old(inputValue) && isLoading == old(isLoading)
      ensures !IsBlank(old(inputValue)) && !old(isLoading) ==>
                request == Some(ChatRequest(sessionId, old(inputValue), timestamp))
                && messages == old(messages) + [Message(NatToString(now), old(inputValue), User)]
                && inputValue == "" && isLoading
    {
      if IsBlank(inputValue) || isLoading {
        return None;
      }
      var text := inputValue;
      messages := messages + [Message(NatToString(now), text, User)];
      inputValue := "";
      isLoading := true;
      request := Some(ChatRequest(sessionId, text, timestamp));
    }

    /** The second half: once the route's answer is in, exactly one bot message is appended
        (its id is `Date.now() + 1`) and loading ends. */
    method FinishSend(now: nat, answer: RouteAnswer)
      requires Valid() && isLoading
      modifies this`messages, this`isLoading
      ensures Valid()
      ensures messages == old(messages) + [Message(NatToString(now + 1), BotText(answer), Bot)]
      ensures !isLoading
    {
      messages := messages + [Message(NatToString(now + 1), BotText(answer), Bot)];
      isLoading := false;
    }
  }
}

=== FILE: chatbot_route.dfy ===
/** The chatbot route (src/app/api/chatbot/route.ts): it forwards the visitor's message to an
    automation webhook and turns whatever the webhook answers into one reply. The HTTP exchange
    is a pair of parameters: the parsed request body and the webhook's answer. */
module ChatbotRoute {
  import opened Util

  /** A JavaScript value as JSON parsing produces it (plus `undefined` for a missing field).
      Numbers are reals: JSON has no NaN, so a number is falsy exactly when it is zero. */
  datatype Value =
    | Undefined
    | Null
    | Bool(b: bool)
    | Number(n: real)
    | Str(s: string)
    | Array(items: seq<Value>)
    | Object(fields: map<string, Value>)

  /** JavaScript truthiness, which decides each step of a `||` chain. */
  predicate Truthy(v: Value)
  {
    match v
    case Undefined => false
    case Null => false
    case Bool(b) => b
    case Number(n) => n != 0.0
    case Str(s) => s != ""
    case Array(_) => true
    case Object(_) => true
  }

  /** Property access `v.key`: a field of an object, `undefined` on anything else. */
  function Get(v: Value, key: string): Value
  {
    if v.Object? && key in v.fields then v.fields[key] else Undefined
  }

  // ---------------------------------------------------------------- the forwarded body

  const ForwardedKeys: set<string> := {"sessionId", "message", "timestamp"}

  /** The body sent to the webhook: the request's `sessionId`, `message` and `timestamp`;
      `JSON.stringify` drops the ones that are `undefined`. */
  function Forwarded(body: Value): (r: Value)
    ensures r.Object? && r.fields.Keys <= ForwardedKeys
  {
    Object(map k | k in ForwardedKeys && !Get(body, k).Undefined? :: Get(body, k))
  }

  /** The webhook sees exactly the three fields the request carries, with the request's values,
      and nothing else the request carries. */
  lemma ForwardedSpec(body: Value)
    ensures Forwarded(body).Object?
    ensures Forwarded(body).fields.Keys <= ForwardedKeys
    ensures forall k :: k in ForwardedKeys ==>
              (k in Forwarded(body).fields <==> !Get(body, k).Undefined?)
    ensures forall k :: k in Forwarded(body).fields ==> Forwarded(body).fields[k] == Get(body, k)
  {
  }

  /** Two requests that agree on the three forwarded fields forward the same body. */
  lemma ForwardedIgnoresOtherFields(a: Value, b: Value)
    requires forall k :: k in ForwardedKeys ==> Get(a, k) == Get(b, k)
    ensures Forwarded(a) == Forwarded(b)
  {
  }

  // ---------------------------------------------------------------- the reply

  /** The reply fields, in the order the route tries them. */
  const ReplyKeys: seq<string> := ["output", "response", "message", "text", "reply", "answer"]

  /** The field is present and truthy. */
  predicate HasTruthy(fields: map<string, Value>, key: string)
  {
    key in fields && Truthy(fields[key])
  }

  /** The `||` chain over the reply fields: the first present truthy one. */
  function FirstTruthy(fields: map<string, Value>, keys: seq<string>): (r: Option<Value>)
    ensures r.Some? ==> Truthy(r.value) && r.value in fields.Values
  {
    if keys == [] then None
    else if HasTruthy(fields, keys[0]) then Some(fields[keys[0]])
    else FirstTruthy(fields, keys[1..])
  }

  /** The chain picks field `i` exactly when it is truthy and no earlier one is: absent,
      empty-string, zero, false and null fields are skipped. */
  lemma {:induction false} FirstTruthyPicks(fields: map<string, Value>, keys: seq<string>, i: int)
    requires 0 <= i < |keys| && HasTruthy(fields, keys[i])
    requires forall j :: 0 <= j < i ==> !HasTruthy(fields, keys[j])
    ensures FirstTruthy(fields, keys) == Some(fields[keys[i]])
  {
    if i > 0 {
      assert !HasTruthy(fields, keys[0]);
      FirstTruthyPicks(fields, keys[1..], i - 1);
    }
  }

  /** The chain finds nothing exactly when no field is truthy, and what it finds is truthy. */
  lemma {:induction false} FirstTruthyNone(fields: map<string, Value>, keys: seq<string>)
    ensures FirstTruthy(fields, keys).None? <==> forall j :: 0 <= j < |keys| ==> !HasTruthy(fields, keys[j])
    ensures FirstTruthy(fields, keys).Some? ==> Truthy(FirstTruthy(fields, keys).value)
  {
    if keys != [] {
      FirstTruthyNone(fields, keys[1..]);
      if !HasTruthy(fields, keys[0]) {
        forall j | 0 <= j < |keys| ensures !HasTruthy(fields, keys[j]) <== FirstTruthy(fields, keys).None? {
          if j > 0 && FirstTruthy(fields, keys).None? {
            assert keys[j] == keys[1..][j - 1];
          }
        }
      }
    }
  }

  /** The reply: the first truthy reply field of an object; otherwise a non-empty string payload
      as it is; otherwise the payload's JSON text (`JSON.stringify` is the parameter). */
  function Reply(data: Value, stringify: Value -> string): (r: Value)
    ensures Truthy(r) || r == Str(stringify(data))
  {
    var found := if data.Object? then FirstTruthy(data.fields, ReplyKeys) else None;
    if found.Some? then found.value
    else if data.Str? && data.s != "" then data
    else Str(stringify(data))
  }

  /** A reply field wins when it is truthy and every field before it in the order
      output, response, message, text, reply, answer is absent or falsy. */
  lemma ReplyPriority(fields: map<string, Value>, i: int, stringify: Value -> string)
    requires 0 <= i < |ReplyKeys| && HasTruthy(fields, ReplyKeys[i])
    requires forall j :: 0 <= j < i ==> !HasTruthy(fields, ReplyKeys[j])
    ensures Reply(Object(fields), stringify) == fields[ReplyKeys[i]]
  {
    FirstTruthyPicks(fields, ReplyKeys, i);
  }

  /** Without a truthy reply field, a non-empty string payload is the reply as it is and any
      other payload is replaced by its JSON text. */
  lemma ReplyFallback(data: Value, stringify: Value -> string)
    requires data.Object? ==> forall j :: 0 <= j < |ReplyKeys| ==> !HasTruthy(data.fields, ReplyKeys[j])
    ensures data.Str? && data.s != "" ==> Reply(data, stringify) == data
    ensures !(data.Str? && data.s != "") ==> Reply(data, stringify) == Str(stringify(data))
  {
    if data.Object? {
      FirstTruthyNone(data.fields, ReplyKeys);
    }
  }

  /** The reply is always truthy unless it is the serialisation of a payload. */
  lemma ReplyTruthyOrSerialised(data: Value, stringify: Value -> string)
    ensures Truthy(Reply(data, stringify)) || Reply(data, stringify) == Str(stringify(data))
  {
    if data.Object? {
      FirstTruthyNone(data.fields, ReplyKeys);
    }
  }

  /** The reply used when a non-JSON answer is empty. */
  const DefaultReply := "Mesajınız alındı. Tezliklə sizinlə əlaqə saxlayacağıq."

  /** A non-JSON answer becomes `{response: text || default}`. */
  function TextData(text: string): (r: Value)
    ensures r.Object? && "response" in r.fields && Truthy(r.fields["response"])
  {
    Object(map["response" := Str(if text != "" then text else DefaultReply)])
  }

  /** A non-JSON answer is the reply itself, or the fixed default when it is empty. */
  lemma TextReply(text: string, stringify: Value -> string)
    ensures text != "" ==> Reply(TextData(text), stringify) == Str(text)
    ensures text == "" ==> Reply(TextData(text), stringify) == Str(DefaultReply)
  {
    var fields := TextData(text).fields;
    assert !HasTruthy(fields, ReplyKeys[0]);
    FirstTruthyPicks(fields, ReplyKeys, 1);
  }

  // ---------------------------------------------------------------- the handler

  /** The request body: parsed JSON, or the message of the parse error. */
  datatype RequestBody = ParsedRequest(value: Value) | UnparsableRequest(error: string)

  /** The webhook's JSON body, when the route reads it as JSON. */
  datatype JsonBody = Parsed(value: Value) | ParseError(error: string)

  /** What `fetch` gives back: a thrown error, or a status, a content type, the body as text and
      the same body read as JSON. */
  datatype WebhookAnswer =
    | FetchFailed(error: string)
    | Answered(status: int, contentType: Option<string>, text: string, json: JsonBody)

  datatype Response = Response(status: int, body: Value)

  /** One call of the route: what it sent to the webhook, if anything, and what it answered. */
  datatype Exchange = Exchange(sent: Option<Value>, response: Response)

  const ErrorText := "Mesaj göndərilərkən xəta baş verdi"

  /** The error V8 throws when the route reads `body.message` of a `null` body. */
  const NullBodyError := "Cannot read properties of null (reading 'message')"

  /** The error thrown for a non-2xx webhook status. */
  function WebhookFailure(status: int, text: string): string
  {
    "Webhook failed with status: " + IntToString(status) + ". Response: " + text
  }

  /** The error envelope: status 500, `success: false`, the fixed text and the error's message. */
  function ErrorResponse(details: string): Response
  {
    Response(500, Object(map["success" := Bool(false), "error" := Str(ErrorText), "details" := Str(details)]))
  }

  function SuccessResponse(reply: Value): Response
  {
    Response(200, Object(map["success" := Bool(true), "response" := reply]))
  }

  /** `response.ok`. */
  predicate IsOk(status: int)
  {
    200 <= status <= 299
  }

  /** The route, from the parsed request and the webhook's answer to its own response. */
  function Post(request: RequestBody, answer: WebhookAnswer, stringify: Value -> string): (r: Exchange)
    ensures r.response.status == 200 || r.response.status == 500
    ensures r.response.status == 200 ==> request.ParsedRequest? && r.sent == Some(Forwarded(request.value))
  {
    match request
    case UnparsableRequest(error) => Exchange(None, ErrorResponse(error))
    case ParsedRequest(body) =>
      if body.Null? then Exchange(None, ErrorResponse(NullBodyError))
      else
        var sent := Some(Forwarded(body));
        match answer
        case FetchFailed(error) => Exchange(sent, ErrorResponse(error))
        case Answered(status, contentType, text, json) =>
          if !IsOk(status) then Exchange(sent, ErrorResponse(WebhookFailure(status, text)))
          else if contentType.Some? && Contains(contentType.value, "application/json") then
            match json
            case ParseError(error) => Exchange(sent, ErrorResponse(error))
            case Parsed(data) => Exchange(sent, SuccessResponse(Reply(data, stringify)))
          else Exchange(sent, SuccessResponse(Reply(TextData(text), stringify)))
  }

  /** Every response is either the success envelope with status 200 or the error envelope with
      status 500 and `success: false`. */
  lemma PostEnvelope(request: RequestBody, answer: WebhookAnswer, stringify: Value -> string)
    ensures var r := Post(request, answer, stringify).response;
            (r.status == 200 && Get(r.body, "success") == Bool(true))
            || (r.status == 500 && Get(r.body, "success") == Bool(false)
                && Get(r.body, "error") == Str(ErrorText) && Get(r.body, "details").Str?)
  {
  }

  /** The route succeeds exactly when the request parsed to something other than `null`, the
      webhook answered with a 2xx status and, for a JSON answer, its body parsed. */
  lemma PostSucceedsIff(request: RequestBody, answer: WebhookAnswer, stringify: Value -> string)
    ensures Post(request, answer, stringify).response.status == 200 <==>
              request.ParsedRequest? && !request.value.Null?
              && answer.Answered? && IsOk(answer.status)
              && (answer.contentType.Some? && Contains(answer.contentType.value, "application/json") ==> answer.json.Parsed?)
  {
  }

  /** A webhook failure status gives the error envelope whose details name the status and the
      webhook's text. */
  lemma WebhookStatusFails(body: Value, status: int, contentType: Option<string>, text: string, json: JsonBody,
                           stringify: Value -> string)
    requires !body.Null? && !IsOk(status)
    ensures Post(ParsedRequest(body), Answered(status, contentType, text, json), stringify)
            == Exchange(Some(Forwarded(body)), ErrorResponse(WebhookFailure(status, text)))
  {
  }

  /** The webhook is called, with the forwarded body, exactly when the request body parsed to
      something other than `null`. */
  lemma PostSends(request: RequestBody, answer: WebhookAnswer, stringify: Value -> string)
    ensures Post(request, answer, stringify).sent.Some? <==> request.ParsedRequest? && !request.value.Null?
    ensures Post(request, answer, stringify).sent.Some? ==>
              Post(request, answer, stringify).sent.value == Forwarded(request.value)
  {
  }
}

=== FILE: hero.dfy ===
/** The home page hero (src/app/page.tsx): the headline's typewriter, which types a word,
    holds it, deletes it and moves on to the next; the longest word that reserves the
    headline's width; and the doubled card and portfolio lists the marquees scroll over.
    Each timer firing is one `Step`; the delays are not modelled. */
module Hero {

  /** The headline's rotating words. */
  const RotatingWords: seq<string> := ["müasir", "etibarlı"]

  // ---------------------------------------------------------------- the typewriter

  /** The three state variables of the typewriter effect. */
  datatype TypeState = TypeState(typed: string, deleting: bool, wordIndex: nat)

  /** `typed` is a prefix of the current word, and the word index is in range. */
  predicate Consistent(words: seq<string>, st: TypeState)
  {
    st.wordIndex < |words| && st.typed <= words[st.wordIndex]
  }

  /** What one firing of the effect's timer does. */
  function Next(words: seq<string>, st: TypeState): (r: TypeState)
    requires Consistent(words, st)
    ensures Consistent(words, r)
    ensures r.wordIndex == st.wordIndex || r.wordIndex == (st.wordIndex + 1) % |words|
  {
    var current := words[st.wordIndex];
    if !st.deleting && st.typed == current then st.(deleting := true)
    else if st.deleting && st.typed == "" then TypeState("", false, (st.wordIndex + 1) % |words|)
    else if st.deleting then st.(typed := st.typed[..|st.typed| - 1])
    else st.(typed := current[..|st.typed| + 1])
  }

  /** A step keeps `typed` a prefix of the current word and the index in range. */
  lemma NextConsistent(words: seq<string>, st: TypeState)
    requires Consistent(words, st)
    ensures Consistent(words, Next(words, st))
  {
  }

  /** The four moves: a fully typed word starts being deleted, unchanged; a deleted word gives
      way to the next word, cyclically; deleting removes exactly the last character; typing adds
      exactly the next character of the word. */
  lemma NextSpec(words: seq<string>, st: TypeState)
    requires Consistent(words, st)
    ensures var current := words[st.wordIndex];
            var n := Next(words, st);
            (!st.deleting && st.typed == current ==>
               n.deleting && n.typed == st.typed && n.wordIndex == st.wordIndex)
            && (st.deleting && st.typed == "" ==>
               !n.deleting && n.typed == "" && n.wordIndex == (st.wordIndex + 1) % |words|)
            && (st.deleting && st.typed != "" ==>
               n.deleting && n.wordIndex == st.wordIndex && n.typed + [st.typed[|st.typed| - 1]] == st.typed)
            && (!st.deleting && st.typed != current ==>
               !n.deleting && n.wordIndex == st.wordIndex && n.typed == st.typed + [current[|st.typed|]])
  {
  }

  /** `n` firings of the timer. */
  function Run(words: seq<string>, st: TypeState, n: nat): (r: TypeState)
    requires Consistent(words, st)
    ensures Consistent(words, r)
    decreases n
  {
    if n == 0 then st
    else
      NextConsistent(words, st);
      Run(words, Next(words, st), n - 1)
  }

  /** Running `a` then `b` firings is running `a + b`. */
  lemma {:induction false} RunAdds(words: seq<string>, st: TypeState, a: nat, b: nat)
    requires Consistent(words, st)
    ensures Run(words, Run(words, st, a), b) == Run(words, st, a + b)
    decreases a
  {
    if a > 0 {
      NextConsistent(words, st);
      RunAdds(words, Next(words, st), a - 1, b);
    }
  }

  /** Typing a partly typed word to the end takes one firing per missing character. */
  lemma {:induction false} TypingCompletes(words: seq<string>, i: nat, k: nat)
    requires i < |words| && k <= |words[i]|
    ensures Run(words, TypeState(words[i][..k], false, i), |words[i]| - k) == TypeState(words[i], false, i)
    decreases |words[i]| - k
  {
    if k < |words[i]| {
      var st := TypeState(words[i][..k], false, i);
      assert Next(words, st) == TypeState(words[i][..k + 1], false, i);
      TypingCompletes(words, i, k + 1);
    } else {
      assert words[i][..k] == words[i];
    }
  }

  /** Deleting takes one firing per typed character. */
  lemma {:induction false} DeletingEmpties(words: seq<string>, st: TypeState)
    requires Consistent(words, st) && st.deleting
    ensures Run(words, st, |st.typed|) == TypeState("", true, st.wordIndex)
    decreases |st.typed|
  {
    if st.typed != "" {
      var n := Next(words, st);
      assert n == st.(typed := st.typed[..|st.typed| - 1]);
      DeletingEmpties(words, n);
    }
  }

  /** From an empty headline, 2 * |w| + 2 firings type the current word w, hold it, delete it and
      move to the next word: the typewriter cycles through the words forever. */
  lemma FullCycle(words: seq<string>, i: nat)
    requires i < |words|
    ensures Run(words, TypeState("", false, i), 2 * |words[i]| + 2) == TypeState("", false, (i + 1) % |words|)
  {
    var w := words[i];
    var start := TypeState("", false, i);
    assert w[..0] == "";
    TypingCompletes(words, i, 0);
    var typedFull := TypeState(w, false, i);
    var holding := TypeState(w, true, i);
    assert Run(words, typedFull, 1) == holding;
    DeletingEmpties(words, holding);
    var empty := TypeState("", true, i);
    assert Run(words, empty, 1) == TypeState("", false, (i + 1) % |words|);
    RunAdds(words, start, |w|, 1);
    RunAdds(words, start, |w| + 1, |w|);
    RunAdds(words, start, 2 * |w| + 1, 1);
  }

  /** The typewriter as the page holds it. */
  class Typewriter {
    const words: seq<string>
    var typed: string
    var deleting: bool
    var wordIndex: nat

    function State(): TypeState
      reads this`typed, this`deleting, this`wordIndex
    {
      TypeState(typed, deleting, wordIndex)
    }

    ghost predicate Valid()
      reads this`typed, this`deleting, this`wordIndex
    {
      Consistent(words, State())
    }

    /** The page mounts with nothing typed on the first word. */
    constructor (words: seq<string>)
      requires |words| > 0
      ensures Valid()
      ensures this.words == words && typed == "" && !deleting && wordIndex == 0
    {
      this.words := words;
      typed := "";
      deleting := false;
      wordIndex := 0;
    }

    /** One firing of the timer. */
    method Step()
      requires Valid()
      modifies this`typed, this`deleting, this`wordIndex
      ensures Valid()
      ensures State() == Next(words, old(State()))
    {
      var current := words[wordIndex];
      if !deleting && typed == current {
        deleting := true;
      } else if deleting && typed == "" {
        wordIndex := (wordIndex + 1) % |words|;
        deleting := false;
      } else if deleting {
        typed := typed[..|typed| - 1];
      } else {
        typed := current[..|typed| + 1];
      }
      NextConsistent(words, old(State()));
    }
  }

  // ---------------------------------------------------------------- the longest word

  /** `words.reduce((a, b) => a.length >= b.length ? a : b)`. */
  function MaxWord(words: seq<string>): (r: string)
    requires |words| > 0
    ensures r in words
    ensures forall j :: 0 <= j < |words| ==> |words[j]| <= |r|
  {
    if |words| == 1 then words[0]
    else
      var m := MaxWord(words[..|words| - 1]);
      var last := words[|words| - 1];
      if |m| >= |last| then m else last
  }

  /** The longest word, and the earliest of the longest ones: it is word k, no word is longer,
      and every word before k is strictly shorter. */
  lemma {:induction false} MaxWordSpec(words: seq<string>)
    requires |words| > 0
    ensures exists k :: 0 <= k < |words| && MaxWord(words) == words[k]
              && (forall j :: 0 <= j < |words| ==> |words[j]| <= |words[k]|)
              && (forall j :: 0 <= j < k ==> |words[j]| < |words[k]|)
  {
    if |words| == 1 {
      assert MaxWord(words) == words[0];
      assert forall j :: 0 <= j < |words| ==> |words[j]| <= |words[0]|;
    } else {
      var init := words[..|words| - 1];
      MaxWordSpec(init);
      var k :| 0 <= k < |init| && MaxWord(init) == init[k]
               && (forall j :: 0 <= j < |init| ==> |init[j]| <= |init[k]|)
               && (forall j :: 0 <= j < k ==> |init[j]| < |init[k]|);
      var last := |words| - 1;
      assert forall j :: 0 <= j < last ==> words[j] == init[j];
      if |init[k]| >= |words[last]| {
        assert MaxWord(words) == words[k];
        assert forall j :: 0 <= j < |words| ==> |words[j]| <= |words[k]|;
        assert forall j :: 0 <= j < k ==> |words[j]| < |words[k]|;
      } else {
        assert MaxWord(words) == words[last];
        assert forall j :: 0 <= j < |words| ==> |words[j]| <= |words[last]|;
        assert forall j :: 0 <= j < last ==> |words[j]| < |words[last]|;
      }
    }
  }

  /** For the headline's words the longest is "etibarlı". */
  lemma HeadlineMaxWord()
    ensures MaxWord(RotatingWords) == "etibarlı"
  {
  }

  // ---------------------------------------------------------------- the doubled lists

  /** `[...xs, ...xs]`: the marquee scrolls over half of it and wraps. */
  function Doubled<T>(xs: seq<T>): (r: seq<T>)
    ensures |r| == 2 * |xs|
    ensures forall i :: 0 <= i < |r| ==> r[i] == xs[i % |xs|]
  {
    xs + xs
  }

  /** The doubled list is twice as long, its halves are equal, and entry i is entry i mod n
      of the original, so scrolling by one half shows the same picture. */
  lemma DoubledSpec<T>(xs: seq<T>)
    ensures |Doubled(xs)| == 2 * |xs|
    ensures Doubled(xs)[|xs|..] == Doubled(xs)[..|xs|] == xs
    ensures forall i :: 0 <= i < 2 * |xs| ==> Doubled(xs)[i] == xs[i % |xs|]
  {
    forall i | 0 <= i < 2 * |xs| ensures Doubled(xs)[i] == xs[i % |xs|] {
      WrapOnce(i, |xs|);
    }
  }

  /** An index below twice the length wraps at most once. */
  lemma WrapOnce(i: int, n: int)
    requires 0 <= i < 2 * n
    ensures i < n ==> i % n == i
    ensures i >= n ==> i % n == i - n
  {
    if i >= n {
      assert i == 1 * n + (i - n);
    }
  }

  /** The portfolio strip's images and the hero cards' titles. */
  const PortfolioImages: seq<string> :=
    ["/portfolio/p1.png", "/portfolio/pr2.png", "/portfolio/pr3.png", "/portfolio/vl1.png", "/portfolio/vl2.png"]

  datatype Card = Card(src: string, title: string)

  const Cards: seq<Card> := [
    Card("/dergah%20villa.png", "Villa layihəsi"),
    Card("/images/mdrn%20interier.webp", "İnteryer dizayn"),
    Card("/dergah%20villa.png", "Fasad yenilənməsi"),
    Card("/images/mdrn%20interier.webp", "Ofis təmiri"),
    Card("/dergah%20villa.png", "Layihə idarəetməsi")
  ]

  /** Both marquees show their five entries twice over: ten entries, entry i being entry i mod 5. */
  lemma MarqueesLoop()
    ensures |Doubled(PortfolioImages)| == 10 && |Doubled(Cards)| == 10
    ensures Doubled(PortfolioImages)[5..] == Doubled(PortfolioImages)[..5] == PortfolioImages
    ensures Doubled(Cards)[5..] == Doubled(Cards)[..5] == Cards
    ensures forall i :: 0 <= i < 10 ==> Doubled(PortfolioImages)[i] == PortfolioImages[i % 5]
    ensures forall i :: 0 <= i < 10 ==> Doubled(Cards)[i] == Cards[i % 5]
  {
    DoubledSpec(PortfolioImages);
    DoubledSpec(Cards);
  }
}

=== FILE: old_catalog.dfy ===
/** The earlier catalog page (src/app/catalog/page-old.tsx): a generated mock catalogue of
    80 items, a local text filter over it, and an "internet" mode whose search request is
    built from the selected filters and whose results are mapped into catalogue items. */
module OldCatalog {
  import opened Util

  /** The four design styles of the catalogue. */
  datatype DesignType = Modern | Minimal | Klassik | Diger

  /** The sub-category keys offered under every design type. */
  datatype SubCategory = QonaqOtagi | YataqOtagi | Metbex

  /** The category keys of the category chips. */
  datatype Category = Interyer | Villa | Ofis | Memarlik

  /** A filter selection: the "all" chip, or one key. */
  datatype Choice<T> = All | Only(value: T)

  /** A catalogue entry, generated or mapped from an image-search result. */
  datatype MockItem = MockItem(
    id: string,
    title: string,
    description: string,
    category: Category,
    designType: DesignType,
    subCategory: SubCategory,
    tags: seq<string>,
    image: string,
    photographer: Option<string>,
    photographerUrl: Option<string>,
    isFromInternet: bool)

  function DesignKey(dt: DesignType): string
  {
    match dt
    case Modern => "modern"
    case Minimal => "minimal"
    case Klassik => "klassik"
    case Diger => "digər"
  }

  function SubCategoryKey(sc: SubCategory): string
  {
    match sc
    case QonaqOtagi => "qonaq-otagi"
    case YataqOtagi => "yataq-otagi"
    case Metbex => "metbex"
  }

  function CategoryKey(c: Category): string
  {
    match c
    case Interyer => "interyer"
    case Villa => "villa"
    case Ofis => "ofis"
    case Memarlik => "memarlik"
  }

  /** The display label of a design type. */
  function DesignLabel(dt: DesignType): string
  {
    match dt
    case Minimal => "Minimal"
    case Modern => "Modern"
    case Klassik => "Klassik"
    case Diger => "Digər"
  }

  /** Different design types have different keys. */
  lemma DesignKeyInjective(a: DesignType, b: DesignType)
    requires DesignKey(a) == DesignKey(b)
    ensures a == b
  {
    assert |DesignKey(a)| == |DesignKey(b)| && DesignKey(a)[0] == DesignKey(b)[0];
  }

  /** The generator's loops run over these, in this order. */
  const DesignTypes: seq<DesignType> := [Modern, Minimal, Klassik, Diger]
  const SubCategories: seq<SubCategory> := [QonaqOtagi, YataqOtagi, Metbex]
  const Categories: seq<Category> := [Interyer, Villa, Ofis, Memarlik]

  /** `s.replace("-", " ")` with a string pattern: only the first hyphen is replaced. */
  function ReplaceFirstHyphen(s: string): string
  {
    if s == [] then []
    else if s[0] == '-' then [' '] + s[1..]
    else [s[0]] + ReplaceFirstHyphen(s[1..])
  }

  /** Every character is kept except the first hyphen, which becomes a space. */
  lemma {:induction false} ReplaceFirstHyphenSpec(s: string)
    ensures |ReplaceFirstHyphen(s)| == |s|
    ensures forall k :: 0 <= k < |s| && s[k] != '-' ==> ReplaceFirstHyphen(s)[k] == s[k]
    ensures forall k :: 0 <= k < |s| && s[k] == '-' ==> (ReplaceFirstHyphen(s)[k] == ' ' <==> '-' !in s[..k])
  {
    if s != [] && s[0] != '-' {
      ReplaceFirstHyphenSpec(s[1..]);
      forall k | 0 < k < |s| && s[k] == '-'
        ensures '-' in s[..k] <==> '-' in s[1..][..k - 1]
      {
        assert s[..k] == [s[0]] + s[1..][..k - 1];
      }
    }
  }

  /** Whether `c` is left as it is by `encodeURIComponent`. */
  predicate Unreserved(c: char)
  {
    ('A' <= c <= 'Z') || ('a' <= c <= 'z') || ('0' <= c <= '9') || c in "-_.!~*'()"
  }

  function HexDigit(d: nat): char
    requires d < 16
  {
    "0123456789ABCDEF"[d]
  }

  /** The UTF-8 encoding of one character, as byte values. */
  function Utf8(c: char): (bytes: seq<nat>)
    ensures 1 <= |bytes| <= 4
    ensures forall k :: 0 <= k < |bytes| ==> bytes[k] < 256
  {
    var cp := c as int;
    if cp < 0x80 then [cp]
    else if cp < 0x800 then [0xC0 + cp / 64, 0x80 + cp % 64]
    else if cp < 0x10000 then [0xE0 + cp / 4096, 0x80 + (cp / 64) % 64, 0x80 + cp % 64]
    else [0xF0 + cp / 262144, 0x80 + (cp / 4096) % 64, 0x80 + (cp / 64) % 64, 0x80 + cp % 64]
  }

  /** `%XX` for each byte, with upper-case hexadecimal digits. */
  function PercentBytes(bytes: seq<nat>): (r: string)
    requires forall k :: 0 <= k < |bytes| ==> bytes[k] < 256
    ensures |r| == 3 * |bytes|
    ensures forall k :: 0 <= k < |r| ==> r[k] == '%' || r[k] in "0123456789ABCDEF"
  {
    if bytes == [] then []
    else ['%', HexDigit(bytes[0] / 16), HexDigit(bytes[0] % 16)] + PercentBytes(bytes[1..])
  }

  /** `encodeURIComponent` on text without unpaired surrogates. */
  function EncodeUriComponent(s: string): (r: string)
    ensures |s| <= |r| <= 12 * |s|
    ensures forall k :: 0 <= k < |r| ==> Unreserved(r[k]) || r[k] == '%'
  {
    if s == [] then []
    else (if Unreserved(s[0]) then [s[0]] else PercentBytes(Utf8(s[0]))) + EncodeUriComponent(s[1..])
  }

  /** Text made only of unreserved characters is left unchanged. */
  lemma {:induction false} EncodeKeepsUnreserved(s: string)
    requires forall k :: 0 <= k < |s| ==> Unreserved(s[k])
    ensures EncodeUriComponent(s) == s
  {
    if s != [] {
      EncodeKeepsUnreserved(s[1..]);
    }
  }

  /** The one design type key with a character outside ASCII is escaped as two UTF-8 bytes. */
  lemma EncodeDiger()
    ensures EncodeUriComponent("digər") == "dig%C9%99r"
  {
    assert Utf8('ə') == [0xC9, 0x99];
    assert PercentBytes([0xC9, 0x99]) == "%C9%99";
    assert EncodeUriComponent("r") == "r";
    assert EncodeUriComponent("ər") == "%C9%99r";
  }

  /** `${dt}-${sc}-${i}`: the id of item `i` of design type `dt`. */
  function MockId(dt: DesignType, i: nat): string
  {
    DesignKey(dt) + "-" + SubCategoryKey(SubCategories[i % 3]) + "-" + NatToString(i)
  }

  function MockTitle(dt: DesignType, i: nat): string
  {
    DesignLabel(dt) + " " + ReplaceFirstHyphen(SubCategoryKey(SubCategories[i % 3])) + " #" + NatToString(i)
  }

  function MockDescription(dt: DesignType, i: nat): string
  {
    DesignLabel(dt) + " üslubunda " + ReplaceFirstHyphen(SubCategoryKey(SubCategories[i % 3])) + " nümunəsi."
  }

  /** The placeholder photo, seeded by the escaped id. */
  function MockImage(id: string): string
  {
    "https://picsum.photos/seed/" + EncodeUriComponent(id) + "/1200/900"
  }

  /** Item `i` (1 to 20) of design type `dt` in the generated catalogue. */
  function MockItemFor(dt: DesignType, i: nat): (r: MockItem)
    ensures r.designType == dt && r.subCategory in SubCategories && r.category in Categories
    ensures DesignKey(dt) + "-" <= r.id
  {
    var sc := SubCategories[i % 3];
    MockItem(
      MockId(dt, i),
      MockTitle(dt, i),
      MockDescription(dt, i),
      Categories[(i + |DesignKey(dt)|) % 4],
      dt,
      sc,
      [DesignKey(dt), SubCategoryKey(sc), "mock"],
      MockImage(MockId(dt, i)),
      None,
      None,
      false)
  }

  /** Entry `k` of the catalogue: twenty items per design type, design types in order. */
  function MockAt(k: nat): MockItem
    requires k < 80
  {
    MockItemFor(DesignTypes[k / 20], k % 20 + 1)
  }

  /** The catalogue as a whole. */
  function MockItems(): (items: seq<MockItem>)
    ensures |items| == 80
  {
    seq(80, k requires 0 <= k < 80 => MockAt(k))
  }

  lemma BlockIndex(d: nat, j: nat)
    requires j < 20
    ensures (20 * d + j) / 20 == d && (20 * d + j) % 20 == j
  {
  }

  /** The generator's nested loops: for each design type in turn, items 1 to 20, each built
      by `make` (which is `MockItemFor`). */
  method GenerateItems(make: (DesignType, nat) -> MockItem) returns (items: seq<MockItem>)
    ensures |items| == 80
    ensures forall k :: 0 <= k < 80 ==> items[k] == make(DesignTypes[k / 20], k % 20 + 1)
  {
    items := [];
    var d := 0;
    while d < 4
      invariant 0 <= d <= 4
      invariant |items| == 20 * d
      invariant forall k :: 0 <= k < |items| ==> items[k] == make(DesignTypes[k / 20], k % 20 + 1)
    {
      var dt := DesignTypes[d];
      var i := 1;
      while i <= 20
        invariant 1 <= i <= 21
        invariant |items| == 20 * d + i - 1
        invariant forall k :: 0 <= k < |items| ==> items[k] == make(DesignTypes[k / 20], k % 20 + 1)
      {
        BlockIndex(d, i - 1);
        items := items + [make(dt, i)];
        i := i + 1;
      }
      d := d + 1;
    }
  }

  /** `ITEMS`: the generator run with the catalogue's item builder. */
  method BuildItems() returns (items: seq<MockItem>)
    ensures items == MockItems()
  {
    items := GenerateItems(MockItemFor);
  }

  /** The fields of item `i` of design type `dt` that the filters and the ids depend on. */
  lemma MockItemFields(dt: DesignType, i: nat)
    ensures MockItemFor(dt, i).designType == dt
    ensures MockItemFor(dt, i).subCategory == SubCategories[i % 3]
    ensures MockItemFor(dt, i).category == Categories[(i + |DesignKey(dt)|) % 4]
    ensures MockItemFor(dt, i).tags == [DesignKey(dt), SubCategoryKey(SubCategories[i % 3]), "mock"]
    ensures !MockItemFor(dt, i).isFromInternet
  {
  }

  /** Entry `k` of the catalogue is item `k mod 20 + 1` of the `k div 20`-th design type. */
  lemma CatalogueEntry(k: nat)
    requires k < 80
    ensures MockItems()[k] == MockItemFor(DesignTypes[k / 20], k % 20 + 1)
  {
  }

  lemma CatalogueDesignType(k: nat)
    requires k < 80
    ensures MockItems()[k].designType == DesignTypes[k / 20]
  {
  }

  lemma CatalogueId(k: nat)
    requires k < 80
    ensures MockItems()[k].id == MockId(DesignTypes[k / 20], k % 20 + 1)
  {
  }

  /** Index `k` falls in the block of design type `d` exactly when `k div 20 = d`. */
  lemma DesignBlock(k: nat, d: nat)
    requires k < 80 && d < 4
    ensures DesignTypes[k / 20] == DesignTypes[d] <==> 20 * d <= k < 20 * d + 20
  {
  }

  /** Two indices with the same design type and the same position in their block are equal. */
  lemma SlotInjective(a: nat, b: nat)
    requires a < 80 && b < 80
    requires DesignTypes[a / 20] == DesignTypes[b / 20] && a % 20 == b % 20
    ensures a == b
  {
    DesignBlock(a, b / 20);
  }

  /** Exactly twenty items per design type: the block `20d .. 20d + 19` and no other. */
  lemma TwentyPerDesignType(k: nat, d: nat)
    requires k < 80 && d < 4
    ensures MockItems()[k].designType == DesignTypes[d] <==> 20 * d <= k < 20 * d + 20
  {
    CatalogueDesignType(k);
    DesignBlock(k, d);
  }

  /** `a + "-" + b == c + "-" + b` forces `a == c`. */
  lemma SameSuffixSamePrefix(a: string, c: string, b: string)
    requires a + "-" + b == c + "-" + b
    ensures a == c
  {
    assert |a| == |c|;
    assert a == (a + "-" + b)[..|a|];
    assert c == (c + "-" + b)[..|c|];
  }

  /** Different design types or indices give different ids. */
  lemma MockIdInjective(dt1: DesignType, i1: nat, dt2: DesignType, i2: nat)
    requires MockId(dt1, i1) == MockId(dt2, i2)
    ensures dt1 == dt2 && i1 == i2
  {
    var sc1, sc2 := SubCategoryKey(SubCategories[i1 % 3]), SubCategoryKey(SubCategories[i2 % 3]);
    DashNumberInjective(DesignKey(dt1) + "-" + sc1, i1, DesignKey(dt2) + "-" + sc2, i2);
    SameSuffixSamePrefix(DesignKey(dt1), DesignKey(dt2), sc1);
    DesignKeyInjective(dt1, dt2);
  }

  /** Generated ids start with the first letter of a design key, never with `i`. */
  lemma MockIdInitial(dt: DesignType, i: nat)
    ensures MockId(dt, i)[0] != 'i'
  {
    assert MockId(dt, i)[0] == DesignKey(dt)[0];
  }

  /** Two catalogue slots with the same generated id are the same slot. */
  lemma SlotIdsUnique(a: nat, b: nat)
    requires a < 80 && b < 80
    requires MockId(DesignTypes[a / 20], a % 20 + 1) == MockId(DesignTypes[b / 20], b % 20 + 1)
    ensures a == b
  {
    MockIdInjective(DesignTypes[a / 20], a % 20 + 1, DesignTypes[b / 20], b % 20 + 1);
    SlotInjective(a, b);
  }

  /** The generated ids are pairwise distinct. */
  lemma MockIdsUnique(a: nat, b: nat)
    requires a < 80 && b < 80 && MockItems()[a].id == MockItems()[b].id
    ensures a == b
  {
    CatalogueId(a);
    CatalogueId(b);
    SlotIdsUnique(a, b);
  }

  /** `Array.from(new Set(s))`: each element once, at the place it first appears. */
  function Dedup<T(==)>(s: seq<T>): (r: seq<T>)
    ensures |r| <= |s|
    ensures s != [] ==> r != [] && r[0] == s[0]
  {
    if s == [] then []
    else
      var seen := Dedup(s[..|s| - 1]);
      if s[|s| - 1] in seen then seen else seen + [s[|s| - 1]]
  }

  /** The de-duplicated list has the same elements, each once, in first-appearance order. */
  lemma {:induction false} DedupSpec<T>(s: seq<T>)
    ensures forall x :: x in Dedup(s) <==> x in s
    ensures forall a, b :: 0 <= a < b < |Dedup(s)| ==> Dedup(s)[a] != Dedup(s)[b]
    ensures IsSubsequence(Dedup(s), s)
  {
    if s != [] {
      var init := s[..|s| - 1];
      var last := s[|s| - 1];
      DedupSpec(init);
      assert s == init + [last];
      if last in Dedup(init) {
        SubsequenceExtend(Dedup(init), init, [last]);
      } else {
        SubsequenceAppend(Dedup(init), init, last);
      }
    }
  }

  /** A subsequence of `b` is a subsequence of `b + c`. */
  lemma {:induction false} SubsequenceExtend<T>(a: seq<T>, b: seq<T>, c: seq<T>)
    requires IsSubsequence(a, b)
    ensures IsSubsequence(a, b + c)
    decreases |b|
  {
    if a != [] {
      assert b != [];
      assert (b + c)[1..] == b[1..] + c;
      if a[0] == b[0] {
        SubsequenceExtend(a[1..], b[1..], c);
      } else {
        SubsequenceExtend(a, b[1..], c);
      }
    }
  }

  /** Appending the same element to both keeps the subsequence relation. */
  lemma {:induction false} SubsequenceAppend<T>(a: seq<T>, b: seq<T>, x: T)
    requires IsSubsequence(a, b)
    ensures IsSubsequence(a + [x], b + [x])
    decreases |b|
  {
    if a == [] {
      SubsequenceSingleton(b, x);
      assert a + [x] == [x];
    } else {
      assert b != [];
      assert (a + [x])[0] == a[0] && (a + [x])[1..] == a[1..] + [x];
      assert (b + [x])[0] == b[0] && (b + [x])[1..] == b[1..] + [x];
      if a[0] == b[0] {
        SubsequenceAppend(a[1..], b[1..], x);
      } else {
        SubsequenceAppend(a, b[1..], x);
      }
    }
  }

  lemma {:induction false} SubsequenceSingleton<T>(b: seq<T>, x: T)
    ensures IsSubsequence([x], b + [x])
    decreases |b|
  {
    if b != [] {
      assert (b + [x])[1..] == b[1..] + [x];
      SubsequenceSingleton(b[1..], x);
    }
  }

  /** `availableDesignTypes`: the design types of the catalogue, each once, in the order
      they first appear. */
  function AvailableDesignTypes(items: seq<MockItem>): seq<DesignType>
  {
    Dedup(seq(|items|, k requires 0 <= k < |items| => items[k].designType))
  }

  /** `parts.join(sep)`. */
  function Join(parts: seq<string>, sep: string): string
  {
    if parts == [] then ""
    else if |parts| == 1 then parts[0]
    else parts[0] + sep + Join(parts[1..], sep)
  }

  /** The lower-cased text the local search looks in. */
  function Haystack(item: MockItem): string
  {
    Lower(Join([item.title, item.description, CategoryKey(item.category), DesignKey(item.designType),
                SubCategoryKey(item.subCategory)] + item.tags, " "))
  }

  /** The local filter's test; `q` is the trimmed, lower-cased query. */
  predicate LocalMatch(item: MockItem, category: Choice<Category>, design: Choice<DesignType>,
                       sub: Choice<SubCategory>, q: string)
  {
    (category == All || item.category == category.value)
    && (design == All || item.designType == design.value)
    && (sub == All || item.subCategory == sub.value)
    && (q == "" || Contains(Haystack(item), q))
  }

  datatype SearchMode = Local | Internet

  /** `filtered`: the internet results as they are in internet mode, otherwise the
      catalogue items passing the local filter. */
  function Visible(mode: SearchMode, internetResults: seq<MockItem>, items: seq<MockItem>, query: string,
                   category: Choice<Category>, design: Choice<DesignType>, sub: Choice<SubCategory>): (r: seq<MockItem>)
    ensures mode == Local ==> |r| <= |items|
    ensures mode == Local ==> forall k :: 0 <= k < |r| ==> LocalMatch(r[k], category, design, sub, Lower(Trim(query)))
  {
    if mode == Internet then internetResults
    else
      var q := Lower(Trim(query));
      Filter(items, (item: MockItem) => LocalMatch(item, category, design, sub, q))
  }

  /** Local mode keeps, in order, the items that pass every selected filter and contain the
      trimmed, lower-cased query; a blank query keeps everything the filters keep. */
  lemma LocalFilterSpec(items: seq<MockItem>, query: string, category: Choice<Category>,
                        design: Choice<DesignType>, sub: Choice<SubCategory>)
    ensures IsSubsequence(Visible(Local, [], items, query, category, design, sub), items)
    ensures forall x :: x in Visible(Local, [], items, query, category, design, sub) <==>
                        x in items && LocalMatch(x, category, design, sub, Lower(Trim(query)))
    ensures IsBlank(query) ==>
              forall x :: x in Visible(Local, [], items, query, category, design, sub) <==>
                          x in items && LocalMatch(x, category, design, sub, "")
  {
    var q := Lower(Trim(query));
    FilterIsSubsequence(items, (item: MockItem) => LocalMatch(item, category, design, sub, q));
    FilterMembers(items, (item: MockItem) => LocalMatch(item, category, design, sub, q));
  }

  /** With every filter on "all" and a blank query, local mode shows the whole catalogue. */
  lemma NoFilterShowsCatalogue(items: seq<MockItem>, query: string, internetResults: seq<MockItem>)
    requires IsBlank(query)
    ensures Visible(Local, internetResults, items, query, All, All, All) == items
  {
    FilterAll(items, (item: MockItem) => LocalMatch(item, All, All, All, Lower(Trim(query))));
  }

  /** Internet mode shows the mapped search results and ignores the local filters. */
  lemma InternetModeShowsResults(internetResults: seq<MockItem>, items: seq<MockItem>, query: string,
                                 category: Choice<Category>, design: Choice<DesignType>, sub: Choice<SubCategory>)
    ensures Visible(Internet, internetResults, items, query, category, design, sub)
            == Visible(Internet, internetResults, [], "", All, All, All)
  {
  }

  /** The English word for a design type in the search request. */
  function DesignWord(d: DesignType): string
  {
    match d
    case Modern => "modern"
    case Minimal => "minimalist"
    case Klassik => "classic"
    case Diger => "contemporary"
  }

  /** The English words for a sub-category in the search request. */
  function SubCategoryWords(sub: SubCategory): string
  {
    match sub
    case QonaqOtagi => "living room"
    case YataqOtagi => "bedroom"
    case Metbex => "kitchen"
  }

  /** The context phrase for the active category; the "all" chip asks for both. */
  function CategoryPhrase(category: Choice<Category>): string
  {
    match category
    case Only(Interyer) => " interior design"
    case Only(Villa) => " villa home"
    case Only(Ofis) => " office design"
    case Only(Memarlik) => " architecture"
    case All => " interior design architecture"
  }

  function DesignPart(design: Choice<DesignType>): string
  {
    if design.Only? then " " + DesignWord(design.value) + " design" else ""
  }

  function SubCategoryPart(sub: Choice<SubCategory>): string
  {
    if sub.Only? then " " + SubCategoryWords(sub.value) else ""
  }

  /** The image-search query: the user's words, then the selected design type and
      sub-category in English, then one category phrase. */
  function EnhancedQuery(searchQuery: string, design: Choice<DesignType>, sub: Choice<SubCategory>,
                         category: Choice<Category>): (r: string)
    ensures searchQuery <= r
    ensures |r| > |searchQuery|
  {
    searchQuery + DesignPart(design) + SubCategoryPart(sub) + CategoryPhrase(category)
  }

  /** The request begins with the user's words as typed. */
  lemma EnhancedQueryKeepsWords(searchQuery: string, design: Choice<DesignType>, sub: Choice<SubCategory>,
                                category: Choice<Category>)
    ensures searchQuery <= EnhancedQuery(searchQuery, design, sub, category)
  {
  }

  /** The request ends with the phrase of the active category. */
  lemma EnhancedQueryEndsWithPhrase(searchQuery: string, design: Choice<DesignType>, sub: Choice<SubCategory>,
                                    category: Choice<Category>)
    ensures var q := EnhancedQuery(searchQuery, design, sub, category);
            q[|q| - |CategoryPhrase(category)|..] == CategoryPhrase(category)
  {
  }

  /** Without a design type or sub-category only the category phrase is added. */
  lemma EnhancedQueryWithoutFilters(searchQuery: string, category: Choice<Category>)
    ensures EnhancedQuery(searchQuery, All, All, category) == searchQuery + CategoryPhrase(category)
  {
  }

  /** The image-search route's URL for a query, thirty results per page. */
  function SearchUrl(q: string): string
  {
    "/api/search-images?q=" + EncodeUriComponent(q) + "&per_page=30"
  }

  /** One result of the image-search route. */
  datatype SearchResult = SearchResult(
    id: string,
    title: string,
    description: Option<string>,
    image: string,
    photographer: Option<string>,
    photographerUrl: Option<string>,
    tags: Option<seq<string>>)

  /** A result as a catalogue item: prefixed id, the title when the description is missing or
      empty, the selected filters or their defaults, and the internet flag. */
  function MapResult(r: SearchResult, category: Choice<Category>, design: Choice<DesignType>,
                     sub: Choice<SubCategory>): (item: MockItem)
    ensures item.id == "internet-" + r.id
    ensures item.description == (if Truthy(r.description) then r.description.value else r.title)
    ensures category.Only? ==> item.category == category.value
    ensures category.All? ==> item.category == Interyer
    ensures design.Only? ==> item.designType == design.value
    ensures design.All? ==> item.designType == Modern
    ensures sub.Only? ==> item.subCategory == sub.value
    ensures sub.All? ==> item.subCategory == QonaqOtagi
    ensures item.isFromInternet
  {
    MockItem(
      "internet-" + r.id,
      r.title,
      if Truthy(r.description) then r.description.value else r.title,
      if category.All? then Interyer else category.value,
      if design.All? then Modern else design.value,
      if sub.All? then QonaqOtagi else sub.value,
      if r.tags.Some? then r.tags.value else [],
      r.image,
      r.photographer,
      r.photographerUrl,
      true)
  }

  function MapResults(rs: seq<SearchResult>, category: Choice<Category>, design: Choice<DesignType>,
                      sub: Choice<SubCategory>): (items: seq<MockItem>)
    ensures |items| == |rs|
    ensures forall k :: 0 <= k < |rs| ==> items[k] == MapResult(rs[k], category, design, sub)
  {
    seq(|rs|, k requires 0 <= k < |rs| => MapResult(rs[k], category, design, sub))
  }

  /** An internet result never shares its id with a generated item. */
  lemma InternetIdsAreNotMockIds(r: SearchResult, category: Choice<Category>, design: Choice<DesignType>,
                                 sub: Choice<SubCategory>, k: nat)
    requires k < 80
    ensures MapResult(r, category, design, sub).id != MockItems()[k].id
  {
    CatalogueId(k);
    MockIdInitial(DesignTypes[k / 20], k % 20 + 1);
    assert MapResult(r, category, design, sub).id[0] == 'i';
  }

  /** What the image-search request came back with. */
  datatype SearchOutcome =
    | HttpFailure(status: nat)
    | ApiFailure(error: Option<string>)
    | Thrown(message: string)
    | ThrownNonError
    | Found(results: seq<SearchResult>)

  /** The error the search leaves behind: none on success, otherwise the message of what
      was thrown, with a fixed text where the route gave none. */
  function SearchErrorOf(outcome: SearchOutcome): Option<string>
  {
    match outcome
    case HttpFailure(status) => Some("Axtarış uğursuz oldu (" + NatToString(status) + ")")
    case ApiFailure(error) => Some(if Truthy(error) then error.value else "Axtarış uğursuz oldu")
    case Thrown(message) => Some(message)
    case ThrownNonError => Some("Axtarış zamanı xəta baş verdi")
    case Found(_) => None
  }

  /** The page's state. */
  class OldCatalogPage {
    var query: string
    var activeCategory: Choice<Category>
    var selectedDesignType: Choice<DesignType>
    var selectedSubCategory: Choice<SubCategory>
    var internetResults: seq<MockItem>
    var isSearching: bool
    var searchMode: SearchMode
    var searchError: Option<string>

    constructor ()
      ensures query == "" && activeCategory == All && selectedDesignType == All && selectedSubCategory == All
      ensures internetResults == [] && !isSearching && searchMode == Local && searchError.None?
    {
      query := "";
      activeCategory := All;
      selectedDesignType := All;
      selectedSubCategory := All;
      internetResults := [];
      isSearching := false;
      searchMode := Local;
      searchError := None;
    }

    /** Choosing a design type always resets the sub-category. */
    method OnSelectDesignType(next: Choice<DesignType>)
      modifies this`selectedDesignType, this`selectedSubCategory
      ensures selectedDesignType == next && selectedSubCategory == All
    {
      selectedDesignType := next;
      selectedSubCategory := All;
    }

    /** `searchInternet`. Returns the URL requested from the image-search route, or `None`
        when a blank query cleared the results without a request. */
    method SearchInternet(searchQuery: string, outcome: SearchOutcome) returns (sent: Option<string>)
      modifies this`internetResults, this`isSearching, this`searchError
      ensures IsBlank(searchQuery) ==>
                sent.None? && internetResults == [] && isSearching == old(isSearching) && searchError == old(searchError)
      ensures !IsBlank(searchQuery) ==>
                && !isSearching
                && sent == Some(SearchUrl(EnhancedQuery(searchQuery, selectedDesignType, selectedSubCategory, activeCategory)))
      ensures !IsBlank(searchQuery) ==> searchError == SearchErrorOf(outcome)
      ensures !IsBlank(searchQuery) ==>
                internetResults == (if outcome.Found? then MapResults(outcome.results, activeCategory, selectedDesignType, selectedSubCategory) else [])
    {
      if IsBlank(searchQuery) {
        internetResults := [];
        return None;
      }
      isSearching := true;
      searchError := None;
      var q := EnhancedQuery(searchQuery, selectedDesignType, selectedSubCategory, activeCategory);
      sent := Some(SearchUrl(q));
      searchError := SearchErrorOf(outcome);
      internetResults := if outcome.Found? then MapResults(outcome.results, activeCategory, selectedDesignType, selectedSubCategory) else [];
      isSearching := false;
    }

    /** The debounced effect on a change of query or mode: in internet mode a non-blank
        query is searched once the delay has passed, a blank one clears the results; local
        mode changes nothing. */
    method OnQueryOrModeChange(outcome: SearchOutcome) returns (sent: Option<string>)
      modifies this`internetResults, this`isSearching, this`searchError
      ensures searchMode == Local ==>
                sent.None? && internetResults == old(internetResults)
                && isSearching == old(isSearching) && searchError == old(searchError)
      ensures searchMode == Internet && IsBlank(query) ==>
                sent.None? && internetResults == []
                && isSearching == old(isSearching) && searchError == old(searchError)
      ensures searchMode == Internet && !IsBlank(query) ==>
                && !isSearching
                && sent == Some(SearchUrl(EnhancedQuery(query, selectedDesignType, selectedSubCategory, activeCategory)))
                && searchError == SearchErrorOf(outcome)
                && internetResults == (if outcome.Found? then MapResults(outcome.results, activeCategory, selectedDesignType, selectedSubCategory) else [])
    {
      sent := None;
      if searchMode == Internet && !IsBlank(query) {
        sent := SearchInternet(query, outcome);
      } else if searchMode == Internet {
        internetResults := [];
      }
    }
  }
}

=== FILE: public_catalog.dfy ===
/** The public catalog page (src/app/catalog/page.tsx): filtering by design type, room type
    and search text, one tile per image, a slider of four tiles per slide, per-room-type
    counts and the room-type chips. */
module PublicCatalog {
  import opened Util
  import opened CatalogRows

  /** The selection value meaning "no filter". */
  const ALL := "all"

  /** `i.design_type?.name === name`: an item without a design type matches no name. */
  predicate DesignIs(item: CatalogItem, name: string)
  {
    item.designType.Some? && item.designType.value.name == name
  }

  predicate RoomIs(item: CatalogItem, name: string)
  {
    item.roomType.Some? && item.roomType.value.name == name
  }

  /** The search test: the lower-cased room or design name contains `q`. */
  predicate QueryMatches(item: CatalogItem, q: string)
  {
    Contains(Lower(RoomName(item)), q) || Contains(Lower(DesignName(item)), q)
  }

  /** The design stage's test, true for every item when "all" is selected. */
  function DesignSel(design: string): CatalogItem -> bool
  {
    (i: CatalogItem) => design == ALL || DesignIs(i, design)
  }

  function RoomSel(room: string): CatalogItem -> bool
  {
    (i: CatalogItem) => room == ALL || RoomIs(i, room)
  }

  /** The search stage's test, searching for `q`; true for every item when the query is blank. */
  function QuerySel(query: string, q: string): CatalogItem -> bool
  {
    (i: CatalogItem) => IsBlank(query) || QueryMatches(i, q)
  }

  /** The three stages, each skipped when it selects everything; `q` is the text searched for. */
  function Stages(items: seq<CatalogItem>, design: string, room: string, query: string, q: string): (r: seq<CatalogItem>)
    ensures |r| <= |items|
    ensures design == ALL && room == ALL && IsBlank(query) ==> r == items
  {
    var byDesign := if design != ALL then Filter(items, DesignSel(design)) else items;
    var byRoom := if room != ALL then Filter(byDesign, RoomSel(room)) else byDesign;
    if !IsBlank(query) then Filter(byRoom, QuerySel(query, q)) else byRoom
  }

  /** The page's filter as written: the non-blank test trims the query, but the text searched
      for is only lower-cased, so surrounding spaces take part in the match. */
  function FilteredAsWritten(items: seq<CatalogItem>, design: string, room: string, query: string): (r: seq<CatalogItem>)
    ensures |r| <= |items|
    ensures design == ALL && room == ALL && IsBlank(query) ==> r == items
  {
    Stages(items, design, room, query, Lower(query))
  }

  /** The search text the filter uses: the query trimmed, then lower-cased. */
  function SearchText(query: string): string
  {
    Lower(Trim(query))
  }

  /** The page's filter, searching for the trimmed query. */
  function Filtered(items: seq<CatalogItem>, design: string, room: string, query: string): (r: seq<CatalogItem>)
    ensures |r| <= |items|
    ensures design == ALL && room == ALL && IsBlank(query) ==> r == items
  {
    Stages(items, design, room, query, SearchText(query))
  }

  /** Whether an item is shown for the given selections and query. */
  predicate Shown(item: CatalogItem, design: string, room: string, query: string)
  {
    (design == ALL || DesignIs(item, design))
    && (room == ALL || RoomIs(item, room))
    && (IsBlank(query) || QueryMatches(item, SearchText(query)))
  }

  /** A skipped stage keeps everything, since its test holds for every item. */
  lemma StageIsFilter(s: seq<CatalogItem>, skip: bool, p: CatalogItem -> bool)
    requires skip ==> forall k :: 0 <= k < |s| ==> p(s[k])
    ensures (if !skip then Filter(s, p) else s) == Filter(s, p)
  {
    if skip {
      FilterAll(s, p);
    }
  }

  /** The three stages together are one filter by the conjunction of their tests. */
  lemma StagesAreOneFilter(items: seq<CatalogItem>, design: string, room: string, query: string, q: string)
    ensures Stages(items, design, room, query, q)
            == Filter(items, Both(Both(DesignSel(design), RoomSel(room)), QuerySel(query, q)))
  {
    var byDesign := if design != ALL then Filter(items, DesignSel(design)) else items;
    var byRoom := if room != ALL then Filter(byDesign, RoomSel(room)) else byDesign;
    StageIsFilter(items, design == ALL, DesignSel(design));
    StageIsFilter(byDesign, room == ALL, RoomSel(room));
    StageIsFilter(byRoom, IsBlank(query), QuerySel(query, q));
    FilterFilter(items, DesignSel(design), RoomSel(room));
    FilterFilter(items, Both(DesignSel(design), RoomSel(room)), QuerySel(query, q));
  }

  /** `filtered` keeps, in order, exactly the items that are shown. */
  lemma FilteredSpec(items: seq<CatalogItem>, design: string, room: string, query: string)
    ensures IsSubsequence(Filtered(items, design, room, query), items)
    ensures forall item :: item in Filtered(items, design, room, query) <==> item in items && Shown(item, design, room, query)
  {
    var p := Both(Both(DesignSel(design), RoomSel(room)), QuerySel(query, SearchText(query)));
    StagesAreOneFilter(items, design, room, query, SearchText(query));
    FilterIsSubsequence(items, p);
    FilterMembers(items, p);
    var r := Filter(items, p);
    forall item ensures item in r <==> item in items && Shown(item, design, room, query) {
      ShownIsConjunction(item, design, room, query);
    }
  }

  lemma ShownIsConjunction(item: CatalogItem, design: string, room: string, query: string)
    ensures Both(Both(DesignSel(design), RoomSel(room)), QuerySel(query, SearchText(query)))(item)
            == Shown(item, design, room, query)
  {
  }

  /** Spaces around the query change nothing. */
  lemma FilteredIgnoresSurroundingSpace(items: seq<CatalogItem>, design: string, room: string, query: string)
    ensures Filtered(items, design, room, query) == Filtered(items, design, room, Trim(query))
  {
    var trimmed := Trim(query);
    TrimIdempotent(query);
    BlankIff(query);
    BlankIff(trimmed);
    var q := SearchText(query);
    assert SearchText(trimmed) == q;
    var byDesign := if design != ALL then Filter(items, DesignSel(design)) else items;
    var byRoom := if room != ALL then Filter(byDesign, RoomSel(room)) else byDesign;
    if !IsBlank(query) {
      FilterExt(byRoom, QuerySel(query, q), QuerySel(trimmed, q));
    }
  }

  /** The filter as written agrees with the trimmed one on queries without surrounding space. */
  lemma FilteredAgreesOnTrimmedQueries(items: seq<CatalogItem>, design: string, room: string, query: string)
    requires Trim(query) == query
    ensures FilteredAsWritten(items, design, room, query) == Filtered(items, design, room, query)
  {
  }

  lemma VillaTrim()
    ensures TrimStart("villa ") == "villa " && TrimEnd("villa ") == "villa"
  {
    assert !IsSpace("villa "[0]);
    assert "villa "[..5] == "villa";
    assert !IsSpace("villa"[4]);
  }

  lemma VillaIsLowerCase()
    ensures Lower("villa") == "villa"
  {
    LowerKeeps("villa");
  }

  lemma VillaSpaceIsLowerCase()
    ensures Lower("villa ") == "villa "
  {
    LowerKeeps("villa ");
  }

  /** "villa ", "villa" and "" hold no capital. */
  lemma VillaLower()
    ensures Lower("villa ") == "villa " && Lower("villa") == "villa" && Lower("") == ""
  {
    VillaIsLowerCase();
    VillaSpaceIsLowerCase();
  }

  /** The query "villa " and its trimmed, lower-cased forms. */
  lemma VillaQuery()
    ensures !IsBlank("villa ") && Lower("villa ") == "villa " && SearchText("villa ") == "villa"
    ensures Lower("villa") == "villa" && Lower("") == ""
  {
    VillaTrim();
    assert Trim("villa ") == "villa";
    VillaLower();
    assert !IsSpace("villa "[0]);
  }

  /** As written, a trailing space hides an item whose room name is exactly the typed word. */
  lemma TrailingSpaceHidesMatch()
    ensures var item := CatalogItem("1", "c.jpg", None, Some(NamedRef("r", "villa")), None);
            FilteredAsWritten([item], ALL, ALL, "villa ") == []
            && Filtered([item], ALL, ALL, "villa ") == [item]
  {
    var item := CatalogItem("1", "c.jpg", None, Some(NamedRef("r", "villa")), None);
    var query := "villa ";
    VillaQuery();
    assert RoomName(item) == "villa" && DesignName(item) == "";
    ContainsLonger("villa", query);
    ContainsLonger("", query);
    assert !QueryMatches(item, query);
    assert Contains("villa", "villa");
    assert QueryMatches(item, "villa");
    assert FilteredAsWritten([item], ALL, ALL, query) == Filter([item], QuerySel(query, query));
    assert Filtered([item], ALL, ALL, query) == Filter([item], QuerySel(query, "villa"));
  }

  /** Selecting nothing and searching for nothing shows every item. */
  lemma NoFilterShowsAll(items: seq<CatalogItem>)
    ensures Filtered(items, ALL, ALL, "") == items
  {
  }

  /** A tile: one image of one item, keyed `${item.id}-${idx}`. */
  datatype Tile = Tile(key: string, imageUrl: string, designType: Option<NamedRef>, roomType: Option<NamedRef>)

  /** The images an item shows: its gallery when non-empty, otherwise its cover when set. */
  function TileUrls(item: CatalogItem): (urls: seq<string>)
    ensures item.images.Some? && |item.images.value| > 0 ==> urls == GalleryUrls(item.images.value)
    ensures (item.images.None? || item.images.value == []) && item.imageUrl != "" ==> urls == [item.imageUrl]
    ensures (item.images.None? || item.images.value == []) && item.imageUrl == "" ==> urls == []
  {
    if item.images.Some? && |item.images.value| > 0 then GalleryUrls(item.images.value)
    else if item.imageUrl != "" then [item.imageUrl]
    else []
  }

  /** `key` is the tile key of image `k` of the item with id `id`. */
  predicate KeyOf(key: string, id: string, k: nat)
  {
    key == id + "-" + NatToString(k)
  }

  /** The tiles of one item, in image order. */
  function TilesOf(item: CatalogItem): (tiles: seq<Tile>)
    ensures |tiles| == |TileUrls(item)|
    ensures forall k :: 0 <= k < |tiles| ==> KeyOf(tiles[k].key, item.id, k) && tiles[k].imageUrl == TileUrls(item)[k]
    ensures forall k :: 0 <= k < |tiles| ==> tiles[k].designType == item.designType && tiles[k].roomType == item.roomType
  {
    var urls := TileUrls(item);
    seq(|urls|, k requires 0 <= k < |urls| => Tile(item.id + "-" + NatToString(k), urls[k], item.designType, item.roomType))
  }

  /** All tiles, item after item. */
  function Expansion(items: seq<CatalogItem>): seq<Tile>
  {
    if items == [] then [] else Expansion(items[..|items| - 1]) + TilesOf(items[|items| - 1])
  }

  /** The `forEach` loops that build `expanded`. */
  method Expand(filtered: seq<CatalogItem>) returns (out: seq<Tile>)
    ensures out == Expansion(filtered)
  {
    out := [];
    var i := 0;
    while i < |filtered|
      invariant 0 <= i <= |filtered|
      invariant out == Expansion(filtered[..i])
    {
      var item := filtered[i];
      var urls := TileUrls(item);
      var before := out;
      var j := 0;
      while j < |urls|
        invariant 0 <= j <= |urls|
        invariant out == before + TilesOf(item)[..j]
      {
        assert TilesOf(item)[..j + 1] == TilesOf(item)[..j] + [TilesOf(item)[j]];
        assert TilesOf(item)[j] == Tile(item.id + "-" + NatToString(j), urls[j], item.designType, item.roomType);
        out := out + [Tile(item.id + "-" + NatToString(j), urls[j], item.designType, item.roomType)];
        j := j + 1;
      }
      assert TilesOf(item)[..j] == TilesOf(item);
      ExpansionStep(filtered, i);
      i := i + 1;
    }
    assert filtered[..i] == filtered;
  }

  /** One more item adds its tiles at the end. */
  lemma ExpansionStep(items: seq<CatalogItem>, i: int)
    requires 0 <= i < |items|
    ensures Expansion(items[..i + 1]) == Expansion(items[..i]) + TilesOf(items[i])
  {
    assert items[..i + 1][..i] == items[..i];
  }

  /** `key` is the tile key of some image of some item of `items`. */
  ghost predicate KeyFromItems(key: string, items: seq<CatalogItem>)
  {
    exists j: nat, k: nat :: j < |items| && KeyOf(key, items[j].id, k)
  }

  /** Every tile key names an item of the list and an image index. */
  lemma {:induction false} ExpansionKeys(items: seq<CatalogItem>)
    ensures forall t :: 0 <= t < |Expansion(items)| ==> KeyFromItems(Expansion(items)[t].key, items)
  {
    if items != [] {
      var init := items[..|items| - 1];
      var last := items[|items| - 1];
      ExpansionKeys(init);
      var e := Expansion(items);
      assert e == Expansion(init) + TilesOf(last);
      forall t | 0 <= t < |e|
        ensures KeyFromItems(e[t].key, items)
      {
        if t < |Expansion(init)| {
          assert KeyFromItems(Expansion(init)[t].key, init);
          var j: nat, k: nat :| j < |init| && KeyOf(Expansion(init)[t].key, init[j].id, k);
          assert items[j] == init[j];
          assert KeyOf(e[t].key, items[j].id, k);
        } else {
          var k: nat := t - |Expansion(init)|;
          assert e[t] == TilesOf(last)[k];
          assert KeyOf(e[t].key, items[|items| - 1].id, k);
        }
      }
    }
  }

  /** A tile key determines its item id and image index. */
  lemma KeyOfInjective(key: string, a: string, m: nat, b: string, n: nat)
    requires KeyOf(key, a, m) && KeyOf(key, b, n)
    ensures a == b && m == n
  {
    DashNumberInjective(a, m, b, n);
  }

  /** The tiles of one item have different keys. */
  lemma TileKeysDiffer(item: CatalogItem, x: int, y: int)
    requires 0 <= x < y < |TilesOf(item)|
    ensures TilesOf(item)[x].key != TilesOf(item)[y].key
  {
    var key := TilesOf(item)[x].key;
    if key == TilesOf(item)[y].key {
      KeyOfInjective(key, item.id, x, item.id, y);
    }
  }

  /** The tiles of an item whose id no earlier item has get keys no earlier tile has. */
  lemma LastTileKeyIsNew(init: seq<CatalogItem>, last: CatalogItem, a: int, k: int)
    requires forall j :: 0 <= j < |init| ==> init[j].id != last.id
    requires 0 <= a < |Expansion(init)| && 0 <= k < |TilesOf(last)|
    ensures Expansion(init)[a].key != TilesOf(last)[k].key
  {
    ExpansionKeys(init);
    var key := Expansion(init)[a].key;
    assert KeyFromItems(key, init);
    var j: nat, i: nat :| j < |init| && KeyOf(key, init[j].id, i);
    if key == TilesOf(last)[k].key {
      KeyOfInjective(key, init[j].id, i, last.id, k);
    }
  }

  /** With distinct item ids, tile keys are distinct: the index after the last hyphen tells
      the images of one item apart, and the text before it the items. */
  lemma {:induction false} ExpansionKeysDistinct(items: seq<CatalogItem>)
    requires forall a, b :: 0 <= a < b < |items| ==> items[a].id != items[b].id
    ensures forall a, b :: 0 <= a < b < |Expansion(items)| ==> Expansion(items)[a].key != Expansion(items)[b].key
  {
    if items != [] {
      var init := items[..|items| - 1];
      var last := items[|items| - 1];
      ExpansionKeysDistinct(init);
      var e, ei, el := Expansion(items), Expansion(init), TilesOf(last);
      assert e == ei + el;
      assert forall j :: 0 <= j < |init| ==> init[j].id != last.id by {
        forall j | 0 <= j < |init| ensures init[j].id != last.id {
          assert init[j] == items[j];
        }
      }
      forall a, b | 0 <= a < b < |e| ensures e[a].key != e[b].key {
        if |ei| <= a {
          assert e[a] == el[a - |ei|] && e[b] == el[b - |ei|];
          TileKeysDiffer(last, a - |ei|, b - |ei|);
        } else if |ei| <= b {
          assert e[a] == ei[a] && e[b] == el[b - |ei|];
          LastTileKeyIsNew(init, last, a, b - |ei|);
        } else {
          assert e[a] == ei[a] && e[b] == ei[b];
        }
      }
    }
  }

  /** `Math.max(1, Math.ceil(n / 4))`: enough slides of four for `n` tiles, and at least one. */
  function SlideCount(n: nat): (c: nat)
    ensures c >= 1
    ensures n > 0 ==> 4 * (c - 1) < n <= 4 * c
    ensures n == 0 ==> c == 1
  {
    if n == 0 then 1 else (n + 3) / 4
  }

  function Min(a: int, b: int): int
  {
    if a <= b then a else b
  }

  /** `tiles.slice(4k, 4k + 4)`; `slice` clamps both ends to the length. */
  function Slide(tiles: seq<Tile>, k: nat): (s: seq<Tile>)
    ensures |s| <= 4
  {
    tiles[Min(4 * k, |tiles|)..Min(4 * k + 4, |tiles|)]
  }

  /** Slides `k` to `count - 1`, laid end to end. */
  function SlidesFrom(tiles: seq<Tile>, k: nat, count: nat): seq<Tile>
    decreases count - k
  {
    if k >= count then [] else Slide(tiles, k) + SlidesFrom(tiles, k + 1, count)
  }

  lemma {:induction false} SlidesFromSuffix(tiles: seq<Tile>, k: nat, count: nat)
    requires k <= count && |tiles| <= 4 * count
    ensures SlidesFrom(tiles, k, count) == tiles[Min(4 * k, |tiles|)..]
    decreases count - k
  {
    if k < count {
      SlidesFromSuffix(tiles, k + 1, count);
    } else {
      assert Min(4 * k, |tiles|) == |tiles|;
    }
  }

  /** The slides shown, in order, hold every tile exactly once. */
  lemma SlidesCoverTiles(tiles: seq<Tile>)
    ensures SlidesFrom(tiles, 0, SlideCount(|tiles|)) == tiles
  {
    SlidesFromSuffix(tiles, 0, SlideCount(|tiles|));
  }

  /** `(prev + 1) % count`. */
  function NextIndex(i: nat, count: nat): (r: nat)
    requires count >= 1
    ensures r < count
    ensures i + 1 < count ==> r == i + 1
    ensures i + 1 == count ==> r == 0
  {
    (i + 1) % count
  }

  /** `(prev - 1 + count) % count`; `prev` is never negative, so the remainder is too. */
  function PrevIndex(i: nat, count: nat): (r: nat)
    requires count >= 1
    ensures r < count
    ensures 0 < i <= count ==> r == i - 1
    ensures i == 0 ==> r == count - 1
  {
    (i - 1 + count) % count
  }

  lemma ModIdentity(a: int, n: int)
    requires 0 <= a < n
    ensures a % n == a
  {
  }

  lemma ModWrap(a: int, n: int)
    requires n <= a < 2 * n
    ensures a % n == a - n
  {
  }

  /** Back after forward returns to any slide in range, and so does forward after back. */
  lemma PrevNextInverse(i: nat, count: nat)
    requires i < count
    ensures PrevIndex(NextIndex(i, count), count) == i
    ensures NextIndex(PrevIndex(i, count), count) == i
  {
    if i + 1 < count {
      ModIdentity(i + 1, count);
      ModWrap(i + count, count);
    } else {
      ModWrap(i + 1, count);
      ModIdentity(count - 1, count);
    }
    if i == 0 {
      ModIdentity(count - 1, count);
      ModWrap(count, count);
    } else {
      ModWrap(i - 1 + count, count);
      ModIdentity(i, count);
    }
  }

  /** The room-type chip names: "all" first, then every room type. */
  function ChipNames(roomTypes: seq<NamedRef>): (names: seq<string>)
    ensures |names| == |roomTypes| + 1 && names[0] == ALL
    ensures forall k :: 0 <= k < |roomTypes| ==> names[k + 1] == roomTypes[k].name
  {
    [ALL] + seq(|roomTypes|, k requires 0 <= k < |roomTypes| => roomTypes[k].name)
  }

  /** The chips shown: the first seven, or all of them when expanded. */
  function VisibleChips(roomTypes: seq<NamedRef>, showAll: bool): seq<string>
  {
    var names := ChipNames(roomTypes);
    names[..Min(if showAll then |roomTypes| + 1 else 7, |names|)]
  }

  /** The toggle button is rendered only when there are more than seven chips. */
  predicate ShowToggle(roomTypes: seq<NamedRef>)
  {
    |roomTypes| + 1 > 7
  }

  /** The number the collapsed toggle advertises. */
  function MoreCount(roomTypes: seq<NamedRef>): int
  {
    |roomTypes| + 1 - 7
  }

  /** Chips are a prefix of the full list; expanded shows all; collapsed shows seven at most;
      the toggle appears exactly when collapsing hides chips, and advertises how many. */
  lemma VisibleChipsSpec(roomTypes: seq<NamedRef>, showAll: bool)
    ensures VisibleChips(roomTypes, showAll) <= ChipNames(roomTypes)
    ensures showAll ==> VisibleChips(roomTypes, showAll) == ChipNames(roomTypes)
    ensures !showAll ==> |VisibleChips(roomTypes, showAll)| == Min(7, |roomTypes| + 1)
    ensures ShowToggle(roomTypes) <==> |VisibleChips(roomTypes, false)| < |ChipNames(roomTypes)|
    ensures ShowToggle(roomTypes) ==> MoreCount(roomTypes) == |ChipNames(roomTypes)| - |VisibleChips(roomTypes, false)|
  {
  }

  /** How many items of room `name` the chip advertises: the design selection applies, the
      query does not. */
  function RoomCount(items: seq<CatalogItem>, name: string, design: string): nat
  {
    |Filter(items, (i: CatalogItem) => RoomIs(i, name) && (design == ALL || DesignIs(i, design)))|
  }

  /** The `forEach` that fills `roomTypeCounts`: one entry per chip, the "all" chip counting
      the filtered list and every other chip its room's items under the design selection. */
  method RoomTypeCounts(items: seq<CatalogItem>, roomTypes: seq<NamedRef>, filtered: seq<CatalogItem>, design: string)
    returns (counts: map<string, nat>)
    ensures forall n :: n in counts <==> n in ChipNames(roomTypes)
    ensures forall n :: n in counts ==> counts[n] == (if n == ALL then |filtered| else RoomCount(items, n, design))
  {
    var names := ChipNames(roomTypes);
    counts := map[];
    var i := 0;
    while i < |names|
      invariant 0 <= i <= |names|
      invariant forall n :: n in counts <==> n in names[..i]
      invariant forall n :: n in counts ==> counts[n] == (if n == ALL then |filtered| else RoomCount(items, n, design))
    {
      var name := names[i];
      if name == ALL {
        counts := counts[ALL := |filtered|];
      } else {
        counts := counts[name := RoomCount(items, name, design)];
      }
      assert names[..i + 1] == names[..i] + [name];
      i := i + 1;
    }
    assert names[..i] == names;
  }

  /** With a blank query, clicking a room chip shows exactly as many items as it advertised. */
  lemma RoomCountMatchesSelection(items: seq<CatalogItem>, name: string, design: string)
    requires name != ALL
    ensures RoomCount(items, name, design) == |Filtered(items, design, name, "")|
  {
    var p := Both(Both(DesignSel(design), RoomSel(name)), QuerySel("", SearchText("")));
    StagesAreOneFilter(items, design, name, "", SearchText(""));
    assert IsBlank("");
    FilterExt(items, (i: CatalogItem) => RoomIs(i, name) && (design == ALL || DesignIs(i, design)), p);
  }

  /** The result of the initial load: all three lists, or the first error met. */
  datatype LoadResult = Loaded(designTypes: seq<NamedRef>, roomTypes: seq<NamedRef>, items: seq<CatalogItem>) | LoadFailed(message: string)

  /** The page's state. */
  class CatalogPage {
    var items: seq<CatalogItem>
    var designTypes: seq<NamedRef>
    var roomTypes: seq<NamedRef>
    var selectedDesignType: string
    var selectedRoomType: string
    var query: string  // no control on this page sets it; it stays ""
    var currentSlide: nat
    var showAllCategories: bool
    var error: Option<string>
    var isLoading: bool

    constructor ()
      ensures items == [] && designTypes == [] && roomTypes == []
      ensures selectedDesignType == ALL && selectedRoomType == ALL && query == ""
      ensures currentSlide == 0 && !showAllCategories && error.None? && isLoading
    {
      items := [];
      designTypes := [];
      roomTypes := [];
      selectedDesignType := ALL;
      selectedRoomType := ALL;
      query := "";
      currentSlide := 0;
      showAllCategories := false;
      error := None;
      isLoading := true;
    }

    /** The tiles on screen for the current selections, through the filter as the page writes it. */
    function Tiles(): seq<Tile>
      reads this`items, this`selectedDesignType, this`selectedRoomType, this`query
    {
      Expansion(FilteredAsWritten(items, selectedDesignType, selectedRoomType, query))
    }

    function SlideTotal(): (c: nat)
      reads this`items, this`selectedDesignType, this`selectedRoomType, this`query
      ensures c >= 1
    {
      SlideCount(|Tiles()|)
    }

    /** The initial load: the lists are set only when all three requests succeed. */
    method Load(result: LoadResult)
      modifies this`items, this`designTypes, this`roomTypes, this`error, this`isLoading
      ensures result.Loaded? ==> items == result.items && designTypes == result.designTypes
                                 && roomTypes == result.roomTypes && error.None?
      ensures result.LoadFailed? ==> items == old(items) && designTypes == old(designTypes)
                                     && roomTypes == old(roomTypes) && error == Some(result.message)
      ensures !isLoading
    {
      isLoading := true;
      if result.Loaded? {
        designTypes := result.designTypes;
        roomTypes := result.roomTypes;
        items := result.items;
        error := None;
      } else {
        error := Some(result.message);
      }
      isLoading := false;
    }

    method NextSlide()
      modifies this`currentSlide
      ensures currentSlide == NextIndex(old(currentSlide), old(SlideTotal()))
    {
      currentSlide := NextIndex(currentSlide, SlideTotal());
    }

    method PrevSlide()
      modifies this`currentSlide
      ensures currentSlide == PrevIndex(old(currentSlide), old(SlideTotal()))
    {
      currentSlide := PrevIndex(currentSlide, SlideTotal());
    }

    /** The five-second timer: it runs only while there is more than one slide. */
    method AutoAdvance()
      modifies this`currentSlide
      ensures old(SlideTotal()) > 1 ==> currentSlide == NextIndex(old(currentSlide), old(SlideTotal()))
      ensures old(SlideTotal()) <= 1 ==> currentSlide == old(currentSlide)
    {
      var count := SlideTotal();
      if count > 1 {
        currentSlide := NextIndex(currentSlide, count);
      }
    }

    /** A slider dot: dots exist only for slides `0 .. SlideTotal() - 1`. */
    method GoToSlide(index: nat)
      requires index < SlideTotal()
      modifies this`currentSlide
      ensures currentSlide == index
    {
      currentSlide := index;
    }

    /** A design-type chip (the first chip has id "all"): selects it and rewinds the slider. */
    method SelectDesignType(chip: NamedRef)
      modifies this`selectedDesignType, this`currentSlide
      ensures selectedDesignType == (if chip.id == ALL then ALL else chip.name) && currentSlide == 0
    {
      selectedDesignType := if chip.id == ALL then ALL else chip.name;
      currentSlide := 0;
    }

    /** A room-type chip: selects it and rewinds the slider. */
    method SelectRoomType(name: string)
      modifies this`selectedRoomType, this`currentSlide
      ensures selectedRoomType == name && currentSlide == 0
    {
      selectedRoomType := name;
      currentSlide := 0;
    }

    method ToggleCategories()
      modifies this`showAllCategories
      ensures showAllCategories == !old(showAllCategories)
    {
      showAllCategories := !showAllCategories;
    }
  }
}

=== FILE: util.dfy ===
/** JavaScript-flavoured string helpers shared by every page and route of the model:
    `includes`, `toLowerCase` (ASCII and the Azerbaijani capitals), the `\s` class,
    `trim`, and the decimal rendering of a non-negative number. */
module Util {

  datatype Option<T> = None | Some(value: T)

  /** `t` occurs in `s` starting at index `i`. */
  predicate OccursAt(s: string, t: string, i: int)
  {
    0 <= i <= |s| - |t| && s[i..i + |t|] == t
  }

  /** JavaScript's `s.includes(t)`: `t` occurs somewhere in `s`. */
  function Contains(s: string, t: string): bool
    decreases |s|
  {
    t <= s || (|s| > 0 && Contains(s[1..], t))
  }

  /** `Contains` agrees with the index-based reading of "occurs in". */
  lemma {:induction false} ContainsIff(s: string, t: string)
    ensures Contains(s, t) <==> exists i :: OccursAt(s, t, i)
  {
    if t <= s {
      assert OccursAt(s, t, 0);
    } else if |s| == 0 {
    } else {
      ContainsIff(s[1..], t);
      if Contains(s[1..], t) {
        var i :| OccursAt(s[1..], t, i);
        assert s[i + 1..i + 1 + |t|] == s[1..][i..i + |t|];
        assert OccursAt(s, t, i + 1);
      }
      if exists i :: OccursAt(s, t, i) {
        var i :| OccursAt(s, t, i);
        if i > 0 {
          assert s[1..][i - 1..i - 1 + |t|] == s[i..i + |t|];
          assert OccursAt(s[1..], t, i - 1);
        }
      }
    }
  }

  /** A string never contains a longer one. */
  lemma {:induction false} ContainsLonger(s: string, t: string)
    requires |t| > |s|
    ensures !Contains(s, t)
    decreases |s|
  {
    if |s| > 0 {
      ContainsLonger(s[1..], t);
    }
  }

  /** Every string contains the empty string (so an empty search term keeps everything). */
  lemma ContainsEmpty(s: string)
    ensures Contains(s, "")
  {
  }

  /** JavaScript's `\s` class (and the characters `trim` removes). */
  predicate IsSpace(c: char)
  {
    c == ' ' || c == '\t' || c == '\n' || c == '\r' || c == '\U{000B}' || c == '\U{000C}'
    || c == '\U{00A0}' || c == '\U{1680}' || ('\U{2000}' <= c <= '\U{200A}')
    || c == '\U{2028}' || c == '\U{2029}' || c == '\U{202F}' || c == '\U{205F}'
    || c == '\U{3000}' || c == '\U{FEFF}'
  }

  /** A character `toLowerCase` leaves as it is: no ASCII capital and none of the Azerbaijani
      capitals Ə Ö Ü Ğ Ş Ç İ. */
  predicate Uncased(c: char)
  {
    && !('A' <= c <= 'Z')
    && c != 'Ə' && c != 'Ö' && c != 'Ü' && c != 'Ğ' && c != 'Ş' && c != 'Ç' && c != 'İ'
  }

  /** `toLowerCase` on one character other than `İ`, for ASCII and the Azerbaijani capitals. */
  function LowerChar(c: char): (d: char)
    ensures c != 'İ' ==> Uncased(d)
    ensures d != c ==> 'A' <= c <= 'Z' || c in "ƏÖÜĞŞÇ"
  {
    if 'A' <= c <= 'Z' then (c as int + 32) as char
    else if c == 'Ə' then 'ə'
    else if c == 'Ö' then 'ö'
    else if c == 'Ü' then 'ü'
    else if c == 'Ğ' then 'ğ'
    else if c == 'Ş' then 'ş'
    else if c == 'Ç' then 'ç'
    else c
  }

  /** `toLowerCase` on one character: the dotted capital `İ` lower-cases to two characters,
      `i` and U+0307 COMBINING DOT ABOVE, every other character to one. */
  function LowerCharFull(c: char): (r: string)
    ensures 1 <= |r| <= 2
    ensures forall k :: 0 <= k < |r| ==> Uncased(r[k])
  {
    if c == 'İ' then ['i', '\U{0307}'] else [LowerChar(c)]
  }

  /** JavaScript's `toLowerCase`: one or two characters per character, and no capital left. */
  function Lower(s: string): (r: string)
    ensures |s| <= |r| <= 2 * |s|
    ensures forall k :: 0 <= k < |r| ==> Uncased(r[k])
  {
    if s == [] then [] else LowerCharFull(s[0]) + Lower(s[1..])
  }

  /** On text without `İ`, `toLowerCase` works one character at a time. */
  lemma {:induction false} LowerWithoutDottedI(s: string)
    requires forall i :: 0 <= i < |s| ==> s[i] != 'İ'
    ensures |Lower(s)| == |s|
    ensures forall i :: 0 <= i < |s| ==> Lower(s)[i] == LowerChar(s[i])
  {
    if s != [] {
      LowerWithoutDottedI(s[1..]);
      assert Lower(s) == [LowerChar(s[0])] + Lower(s[1..]);
    }
  }

  /** Lower-casing leaves text without capitals unchanged. */
  lemma {:induction false} LowerKeeps(s: string)
    requires forall i :: 0 <= i < |s| ==> Uncased(s[i])
    ensures Lower(s) == s
  {
    if s != [] {
      LowerKeeps(s[1..]);
    }
  }

  /** Lower-casing twice is lower-casing once. */
  lemma LowerIdempotent(s: string)
    ensures Lower(Lower(s)) == Lower(s)
  {
    LowerKeeps(Lower(s));
  }

  /** The dotted capital `İ` matches the term "i", since it lower-cases to `i` and a dot. */
  lemma DottedCapitalMatchesI()
    ensures Lower("İ") == ['i', '\U{0307}']
    ensures ContainsIgnoreCase("İ", "i")
  {
    assert Lower("i") == "i";
    assert ['i'] <= Lower("İ");
  }

  /** Case-insensitive `includes`, as the admin search boxes use it. */
  predicate ContainsIgnoreCase(s: string, term: string)
  {
    Contains(Lower(s), Lower(term))
  }

  function TrimStart(s: string): (r: string)
    ensures |r| <= |s| && r == s[|s| - |r|..]
    ensures r != [] ==> !IsSpace(r[0])
    ensures forall i :: 0 <= i < |s| - |r| ==> IsSpace(s[i])
  {
    if |s| > 0 && IsSpace(s[0]) then TrimStart(s[1..]) else s
  }

  function TrimEnd(s: string): (r: string)
    ensures |r| <= |s| && r == s[..|r|]
    ensures r != [] ==> !IsSpace(r[|r| - 1])
    ensures forall i :: |r| <= i < |s| ==> IsSpace(s[i])
  {
    if |s| > 0 && IsSpace(s[|s| - 1]) then TrimEnd(s[..|s| - 1]) else s
  }

  /** A prefix `b` of a suffix `a` of `s`, where `s` has only white space before `a` and `a`
      only white space after `b`, sits in `s` between two blank pieces. */
  lemma SliceBetweenBlanks(s: string, a: string, b: string)
    requires |a| <= |s| && a == s[|s| - |a|..]
    requires forall k :: 0 <= k < |s| - |a| ==> IsSpace(s[k])
    requires |b| <= |a| && b == a[..|b|]
    requires forall k :: |b| <= k < |a| ==> IsSpace(a[k])
    ensures var i := |s| - |a|;
            OccursAt(s, b, i) && IsBlank(s[..i]) && IsBlank(s[i + |b|..])
  {
    var i := |s| - |a|;
    forall k | 0 <= k < |b| ensures s[i..i + |b|][k] == b[k] {
      assert b[k] == a[k] == s[i + k];
    }
    assert s[i..i + |b|] == b;
    forall k | 0 <= k < i ensures IsSpace(s[..i][k]) {
      assert s[..i][k] == s[k];
    }
    var tail := s[i + |b|..];
    forall k | 0 <= k < |tail| ensures IsSpace(tail[k]) {
      assert tail[k] == a[|b| + k];
    }
  }

  /** JavaScript's `trim`: the input without its leading and trailing white space, that is,
      a contiguous slice with no white space at either end and only white space around it. */
  function Trim(s: string): (r: string)
    ensures r != [] ==> !IsSpace(r[0]) && !IsSpace(r[|r| - 1])
    ensures exists i :: OccursAt(s, r, i)
    ensures exists i :: OccursAt(s, r, i) && IsBlank(s[..i]) && IsBlank(s[i + |r|..])
  {
    var a := TrimStart(s);
    var b := TrimEnd(a);
    SliceBetweenBlanks(s, a, b);
    b
  }

  /** Trimming an already trimmed string changes nothing. */
  lemma TrimIdempotent(s: string)
    ensures Trim(Trim(s)) == Trim(s)
  {
    var r := Trim(s);
    assert TrimStart(r) == r;
    assert TrimEnd(r) == r;
  }

  /** Text that neither starts nor ends with white space is its own trim. */
  lemma TrimKeeps(s: string)
    requires s != [] ==> !IsSpace(s[0]) && !IsSpace(s[|s| - 1])
    ensures Trim(s) == s
  {
    assert TrimStart(s) == s;
    assert TrimEnd(s) == s;
  }

  /** A string is blank when it is all white space. */
  predicate IsBlank(s: string)
  {
    forall i :: 0 <= i < |s| ==> IsSpace(s[i])
  }

  /** Two pieces are blank together exactly when each is. */
  lemma BlankConcat(a: string, b: string)
    ensures IsBlank(a + b) <==> IsBlank(a) && IsBlank(b)
  {
    if IsBlank(a) && IsBlank(b) {
      forall i | 0 <= i < |a + b| ensures IsSpace((a + b)[i]) {
        if i >= |a| {
          assert (a + b)[i] == b[i - |a|];
        }
      }
    }
    if IsBlank(a + b) {
      forall i | 0 <= i < |a| ensures IsSpace(a[i]) {
        assert (a + b)[i] == a[i];
      }
      forall i | 0 <= i < |b| ensures IsSpace(b[i]) {
        assert (a + b)[|a| + i] == b[i];
      }
    }
  }

  /** A string is blank exactly when trimming leaves nothing. */
  lemma BlankIff(s: string)
    ensures IsBlank(s) <==> Trim(s) == ""
  {
    var a := TrimStart(s);
    if !forall i :: 0 <= i < |s| ==> IsSpace(s[i]) {
      var b := TrimEnd(a);
      var k :| 0 <= k < |s| && !IsSpace(s[k]);
      assert |s| - |a| <= k;
      assert a[k - (|s| - |a|)] == s[k];
      assert |b| > k - (|s| - |a|);
    }
  }

  function DigitChar(d: nat): char
    requires d < 10
  {
    "0123456789"[d]
  }

  /** The decimal text of a non-negative number, as template literals print it. */
  function NatToString(n: nat): (r: string)
    ensures |r| > 0
    ensures forall i :: 0 <= i < |r| ==> '0' <= r[i] <= '9'
  {
    if n < 10 then [DigitChar(n)] else NatToString(n / 10) + [DigitChar(n % 10)]
  }

  /** Integers print with a leading minus sign when negative. */
  function IntToString(n: int): string
  {
    if n < 0 then "-" + NatToString(-n) else NatToString(n)
  }

  /** `Array.prototype.filter`: the elements of `s` that satisfy `p`, in their original order. */
  function Filter<T>(s: seq<T>, p: T -> bool): (r: seq<T>)
    ensures |r| <= |s|
    ensures forall i :: 0 <= i < |r| ==> p(r[i])
  {
    if s == [] then [] else (if p(s[0]) then [s[0]] else []) + Filter(s[1..], p)
  }

  /** What the filter keeps comes from the input, and every element that passes is kept. */
  lemma {:induction false} FilterMembers<T>(s: seq<T>, p: T -> bool)
    ensures forall i :: 0 <= i < |Filter(s, p)| ==> Filter(s, p)[i] in s
    ensures forall i :: 0 <= i < |s| && p(s[i]) ==> s[i] in Filter(s, p)
  {
    if s != [] {
      FilterMembers(s[1..], p);
      var r := Filter(s, p);
      var rest := Filter(s[1..], p);
      assert r == (if p(s[0]) then [s[0]] else []) + rest;
      forall i | 0 <= i < |s| && p(s[i]) ensures s[i] in r {
        if i > 0 {
          assert s[i] == s[1..][i - 1];
        }
      }
    }
  }

  /** `a` is `b` with some elements dropped and the rest kept in order. */
  predicate IsSubsequence<T(==)>(a: seq<T>, b: seq<T>)
    decreases |b|
  {
    a == [] || (b != [] && if a[0] == b[0] then IsSubsequence(a[1..], b[1..]) else IsSubsequence(a, b[1..]))
  }

  lemma {:induction false} FilterIsSubsequence<T>(s: seq<T>, p: T -> bool)
    ensures IsSubsequence(Filter(s, p), s)
  {
    if s != [] {
      FilterIsSubsequence(s[1..], p);
      if p(s[0]) {
        assert Filter(s, p) == [s[0]] + Filter(s[1..], p);
        assert Filter(s, p)[1..] == Filter(s[1..], p);
      } else {
        assert Filter(s, p) == Filter(s[1..], p);
      }
    }
  }

  /** Filtering distributes over concatenation. */
  lemma {:induction false} FilterAppend<T>(a: seq<T>, b: seq<T>, p: T -> bool)
    ensures Filter(a + b, p) == Filter(a, p) + Filter(b, p)
  {
    if a == [] {
      assert a + b == b;
    } else {
      assert (a + b)[1..] == a[1..] + b;
      FilterAppend(a[1..], b, p);
    }
  }

  /** Filtering with a predicate that rejects nothing returns the input unchanged. */
  lemma {:induction false} FilterAll<T>(s: seq<T>, p: T -> bool)
    requires forall i :: 0 <= i < |s| ==> p(s[i])
    ensures Filter(s, p) == s
  {
    if s != [] {
      FilterAll(s[1..], p);
    }
  }

  /** Filtering depends only on what the predicate says about the elements of `s`. */
  lemma {:induction false} FilterExt<T>(s: seq<T>, p: T -> bool, q: T -> bool)
    requires forall i :: 0 <= i < |s| ==> p(s[i]) == q(s[i])
    ensures Filter(s, p) == Filter(s, q)
  {
    if s != [] {
      FilterExt(s[1..], p, q);
    }
  }

  /** Filtering with a predicate that accepts nothing returns nothing. */
  lemma {:induction false} FilterNone<T>(s: seq<T>, p: T -> bool)
    requires forall i :: 0 <= i < |s| ==> !p(s[i])
    ensures Filter(s, p) == []
  {
    if s != [] {
      FilterNone(s[1..], p);
    }
  }

  /** Filtering twice with the same predicate changes nothing the second time. */
  lemma FilterIdempotent<T>(s: seq<T>, p: T -> bool)
    ensures Filter(Filter(s, p), p) == Filter(s, p)
  {
    FilterAll(Filter(s, p), p);
  }

  /** `truthy(x)` for an optional string: present and not empty. */
  predicate Truthy(o: Option<string>)
  {
    o.Some? && o.value != ""
  }

  /** No two elements of `s` share a key. */
  ghost predicate DistinctBy<T, K>(s: seq<T>, key: T -> K)
  {
    forall i, j :: 0 <= i < j < |s| ==> key(s[i]) != key(s[j])
  }

  /** Dropping elements never makes two keys collide. */
  lemma {:induction false} FilterKeepsDistinct<T, K>(s: seq<T>, p: T -> bool, key: T -> K)
    requires DistinctBy(s, key)
    ensures DistinctBy(Filter(s, p), key)
  {
    if s != [] {
      FilterKeepsDistinct(s[1..], p, key);
      FilterMembers(s[1..], p);
      var rest := Filter(s[1..], p);
      if p(s[0]) {
        var r := [s[0]] + rest;
        assert Filter(s, p) == r;
        forall i, j | 0 <= i < j < |r| ensures key(r[i]) != key(r[j]) {
          if i == 0 {
            assert r[j] == rest[j - 1] && rest[j - 1] in s[1..];
            var k :| 0 <= k < |s[1..]| && s[1..][k] == rest[j - 1];
            assert s[k + 1] == r[j];
          }
        }
      }
    }
  }

  /** The conjunction of two predicates. */
  function Both<T>(p: T -> bool, q: T -> bool): T -> bool
  {
    x => p(x) && q(x)
  }

  /** Filtering twice is filtering once by both predicates. */
  lemma {:induction false} FilterFilter<T>(s: seq<T>, p: T -> bool, q: T -> bool)
    ensures Filter(Filter(s, p), q) == Filter(s, Both(p, q))
  {
    if s != [] {
      FilterFilter(s[1..], p, q);
      var pq := Both(p, q);
      assert Filter(s, pq) == (if pq(s[0]) then [s[0]] else []) + Filter(s[1..], pq);
      var fp := Filter(s, p);
      if p(s[0]) {
        assert fp == [s[0]] + Filter(s[1..], p);
        assert fp[0] == s[0] && fp[1..] == Filter(s[1..], p);
        assert Filter(fp, q) == (if q(fp[0]) then [fp[0]] else []) + Filter(fp[1..], q);
      } else {
        assert fp == Filter(s[1..], p);
        assert !pq(s[0]);
      }
    }
  }

  lemma {:induction false} NatToStringLength(n: nat)
    ensures n >= 10 ==> |NatToString(n)| >= 2
  {
  }

  /** Different digits are different characters. */
  lemma DigitCharInjective(x: nat, y: nat)
    requires x < 10 && y < 10 && DigitChar(x) == DigitChar(y)
    ensures x == y
  {
    assert DigitChar(x) == ('0' as int + x) as char;
    assert DigitChar(y) == ('0' as int + y) as char;
  }

  /** A number is ten times its quotient plus its last digit. */
  lemma TenfoldSplit(a: nat, b: nat)
    requires a / 10 == b / 10 && a % 10 == b % 10
    ensures a == b
  {
    assert a == 10 * (a / 10) + a % 10;
    assert b == 10 * (b / 10) + b % 10;
  }

  /** A number of two or more digits prints as its quotient by ten followed by its last digit. */
  lemma NatToStringSplit(a: nat)
    requires a >= 10
    ensures |NatToString(a)| >= 2
    ensures NatToString(a)[|NatToString(a)| - 1] == DigitChar(a % 10)
    ensures NatToString(a)[..|NatToString(a)| - 1] == NatToString(a / 10)
  {
    var sa := NatToString(a);
    assert sa == NatToString(a / 10) + [DigitChar(a % 10)];
  }

  /** Different numbers print differently. */
  lemma {:induction false} NatToStringInjective(a: nat, b: nat)
    requires NatToString(a) == NatToString(b)
    ensures a == b
  {
    if a < 10 && b < 10 {
      DigitCharInjective(a, b);
    } else if a < 10 {
      NatToStringSplit(b);
    } else if b < 10 {
      NatToStringSplit(a);
    } else {
      NatToStringSplit(a);
      NatToStringSplit(b);
      DigitCharInjective(a % 10, b % 10);
      NatToStringInjective(a / 10, b / 10);
      TenfoldSplit(a, b);
    }
  }

  /** Within a string ending in two digit runs each preceded by a hyphen, the runs have equal length. */
  lemma DigitsHaveNoDash(x: string, y: string, s: string)
    requires forall i :: 0 <= i < |y| ==> '0' <= y[i] <= '9'
    requires |x| + 1 <= |s| && s[|s| - |x| - 1] == '-'
    requires |y| <= |s| && s[|s| - |y|..] == y
    ensures |x| >= |y|
  {
  }

  /** `a + "-" + d` determines `a` and `d` when `d` is a number: the number is what follows the last hyphen. */
  lemma {:induction false} DashNumberInjective(a: string, m: nat, b: string, n: nat)
    requires a + "-" + NatToString(m) == b + "-" + NatToString(n)
    ensures a == b && m == n
  {
    var x, y := NatToString(m), NatToString(n);
    var s := a + "-" + x;
    assert s == b + "-" + y;
    DigitsHaveNoDash(x, y, s);
    DigitsHaveNoDash(y, x, s);
    assert x == s[|s| - |x|..] == y;
    NatToStringInjective(m, n);
    assert a == s[..|a|] == b;
  }
}
